=== FILE: README.md ===
# Invoice engine of Fakturace, modelled in Dafny

Fakturace is a Czech invoicing application. Its invoice engine exists in
several parallel implementations, and this project models each one as written
rather than merging them:

- **C# core** (`Fakturace.Core`): the `Invoice` and `InvoiceItem` records and the
  in-memory `InvoiceService`.
  - Number generation per type and year (`F…`/`ZF…-000001`).
  - Recalculation of totals.
  - The Paid/Cancelled status rules.
  - Conversion of a paid advance invoice into a regular invoice.
- **NestJS back end**:
  - Invoices and offers: discounted line pricing, company counters, partial updates.
  - Orders: `ZAK` numbering, timeline events, conversion of an offer into an order.
  - The post-query logic of the dashboard: monthly revenue, top clients, recent activity.
- **Express back end**:
  - `calculateVAT` with cent rounding.
  - `FA`/`ZF`/`NB` invoice numbers.
  - The write path of the invoice controller: count-based numbering and the `vat_rate || 21` default.
  - The month, quarter and year statistics and the dashboard month chart.
- **React client**:
  - The invoice form: live totals with and without VAT-inclusive prices, adding and removing lines, client search, submit checks.
  - The generator of the PDF test invoice.

The model is functional:

- The C# list of invoices, the NestJS database and the Express tables are
  immutable values threaded through operations that return a `Result`.
- Wall-clock time and fresh ids are parameters.
- Money is exact `real` arithmetic. C# `decimal` and Prisma `Decimal` are exact;
  for JavaScript numbers the model takes ideal arithmetic.

Modules:

- **Shared helpers**:
  - `Wrappers` (Option/Result).
  - `Sums`: left-folded sums, and the maximum over a selection.
  - `Sorting`: filtering, stable descending sort, first index.
  - `Text`: digits, padding, splitting, case, JavaScript white space.
  - `Calendar`: Gregorian dates, `AddDays`.
  - `DotNet`: `int.TryParse`, `ToString("D6")`, 32-bit wrap-around.
- **C# core**: `CoreModels`, `CoreTotals`, `CoreNumbering`, `CoreService`, `CoreServiceLemmas`.
- **NestJS**: `NestDb`, `NestPricing`, `NestInvoices`, `NestOffers`, `NestOrders`, `NestDashboard`.
- **Express**: `ExpressHelpers`, `ExpressInvoices`, `ExpressStats`.
- **Client**: `ClientInvoiceForm`, `ClientTestData`.

## Model

| member | source | states |
|---|---|---|
| CoreModels.NewItem | Fakturace.Core/Models/InvoiceItem.cs:21-56 | A new line has unit "ks", an empty description and zero quantity, price, rate and derived amounts |
| CoreModels.NewInvoice | Fakturace.Core/Models/Invoice.cs:21-111 | A new invoice has empty number and variable symbol (the triggers for generating them), currency "CZK", no items, no note, no links, auto-conversion off |
| CoreTotals.RecalculateItem | Fakturace.Core/Services/InvoiceService.cs:246-250 | A recalculated line is consistent: net = quantity × unit price, VAT = net × rate/100, gross = net + VAT; its inputs are kept and it belongs to the invoice |
| CoreTotals.RecalculateItems | Fakturace.Core/Services/InvoiceService.cs:244-256 | Every line is recalculated, none added or dropped, inputs kept line by line |
| CoreTotals.Recalculate | Fakturace.Core/Services/InvoiceService.cs:241-261 | The result is consistent (invoice amounts are the unrounded sums of the line amounts) and differs from the input only in derived amounts and line owners |
| CoreTotals.ItemInputsDetermineAmounts | Fakturace.Core/Models/InvoiceItem.cs:43-56 | Two consistent lines with the same inputs have the same net, VAT and gross |
| CoreTotals.SameLinesSameTotals | Fakturace.Core/Services/InvoiceService.cs:258-260 | Consistent invoices with the same line inputs have the same three totals |
| CoreTotals.TotalIsNetPlusVat | Fakturace.Core/Services/InvoiceService.cs:258-260 | A consistent invoice's total is its net amount plus its VAT, with no rounding |
| CoreTotals.UniformRateVat | Fakturace.Core/Services/InvoiceService.cs:246-260 | When every line has the same rate, the invoice VAT is rate/100 × the net amount |
| CoreTotals.RecalculateFixesConsistent | Fakturace.Core/Services/InvoiceService.cs:241-261 | Recalculating an already consistent invoice whose lines belong to it changes nothing |
| CoreTotals.RecalculateIdempotent | Fakturace.Core/Services/InvoiceService.cs:241-261 | Recalculating twice is recalculating once |
| CoreTotals.EmptyInvoiceTotalsZero | Fakturace.Core/Models/Invoice.cs:91 | An invoice without lines totals 0 (net, VAT and total) |
| DotNet.Wrap32 | Fakturace.Core/Services/InvoiceService.cs:233 | C# unchecked `int` addition: the result is an Int32, equal to the exact value when that fits and congruent to it modulo 2^32 |
| DotNet.TryParseInt32 | Fakturace.Core/Services/InvoiceService.cs:224 | `int.TryParse` succeeds only with an Int32 value |
| DotNet.FormatD | Fakturace.Core/Services/InvoiceService.cs:234 | `ToString("D6")` is non-empty, all digits for a non-negative value, and has a '-' exactly for a negative value |
| DotNet.ParseDigits | Fakturace.Core/Services/InvoiceService.cs:224 | A run of ASCII digits within Int32 range parses to its decimal value |
| DotNet.ParseNegativeDigits | Fakturace.Core/Services/InvoiceService.cs:224 | A '-' followed by digits parses to the negated value |
| DotNet.FormatDParses | Fakturace.Core/Services/InvoiceService.cs:224-234 | Every Int32 survives `D` formatting followed by `int.TryParse` |
| CoreNumbering.SuffixValue | Fakturace.Core/Services/InvoiceService.cs:221-229 | The value read from a number's suffix is between 0 and Int32.MaxValue: an unreadable or missing suffix counts as 0 |
| CoreNumbering.NoMinusNonNegative | Fakturace.Core/Services/InvoiceService.cs:221-226 | A piece without '-' never parses to a negative value, so a split suffix is never negative |
| CoreNumbering.MaxSuffix | Fakturace.Core/Services/InvoiceService.cs:217-231 | The maximum is at least every suffix of a same-type, same-year invoice carrying the type's prefix, and is 0 or one of those suffixes |
| CoreNumbering.NumberText | Fakturace.Core/Services/InvoiceService.cs:214-234 | A formatted number starts with the type's prefix |
| CoreNumbering.GenerateInvoiceNumber | Fakturace.Core/Services/InvoiceService.cs:209-236 | A generated number starts with "ZF" for an advance invoice and "F" otherwise |
| CoreNumbering.NumberTextShape | Fakturace.Core/Services/InvoiceService.cs:234 | The number splits on '-' into prefix+year and at least six digits, and its suffix reads back as the sequence value |
| CoreNumbering.GeneratedNumberShape | Fakturace.Core/Services/InvoiceService.cs:209-236 | Below the Int32 limit, the generated number's suffix reads back as the partition maximum plus one |
| CoreNumbering.SameMaxSameNumber | Fakturace.Core/Services/InvoiceService.cs:230-234 | The next number depends on the list only through the partition maximum |
| CoreNumbering.RegularNumberNotAdvance | Fakturace.Core/Services/InvoiceService.cs:214 | A regular invoice's number never starts with the advance prefix "ZF" |
| CoreNumbering.MaxSuffixAppendOther | Fakturace.Core/Services/InvoiceService.cs:217-220 | An invoice of another type, year or prefix does not move a partition's maximum |
| CoreNumbering.MaxSuffixAppendMember | Fakturace.Core/Services/InvoiceService.cs:217-231 | An invoice of the partition raises the maximum to its suffix when larger |
| CoreService.FindIndex | Fakturace.Core/Services/InvoiceService.cs:58 | The first position holding the id, or none exactly when no invoice has it |
| CoreService.GetInvoice | Fakturace.Core/Services/InvoiceService.cs:54-61 | The invoice returned is stored and has the id; nothing is returned exactly when no stored invoice has it |
| CoreService.CreateInvoice | Fakturace.Core/Services/InvoiceService.cs:17-49 | The invoice is appended. An empty id becomes the fresh id. An empty number is generated from the issue year and the list before the append; a given one is kept. An empty variable symbol becomes the whole number. Totals are recalculated, timestamps set, and every other field kept |
| CoreService.UpdateInvoice | Fakturace.Core/Services/InvoiceService.cs:77-97 | Fails with NotFound exactly for an unknown id. Otherwise the list keeps its length: the other invoices stay in their order and the recalculated invoice, with its new timestamp and every input kept, moves to the end |
| CoreService.MarkAsPaid | Fakturace.Core/Services/InvoiceService.cs:102-128 | Fails exactly for an unknown id (NotFound) or a Cancelled invoice. Otherwise the invoice is Paid (also when already Paid) and keeps every other input (customer, dates, lines, number); only its timestamp changes, and its link to a regular invoice exactly when the payment converts it. One invoice is added exactly when an auto-converting advance without a regular invoice is paid. The new list is the other invoices in their order, then the regular invoice a direct conversion of the stored advance creates (only when the payment converts), then the paid invoice |
| CoreService.MarkAsPaidSettles | Fakturace.Core/Services/InvoiceService.cs:115-127 | A successful payment stores the invoice as Paid first and then performs the conversion step on that list |
| CoreService.SettlePayment | Fakturace.Core/Services/InvoiceService.cs:117-127 | The conversion step keeps the paid invoice's id, status and inputs, sets its regular-invoice link exactly when it converts, and adds one invoice exactly then. The other invoices keep their order, followed by the created regular invoice, when there is one, and the paid invoice |
| CoreService.CancelInvoice | Fakturace.Core/Services/InvoiceService.cs:133-150 | Fails exactly for an unknown id (NotFound) or a Paid invoice. Otherwise the invoice is Cancelled with every header field kept, and the list keeps its length |
| CoreService.CancelUpdates | Fakturace.Core/Services/InvoiceService.cs:146-149 | A successful cancellation is an update of the stored invoice with status Cancelled |
| CoreService.ConversionNote | Fakturace.Core/Services/InvoiceService.cs:188 | The note of a converted invoice contains the advance invoice's number |
| CoreService.CopyItem | Fakturace.Core/Services/InvoiceService.cs:189-200 | A copied line has the advance line's inputs |
| CoreService.CopyItems | Fakturace.Core/Services/InvoiceService.cs:189-200 | All advance lines are copied, in order, with their inputs |
| CoreService.CreateRegularFromAdvance | Fakturace.Core/Services/InvoiceService.cs:155-204 | Fails exactly when the invoice is missing, is not an advance, or already has a regular invoice. Otherwise it appends a Regular, Issued invoice. That invoice gets the next number of the Regular series of the current year, with the variable symbol equal to it. It is created now, issued now and due in 14 days. It has the advance's customer, currency and line inputs, points back at the advance, and has a note naming the advance. Its total equals a consistent advance's total: no reversing line |
| CoreServiceLemmas.UniqueLookup | Fakturace.Core/Services/InvoiceService.cs:54-61 | With unique ids, looking up a stored invoice's id finds exactly that invoice |
| CoreServiceLemmas.ReplaceUnique | Fakturace.Core/Services/InvoiceService.cs:92-93 | Removing an invoice and re-adding one with the same id keeps ids unique |
| CoreServiceLemmas.UpdateLookup | Fakturace.Core/Services/InvoiceService.cs:77-97 | After an update, the id finds the updated invoice and every other id finds what it found before |
| CoreServiceLemmas.ReplaceLookupOther | Fakturace.Core/Services/InvoiceService.cs:92-93 | Remove-and-re-add changes no lookup of another id |
| CoreServiceLemmas.AppendPreservesValid | Fakturace.Core/Services/InvoiceService.cs:43-45 | Appending a consistent invoice with a fresh, non-empty id keeps the list valid (unique non-empty ids, consistent totals) |
| CoreServiceLemmas.ReplacePreservesValid | Fakturace.Core/Services/InvoiceService.cs:90-93 | Replacing an invoice by a consistent one with the same id keeps the list valid |
| CoreServiceLemmas.ConsecutiveNumbers | Fakturace.Tests/InvoiceServiceTests.cs:245-273 | Two creations of the same type and year with empty numbers get suffixes max+1 and max+2 |
| CoreServiceLemmas.SeparateSeries | Fakturace.Tests/InvoiceServiceTests.cs:245-273 | Creating an invoice of one type leaves the other type's next number unchanged |
| CoreServiceLemmas.FirstNumberOfYear | Fakturace.Core/Services/InvoiceService.cs:230-234 | With no invoice in the partition, the next number is prefix + year + "-000001" |
| CoreServiceLemmas.CreatePreservesValid | Fakturace.Core/Services/InvoiceService.cs:17-49 | Creating with a fresh non-empty id keeps the list valid |
| CoreServiceLemmas.UpdatePreservesValid | Fakturace.Core/Services/InvoiceService.cs:77-97 | A successful update keeps the list valid |
| CoreServiceLemmas.CancelPreservesValid | Fakturace.Core/Services/InvoiceService.cs:133-150 | A successful cancellation keeps the list valid |
| CoreServiceLemmas.CreateRegularPreservesValid | Fakturace.Core/Services/InvoiceService.cs:155-204 | A successful conversion with a fresh id keeps the list valid |
| CoreServiceLemmas.SetPreservesValid | Fakturace.Core/Services/InvoiceService.cs:115 | Changing a stored invoice in place, keeping its id and consistency, keeps the list valid |
| CoreServiceLemmas.CreateRegularKeepsUnique | Fakturace.Core/Services/InvoiceService.cs:155-204 | A conversion with a fresh id keeps ids unique |
| CoreServiceLemmas.SettlePreservesValid | Fakturace.Core/Services/InvoiceService.cs:117-127 | The conversion step of a payment keeps the list valid |
| CoreServiceLemmas.MarkAsPaidPreservesValid | Fakturace.Core/Services/InvoiceService.cs:102-128 | A successful payment, including its automatic conversion, keeps the list valid |
| CoreServiceLemmas.CancelThenPayFails | Fakturace.Core/Services/InvoiceService.cs:110-113 | A cancelled invoice can no longer be paid |
| CoreServiceLemmas.PayThenCancelFails | Fakturace.Core/Services/InvoiceService.cs:141-144 | A paid invoice can no longer be cancelled |
| CoreServiceLemmas.PaidIsStored | Fakturace.Core/Services/InvoiceService.cs:102-128 | After a payment, the id finds the invoice the call returned |
| CoreServiceLemmas.SettledIsStored | Fakturace.Core/Services/InvoiceService.cs:117-127 | After the conversion step, the id finds the paid invoice it returned |
| CoreServiceLemmas.PaymentLinksBothWays | Fakturace.Core/Services/InvoiceService.cs:118-125 | Paying an auto-converting advance succeeds and adds exactly one invoice. The advance then points to a stored Regular invoice, which points back to it |
| CoreServiceLemmas.PaymentLinksForward | Fakturace.Core/Services/InvoiceService.cs:119-125 | The paid advance names the new regular invoice, which is stored, Regular, and names the advance |
| CoreServiceLemmas.SettleLinks | Fakturace.Core/Services/InvoiceService.cs:119-125 | The conversion step sets the links in both directions |
| CoreServiceLemmas.SecondPaymentConvertsNothing | Fakturace.Core/Services/InvoiceService.cs:118-119 | Paying the same advance again succeeds and creates no second regular invoice |
| CoreServiceLemmas.DirectConversionLeavesAdvanceUnlinked | Fakturace.Core/Services/InvoiceService.cs:155-204 | A direct conversion leaves the advance untouched and unlinked, so a second direct conversion of it also succeeds |
| NestDb.CompanyIndex | backend/src/invoices/invoices.service.ts:12-14 | The company found belongs to the user; none is found exactly when the user has no company |
| NestDb.OrElse | backend/src/invoices/invoices.service.ts:64 | JavaScript `value \|\| fallback` on strings: a non-empty value wins; an absent or empty one gives the fallback |
| NestDb.DocumentNumber | backend/src/invoices/invoices.service.ts:55 | The number starts with the prefix and, for a non-negative counter, has at least six characters after it |
| NestDb.DocumentNumberReadsBack | backend/src/offers/offers.service.ts:53 | After the prefix come only digits, and they read back as the counter |
| NestDb.DocumentNumberInjective | backend/src/invoices/invoices.service.ts:55 | Different non-negative counters give different numbers under one prefix |
| NestDb.ConsecutiveNumbersDiffer | backend/src/invoices/invoices.service.ts:55-108 | Counter n and n+1 give different numbers |
| NestDb.DigitsOfDocumentNumber | backend/src/invoices/invoices.service.ts:64 | With a digit-free prefix, the digits of a number are the six-digit padded counter and read back as it |
| NestPricing.PriceItem | backend/src/invoices/invoices.service.ts:33-50 | A stored line keeps its inputs, takes a missing discount as 0, and totals quantity × price × (1 − discount/100) plus VAT at rate/100 |
| NestPricing.PriceItems | backend/src/invoices/invoices.service.ts:30-52 | Each line priced in order; subtotal and VAT are the sums over lines, and total = subtotal + VAT |
| NestPricing.DocumentTotalIsSumOfLines | backend/src/offers/offers.service.ts:31-50 | The document total is also the sum of the stored line totals |
| NestPricing.LineTotalFactors | backend/src/offers/offers.service.ts:31-48 | A line total is quantity × price × (1 − discount/100) × (1 + rate/100) |
| NestPricing.FullDiscountIsFree | backend/src/invoices/invoices.service.ts:37-41 | A 100% discount makes a line's subtotal, VAT and total 0 |
| NestPricing.UniformRateDocumentVat | backend/src/invoices/invoices.service.ts:30-52 | When every line has one rate, the document VAT is rate/100 × the subtotal |
| NestInvoices.InvoiceIndex | backend/src/invoices/invoices.service.ts:141-143 | The invoice found matches both id and user; none is found exactly when no invoice does |
| NestInvoices.NewRow | backend/src/invoices/invoices.service.ts:52-101 | The new row has number prefix + padded counter. The issue date defaults to now and the due date to issue + default due days. The tax date is the issue date. Type defaults to 'standard' and currency to 'CZK'. The variable symbol defaults to the number's digits. The totals are the priced sums |
| NestInvoices.Create | backend/src/invoices/invoices.service.ts:10-111 | Fails exactly without a company (BadRequest) or with an unknown client (NotFound). Otherwise it appends the new row and raises only that company's counter by 1, using the number the company announced |
| NestInvoices.FindOne | backend/src/invoices/invoices.service.ts:140-156 | Returns a stored invoice with the id and user, and NotFound exactly when there is none |
| NestInvoices.Patch | backend/src/invoices/invoices.service.ts:158-222 | Only supplied fields change, and any status string is accepted. Lines and totals are replaced and recomputed only when items are supplied; everything else is kept |
| NestInvoices.Update | backend/src/invoices/invoices.service.ts:158-232 | NotFound exactly when findOne fails; otherwise only that row is replaced by its patch |
| NestInvoices.Remove | backend/src/invoices/invoices.service.ts:234-239 | NotFound exactly when findOne fails; otherwise exactly that row is removed and nothing else changes; the others keep their order |
| NestInvoices.EmptyUpdateChangesNothing | backend/src/invoices/invoices.service.ts:163-176 | An update supplying nothing leaves the database as it was |
| NestInvoices.UpdateThenFind | backend/src/invoices/invoices.service.ts:158-232 | After an update, findOne returns the updated row |
| NestInvoices.CreateAdvancesCounter | backend/src/invoices/invoices.service.ts:104-108 | A creation keeps the user's company in place with its counter one higher |
| NestInvoices.CreateMovesNextNumber | backend/src/invoices/invoices.service.ts:55-108 | After a creation, the next number is built from the counter + 1 |
| NestInvoices.SuccessiveCreatesNumberApart | backend/src/invoices/invoices.service.ts:55-108 | For a non-negative counter, the next number differs from the one just given |
| NestInvoices.DefaultSymbolIsCounter | backend/src/invoices/invoices.service.ts:64 | With a digit-free prefix and no symbol sent, the variable symbol is all digits and reads as the counter |
| NestOffers.OfferIndex | backend/src/offers/offers.service.ts:126-128 | The offer found matches both id and user; none exactly when no offer does |
| NestOffers.NewRow | backend/src/offers/offers.service.ts:31-91 | The new offer has number prefix + padded counter, is issued now, and is valid until the given date or 30 days on. Its totals are the discounted sums |
| NestOffers.Create | backend/src/offers/offers.service.ts:10-100 | Fails exactly without a company (BadRequest) or with an unknown client (NotFound). Otherwise it appends the offer and raises only the company's offer counter by 1 |
| NestOffers.FindOne | backend/src/offers/offers.service.ts:125-140 | Returns a stored offer with the id and user, NotFound exactly when there is none |
| NestOffers.Patch | backend/src/offers/offers.service.ts:142-212 | Only supplied fields change; lines and totals are recomputed only when items are supplied |
| NestOffers.Update | backend/src/offers/offers.service.ts:142-213 | NotFound exactly when findOne fails; otherwise only that row is replaced by its patch |
| NestOffers.Remove | backend/src/offers/offers.service.ts:215-220 | NotFound exactly when findOne fails; otherwise exactly that offer is removed; the others keep their order |
| NestOffers.EmptyUpdateChangesNothing | backend/src/offers/offers.service.ts:142-213 | An update supplying nothing changes nothing |
| NestOffers.UpdateThenFind | backend/src/offers/offers.service.ts:142-213 | After an update, findOne returns the updated offer |
| NestOffers.DefaultValidityIsThirtyDays | backend/src/offers/offers.service.ts:56-59 | Without a validity date, an offer is valid until 30 days after issue |
| NestOffers.CreateAdvancesOfferCounter | backend/src/offers/offers.service.ts:93-97 | A creation raises the user's company's offer counter by exactly 1 |
| NestOffers.CreateMovesNextNumber | backend/src/offers/offers.service.ts:53-97 | After a creation, the next offer number is built from the counter + 1 |
| NestOffers.SuccessiveCreatesNumberApart | backend/src/offers/offers.service.ts:53-97 | For a non-negative counter, the next offer number differs from the one just given |
| NestOrders.OrderIndex | backend/src/orders/orders.service.ts:82-84 | The order found matches id and user; none exactly when no order does |
| NestOrders.NextOrderNumberCounts | backend/src/orders/orders.service.ts:29-30 | The order number is "ZAK" followed by digits reading as the count of all orders + 1 |
| NestOrders.Create | backend/src/orders/orders.service.ts:9-55 | Fails exactly for an unknown client, or for an offer id given but not found for the user. Otherwise it appends one order numbered from the count, with the given fields and exactly one 'created' event |
| NestOrders.FindOne | backend/src/orders/orders.service.ts:81-105 | Returns a stored order with the id and user, NotFound exactly when there is none |
| NestOrders.StatusEvent | backend/src/orders/orders.service.ts:111-119 | An event is recorded exactly when a non-empty status is sent that differs from the current one. It names the new status, with the description "Status changed to " + status |
| NestOrders.Patch | backend/src/orders/orders.service.ts:107-129 | Present fields are written. The timeline keeps its old events as a prefix and grows by one exactly on a status change; the added event is the new status with the description "Status changed to " + status |
| NestOrders.Update | backend/src/orders/orders.service.ts:107-129 | NotFound exactly when findOne fails; otherwise only that order is replaced by its patch |
| NestOrders.Remove | backend/src/orders/orders.service.ts:131-136 | NotFound exactly when findOne fails; otherwise exactly that order is removed; the others keep their order |
| NestOrders.AddTimelineEvent | backend/src/orders/orders.service.ts:138-148 | NotFound exactly when findOne fails; otherwise the event is appended to that order's timeline and nothing else changes |
| NestOrders.ConvertOfferToOrder | backend/src/orders/orders.service.ts:150-204 | Fails exactly for an unknown or foreign offer (NotFound) or a rejected or expired one (BadRequest). Otherwise it appends the order built from the offer and marks only that offer 'accepted' |
| NestOrders.CreateMovesOrderNumber | backend/src/orders/orders.service.ts:29-30 | After a creation the next order number differs from the one just given |
| NestOrders.RemoveThenCreateReusesNumber | backend/src/orders/orders.service.ts:29-30 | Numbering counts rows: after a removal, the next creation repeats the last number given |
| NestOrders.SameStatusLogsNothing | backend/src/orders/orders.service.ts:111-119 | Re-sending the current status adds no event |
| NestOrders.RepeatedStatusLogsOnce | backend/src/orders/orders.service.ts:111-119 | Sending the same status change twice logs it once |
| NestOrders.ConvertedOrderCarriesOffer | backend/src/orders/orders.service.ts:166-195 | The converted order has the offer's client and total, links to the offer, is numbered from the count, and has events 'created' then 'approved' |
| NestOrders.ConvertedOfferIsAccepted | backend/src/orders/orders.service.ts:198-201 | After conversion findOne sees the offer 'accepted' with nothing else changed |
| NestOrders.ConvertTwiceAllowed | backend/src/orders/orders.service.ts:158-164 | An accepted offer can be converted again |
| NestOrders.ConvertTwiceNumbersApart | backend/src/orders/orders.service.ts:166-167 | A second conversion's order gets a different number |
| NestDashboard.TallyStep | backend/src/dashboard/dashboard.service.ts:99-109 | Adding one invoice to its month keeps every month equal to the sums over the invoices seen |
| NestDashboard.MonthlyRevenue | backend/src/dashboard/dashboard.service.ts:92-112 | Exactly 12 rows for months 1..12; each month's revenue, paid and unpaid are the sums of the totals of the invoices issued in that month (all, 'paid' only, the rest) |
| NestDashboard.MonthSplits | backend/src/dashboard/dashboard.service.ts:102-108 | Each month's revenue is its paid plus its unpaid amount |
| NestDashboard.LandsOnce | backend/src/dashboard/dashboard.service.ts:100-102 | An invoice's total is counted in exactly one month |
| NestDashboard.MonthsAddUpToTotal | backend/src/dashboard/dashboard.service.ts:92-112 | The twelve months add up to the total of all invoices: nothing lost, nothing counted twice |
| NestDashboard.SumOfPaid | backend/src/dashboard/dashboard.service.ts:138-142 | Summing the filtered 'paid' invoices equals summing totals masked by status |
| NestDashboard.StatsOf | backend/src/dashboard/dashboard.service.ts:135-148 | A client's revenue is the sum of its invoice totals, paid revenue the sum over 'paid' ones, count its number of invoices |
| NestDashboard.AllStats | backend/src/dashboard/dashboard.service.ts:135-148 | One figure row per client, in order |
| NestDashboard.RankedClients | backend/src/dashboard/dashboard.service.ts:150-151 | A permutation of the clients' figures, sorted by total revenue, highest first |
| NestDashboard.TopClients | backend/src/dashboard/dashboard.service.ts:114-152 | The ranking cut to the limit (10 by default): min(limit, clients) rows |
| NestDashboard.TopClientsRanked | backend/src/dashboard/dashboard.service.ts:150-152 | The top clients are in non-increasing revenue order and each is some client's figures |
| NestDashboard.TopAndDroppedAreAll | backend/src/dashboard/dashboard.service.ts:150-152 | Kept and dropped clients together are exactly all clients |
| NestDashboard.TopClientsAreTop | backend/src/dashboard/dashboard.service.ts:150-152 | No dropped client earned more than a kept one |
| NestDashboard.TopClientsKeepTies | backend/src/dashboard/dashboard.service.ts:150-151 | Clients with equal revenue keep the query's order (stable sort) |
| NestDashboard.Activities | backend/src/dashboard/dashboard.service.ts:202-230 | Each row becomes one activity, in order |
| NestDashboard.RecentActivity | backend/src/dashboard/dashboard.service.ts:202-234 | The merged activities, newest first, min(limit, total) of them, each from one of the three lists |
| NestDashboard.RecentAndDroppedAreAll | backend/src/dashboard/dashboard.service.ts:232-234 | The kept and the cut-off activities together are exactly the merged activities |
| NestDashboard.RecentActivityIsNewest | backend/src/dashboard/dashboard.service.ts:232-234 | The kept activities are the newest: every merged activity left out, counted with multiplicity, is no newer than any kept |
| NestDashboard.RecentActivityKeepsTies | backend/src/dashboard/dashboard.service.ts:232-233 | Activities created at the same instant keep the merge order |
| NestDashboard.MergedKeepsEachList | backend/src/dashboard/dashboard.service.ts:202-230 | The merge's invoice, offer and order activities are exactly the three lists |
| ExpressHelpers.MathRound | src/utils/helpers.ts:43-45 | `Math.round`: the nearest integer, halves going up |
| ExpressHelpers.Round2 | src/utils/helpers.ts:43-45 | The amount rounded to within half a cent |
| ExpressHelpers.Round2IsCents | src/utils/helpers.ts:43-45 | A rounded amount is a whole number of cents |
| ExpressHelpers.Round2KeepsCents | src/utils/helpers.ts:43-45 | An amount in whole cents is unchanged |
| ExpressHelpers.Round2Idempotent | src/utils/helpers.ts:43-45 | Rounding twice is rounding once |
| ExpressHelpers.Round2Monotone | src/utils/helpers.ts:43-45 | Rounding keeps the order of amounts |
| ExpressHelpers.HalfCentRoundsUp | src/utils/helpers.ts:43-45 | k cents plus half a cent rounds to k+1 cents |
| ExpressHelpers.CalculateVat | src/utils/helpers.ts:37-47 | VAT is amount × rate/100 (rate 21 when omitted), and total = amount + VAT before rounding. Each of the three figures is rounded separately to the nearest cent |
| ExpressHelpers.ZeroRateMeansNoVat | src/utils/helpers.ts:37-47 | An explicit 0% rate gives zero VAT and total = subtotal |
| ExpressHelpers.RoundedPartsWithinCent | src/utils/helpers.ts:41-45 | The rounded total differs from rounded subtotal + rounded VAT by at most one cent |
| ExpressHelpers.RoundedPartsMayNotAdd | src/utils/helpers.ts:41-45 | 0.025 at 20% rounds to 0.03 + 0.01 but total 0.03: the parts do not add up |
| ExpressHelpers.InvoicePrefix | src/utils/helpers.ts:50 | 'FA' exactly for 'invoice', 'ZF' exactly for 'proforma', 'NB' exactly for every other type |
| ExpressHelpers.GenerateInvoiceNumber | src/utils/helpers.ts:49-52 | The number starts with the prefix and has at least 7 characters |
| ExpressHelpers.InvoiceNumberReadsBack | src/utils/helpers.ts:51 | With a four-digit year, the number is the prefix, the year, then digits reading as the sequence, untruncated |
| ExpressHelpers.InvoiceNumberInjective | src/utils/helpers.ts:51 | Within one type and four-digit year, different sequences give different numbers |
| ExpressHelpers.SeriesApart | src/utils/helpers.ts:50 | Invoices and proformas never share a number; 'advance' and 'received' share the 'NB' prefix |
| ExpressInvoices.ItemRate | src/controllers/invoiceController.ts:87 | `vat_rate \|\| 21`: the rate is 21 exactly when absent, 0 or 21, and never 0 |
| ExpressInvoices.StoredItems | src/controllers/invoiceController.ts:132-151 | At most one stored row per item, each belonging to the new invoice |
| ExpressInvoices.Create | src/controllers/invoiceController.ts:65-156 | A 400 exactly when a required field is missing or items are empty; a 500 for a type outside the CHECK list. Otherwise one row is appended. Its number is built from the series count + 1. Subtotal and VAT are the item sums, with total = subtotal + VAT. The row stores rate 21, currency defaulting to 'CZK' and status 'unpaid', and its item rows are appended |
| ExpressInvoices.ZeroRateChargedAs21 | src/controllers/invoiceController.ts:85-90 | A 0% item is charged VAT at 21% and stored with rate 21 |
| ExpressInvoices.GrossIsNetPlusVat | src/controllers/invoiceController.ts:132-136 | The stored item total is its subtotal plus its VAT |
| ExpressInvoices.StoredTotalsAreGross | src/controllers/invoiceController.ts:132-136 | When all items have descriptions, the stored item totals sum to the items' gross amounts |
| ExpressInvoices.StoredItemsAddUp | src/controllers/invoiceController.ts:85-136 | When all items have descriptions, the stored item totals add up to the invoice total |
| ExpressInvoices.SetStatusAndNotes | src/controllers/invoiceController.ts:162 | Matching rows get the sent status and notes (NULL when absent); the others are unchanged |
| ExpressInvoices.Update | src/controllers/invoiceController.ts:158-173 | A 404 exactly when no row has the id and user; a status outside the CHECK list fails. Otherwise only matching rows change |
| ExpressInvoices.Delete | src/controllers/invoiceController.ts:175-187 | A 404 exactly when no row has the id and user. Otherwise every copy of every non-matching row survives and no matching row does; the items table is untouched |
| ExpressInvoices.DeleteKeepsOrder | src/controllers/invoiceController.ts:178-185 | The surviving rows keep their order: a row added at the end survives at the end exactly when it does not match |
| ExpressInvoices.DeleteRemovesRow | src/controllers/invoiceController.ts:178-185 | A successful delete removes at least one row |
| ExpressInvoices.DeleteThenNotFound | src/controllers/invoiceController.ts:168-184 | After a delete, deleting or updating the same id gives 404 |
| ExpressInvoices.CreateTwice | src/controllers/invoiceController.ts:108-121 | Two creations from one body append two rows of the same series; only the first has the first id |
| ExpressInvoices.NumberFollowsCount | src/controllers/invoiceController.ts:95-106 | The assigned number depends on the table only through the series count |
| ExpressInvoices.DeleteThenCreateRepeatsNumber | src/controllers/invoiceController.ts:95-106 | Create two of a series, delete the first, and the next creation repeats the second's number |
| ExpressStats.PeriodOf | src/controllers/statsController.ts:34-91 | The month, quarter and year branches are taken exactly for 'month', 'quarter' and 'year' |
| ExpressStats.Amount | src/controllers/statsController.ts:7-41 | With VAT the amount is the total; otherwise amount + VAT (missing = 0) = total |
| ExpressStats.QuarterOf | src/controllers/statsController.ts:69 | `ceil(month/3)`: 3(q−1) < month ≤ 3q |
| ExpressStats.Keys | src/controllers/statsController.ts:52-126 | Keys are months 1..12, quarters 1..4, or years year−4..year |
| ExpressStats.Chart | src/controllers/statsController.ts:52-135 | One row per key, each with difference = income − expenses |
| ExpressStats.ChartPeriods | src/controllers/statsController.ts:52-135 | 12 rows named by the Czech months, 4 named Q1..Q4, or 5 named by the years, oldest first |
| ExpressStats.ContributesToOwnBucket | src/controllers/statsController.ts:39-49 | An invoice adds to its own bucket only; only 'invoice' adds to income and only 'received' to expenses, each by its amount |
| ExpressStats.Accumulate | src/controllers/statsController.ts:39-50 | The per-key maps hold the sums of the amounts of the selected invoices falling in each bucket |
| ExpressStats.GetStatistics | src/controllers/statsController.ts:5-146 | The loop-built chart equals the chart defined by sums over the selected rows |
| ExpressStats.MonthChartIsMonthIncome | src/controllers/statsController.ts:23-61 | A month's income is the sum of the amounts of that year's non-deleted 'invoice' rows issued in the month |
| ExpressStats.QuarterSplits | src/controllers/statsController.ts:69-74 | An invoice counts in quarter q+1 exactly when it counts in one of its three months |
| ExpressStats.QuarterIsThreeMonths | src/controllers/statsController.ts:62-90 | A quarter's income is the income of its three months |
| ExpressStats.MonthlyIncomeAt | src/controllers/statsController.ts:39-61 | A month row's income is the sum over the selected invoices of their income in that month |
| ExpressStats.OtherKindAddsNothing | src/controllers/statsController.ts:43-49 | A row that is neither 'invoice' nor 'received' changes no bucket |
| ExpressStats.OtherKindsIgnored | src/controllers/statsController.ts:43-49 | Adding a proforma, advance or quote leaves the whole chart unchanged |
| ExpressStats.Found | src/controllers/statsController.ts:220-221 | `find(...)?.total \|\| 0`: the total of the first row of that month and type, and 0 when there is none |
| ExpressStats.MonthlyChart | src/controllers/statsController.ts:218-223 | 12 entries for months 1..12; each month's income is what `Found` gives for its 'income' row and its expenses what it gives for its 'expense' row |
| ExpressStats.TwoDigitsInjective | src/controllers/statsController.ts:219 | Distinct months have distinct two-digit keys |
| ExpressStats.GroupedIncomeFound | src/controllers/statsController.ts:177-220 | With one aggregate row per month and type, a month's income is that row's total |
| ExpressStats.GroupedExpenseFound | src/controllers/statsController.ts:177-222 | With one aggregate row per month and type, a month's expenses are that 'expense' row's total |
| ExpressStats.MonthNotCharted | src/controllers/statsController.ts:220-221 | A row of another transaction type leaves a month's entry unchanged |
| ExpressStats.OtherTypesNotCharted | src/controllers/statsController.ts:220-221 | Transaction types other than income and expense never reach the chart |
| ClientInvoiceForm.ParseOr | client/src/components/Invoices/InvoiceForm.tsx:172-174 | `parseFloat(x) \|\| d`: a readable non-zero number is kept; blank, unreadable or 0 gives the fallback |
| ClientInvoiceForm.ItemRate | client/src/components/Invoices/InvoiceForm.tsx:174 | The rate the totals use is never 0 |
| ClientInvoiceForm.CalculateTotal | client/src/components/Invoices/InvoiceForm.tsx:167-190 | Subtotal and VAT are the sums of the line amounts; total = subtotal + VAT |
| ClientInvoiceForm.ExclusiveItem | client/src/components/Invoices/InvoiceForm.tsx:182-186 | Prices without VAT: net = qty × price, VAT = net × rate/100 |
| ClientInvoiceForm.InclusiveItemSplits | client/src/components/Invoices/InvoiceForm.tsx:176-181 | Prices with VAT: net + VAT gives back exactly qty × price |
| ClientInvoiceForm.InclusiveTotalIsEntered | client/src/components/Invoices/InvoiceForm.tsx:176-189 | Prices with VAT: the total is the sum of qty × price as typed |
| ClientInvoiceForm.ExclusiveTotal | client/src/components/Invoices/InvoiceForm.tsx:182-189 | Prices without VAT: the subtotal is the typed sum and the total is subtotal plus the VAT |
| ClientInvoiceForm.UnreadableLineIsZero | client/src/components/Invoices/InvoiceForm.tsx:172-173 | An unreadable price or quantity makes the line contribute nothing, in either mode |
| ClientInvoiceForm.ZeroRateShownAs21 | client/src/components/Invoices/InvoiceForm.tsx:174 | A blank, unreadable or 0 rate is charged at 21% |
| ClientInvoiceForm.ZeroRateExample | client/src/components/Invoices/InvoiceForm.tsx:167-190 | One unit at 100 with the 0% option selected shows VAT 21 |
| ClientInvoiceForm.IntendedRate | client/src/components/Invoices/InvoiceForm.tsx:174 | Corrected rule: a readable rate is used as given, 0 included; otherwise 21 |
| ClientInvoiceForm.IntendedZeroRateNoVat | client/src/components/Invoices/InvoiceForm.tsx:176-189 | Under the corrected rule, 0% lines add no VAT and the subtotal is what was typed |
| ClientInvoiceForm.IntendedAgreesElsewhere | client/src/components/Invoices/InvoiceForm.tsx:174 | The corrected rule differs from the form's exactly on rates reading as 0 |
| ClientInvoiceForm.AddItem | client/src/components/Invoices/InvoiceForm.tsx:157-159 | The lines are kept and one appended with quantity 1, rate 21 and no price |
| ClientInvoiceForm.RemoveItem | client/src/components/Invoices/InvoiceForm.tsx:161-165 | The line at the index is dropped and the rest shift down. Nothing changes for a lone line or an index out of range. At least one line always remains |
| ClientInvoiceForm.RemoveItemPermutes | client/src/components/Invoices/InvoiceForm.tsx:161-165 | Removal takes out exactly that line |
| ClientInvoiceForm.AddThenRemove | client/src/components/Invoices/InvoiceForm.tsx:157-165 | Removing the line just added restores the form |
| ClientInvoiceForm.AddItemKeepsTotals | client/src/components/Invoices/InvoiceForm.tsx:157-190 | Adding a line does not move the totals |
| ClientInvoiceForm.SearchClients | client/src/components/Invoices/InvoiceForm.tsx:69-84 | A blank or whitespace-only term lists every client, and no term lists more clients than there are |
| ClientInvoiceForm.SearchCounts | client/src/components/Invoices/InvoiceForm.tsx:76-82 | For a non-blank term, each client appears as many times as in the list when one of its fields contains the lower-cased term, and not at all otherwise |
| ClientInvoiceForm.SearchKeepsOrder | client/src/components/Invoices/InvoiceForm.tsx:76-82 | The result keeps the clients' order: a client added at the end of the list is listed last exactly when the term is blank or the client matches |
| ClientInvoiceForm.SearchFinds | client/src/components/Invoices/InvoiceForm.tsx:76-82 | For a non-blank term, a client is listed exactly when the lower-cased term occurs in its lower-cased name, IČO, DIČ or e-mail |
| ClientInvoiceForm.SearchIgnoresCase | client/src/components/Invoices/InvoiceForm.tsx:76 | Searching for the lower-cased term gives the same list |
| ClientInvoiceForm.SearchTermNotTrimmed | client/src/components/Invoices/InvoiceForm.tsx:71-76 | Only the blank check trims: "acme" finds Acme, "acme " finds nothing |
| ClientInvoiceForm.SearchNarrows | client/src/components/Invoices/InvoiceForm.tsx:76-82 | Typing more of a non-blank term only narrows the list |
| ClientInvoiceForm.Processed | client/src/components/Invoices/InvoiceForm.tsx:210-214 | A sent line keeps its description and rate text. Its price is the one the live totals use (`\|\| 0`). Its quantity is the totals' quantity, or 1 when that reads as 0 (blank, NaN or 0), so it is never 0 |
| ClientInvoiceForm.Submit | client/src/components/Invoices/InvoiceForm.tsx:197-214 | "Vyberte klienta" exactly without a client. "Vyplňte všechny položky faktury" exactly when a line lacks a description or a price, or has a price ≤ 0. Otherwise line i of the request is the i-th form line processed, for every line |
| ClientInvoiceForm.UnreadablePriceSentAsZero | client/src/components/Invoices/InvoiceForm.tsx:203-212 | An unreadable price passes the checks and is sent as 0 |
| ClientInvoiceForm.BlankQuantityShownZeroSentOne | client/src/components/Invoices/InvoiceForm.tsx:173-213 | A blank quantity counts as 0 in the totals but is sent as 1 |
| ClientTestData.LineFacts | client/src/utils/testDataGenerator.ts:49-54 | Line i has price 1000 + 100i, quantity 1 + i mod 5 (from 1 to 5) and rate 21, and its total is its subtotal plus 21% of it |
| ClientTestData.BuildLines | client/src/utils/testDataGenerator.ts:48-66 | Exactly max(itemCount, 0) lines, line k being line k+1 of the sample; the running sums are the subtotal and VAT sums |
| ClientTestData.GenerateTestInvoice | client/src/utils/testDataGenerator.ts:43-93 | The lines and sums above, total = subtotal + VAT, number "TEST-2024-" + count padded to 4, variable symbol padded to 10, type 'invoice', CZK, constant symbol 0308 |
| ClientTestData.TotalIs121Percent | client/src/utils/testDataGenerator.ts:51-68 | With all lines at 21%, VAT is 21% of the subtotal and the total 121% |
| ClientTestData.LineTotalsAddUp | client/src/utils/testDataGenerator.ts:54-68 | The line totals add up to the invoice total |
| ClientTestData.SubtotalPositive | client/src/utils/testDataGenerator.ts:50-64 | A non-empty sample has a subtotal of at least 1000 |
| ClientTestData.NumberReadsBack | client/src/utils/testDataGenerator.ts:71-89 | The number is the prefix then digits reading as the count; the variable symbol is at least ten digits reading as the count |
| ClientTestData.NegativeCountPadded | client/src/utils/testDataGenerator.ts:71 | A count of −3 gives "TEST-2024-00-3": the sign is padded like a digit |

## Left out

- Floating point: every JavaScript number is an exact real. IEEE rounding, NaN arithmetic and `Infinity` are not modelled. The only rounding modelled is `calculateVAT`'s explicit `Math.round`.
- Concurrency: the lock and the async plumbing of the C# service are left out, and operations run one after another.
- Time and identity: `DateTime.UtcNow`, `new Date()`, the invoice's `Guid.NewGuid()` and autoincrement ids are parameters. Time of day and time zones are dropped, so `getMonth()`/`getFullYear()` read the stored calendar date.
- CoreModels.NewItem: `InvoiceItem` has no `Id` field. The fresh line ids that the conversion (InvoiceService.cs:191) and the recalculation (InvoiceService.cs:251-254) assign are not modelled, so nothing is promised about line ids.
- CoreNumbering.MaxSuffix: `StartsWith(prefix)` is taken as an ordinal prefix test. .NET's culture-sensitive comparison, which can ignore zero-width characters, is not modelled.
- CoreService.CreateRegularFromAdvance: `DateTime` stops at year 9999, and `AddDays` beyond that throws in C#. The model's calendar is unbounded, so a conversion on 9999-12-18 or later yields a year-10000 due date instead of an error.
- ClientInvoiceForm.SearchClients: JavaScript `toLowerCase` is modelled on Basic Latin, Latin-1 and Latin Extended-A only, which covers Czech. Other scripts are left unchanged by the model's lower-casing. One exception inside that range: JavaScript lower-cases U+0130 (İ) to the two characters "i̇", while the model, which keeps string lengths, leaves it unchanged.
- ExpressInvoices.Create: the numbering query compares `strftime('%Y', issue_date)`, zero-padded four-digit text that is NULL after year 9999, with `year.toString()`. The model compares integer years. For issue years outside 1000–9999 the source counts no earlier rows, so every such invoice gets sequence 1, while the model counts them.
- ExpressStats.GetStatistics: the year filters compare `strftime('%Y', issue_date)` text with the query's year, using `=` for the month and quarter periods and string `>=`/`<=` for the five-year window. The model compares integer years. The two agree only for years 1000–9999; outside that range the source selects differently, since the text is zero-padded or NULL.
- ExpressStats.GetStatistics: `year` arrives as a query string. The model takes it as an integer. A missing or non-numeric `year` is bound to SQL as it is and makes `parseInt` yield NaN, so the 'year' branch's loop never runs and its chart is empty; the model always returns five rows for that branch.
- DotNet.TryParseInt32: the default `int.TryParse` overload reads signs from the current culture and accepts trailing `'\0'` characters. The model parses with the invariant culture's ASCII signs and rejects trailing NULs. Under a culture whose minus sign is another character (U+2212, say), a piece can parse as negative in C#, so CoreNumbering.NoMinusNonNegative holds for the invariant culture only.
- CoreService: the C# list holds references. `CreateInvoiceAsync` stores the caller's object and `GetInvoiceAsync` returns the stored object, so a caller's later change to it changes the list without going through `UpdateInvoiceAsync`. The model stores values, and only the service's operations change the list.
- Persistence queries: `findAll`, `getStats`, `getOverview`, `getOverdueInvoices`, the recent-invoice and overdue queries of the Express dashboard, and the Prisma `include`/`take` of `getRecentActivity`. The model takes the query results as input sequences; those rows are assumed to be the user's.
- Database failures: Express 500 errors other than the CHECK lists are not modelled. A failing item insert is kept, because the controller only logs it: an item without a description is not stored.
- ExpressInvoices.Create: the `vat_rate` of a request is a number. A string "0" sent by the form is truthy in JavaScript and would be stored as 0; that coercion is not modelled. Likewise, `client_id` arrives already parsed.
- ExpressInvoices.Delete: the foreign-key cascade of item rows is not modelled. Items stay in the model's table.
- ClientInvoiceForm.ItemNet: a rate of −100 in VAT-inclusive mode divides by zero in JavaScript (Infinity/NaN). The model's real division yields 0 there, and the inclusive lemmas exclude that rate.
- ClientInvoiceForm.Submit: the HTTP call, `parseInt(client_id)` and the rest of the request body are left out. Only the two checks and the processed lines are modelled.
- ClientTestData.GenerateTestInvoice: the issue, due and tax dates come from the clock and are left out. A non-integer `itemCount` is not modelled.
- NestInvoices.Create: Prisma's `Decimal` conversion and the defaults the schema fills in are taken from a record of schema defaults, because the Prisma schema is not part of this model.
- Company-registry lookup (`lookupICO`, ARES), PDF and HTML rendering, authentication, routing and the React UI state are not part of this model.

## Findings

| source | as written | input that shows it | evidently intended | confidence | as-written member | corrected member |
|---|---|---|---|---|---|---|
| client/src/components/Invoices/InvoiceForm.tsx:174 | `parseFloat(item.vat_rate) \|\| 21` turns a rate of 0 into 21, although the rate selector offers "0%" (lines 529-531) | one line, quantity 1, unit price 100, rate "0": the form shows VAT 21 and total 121 | a rate that reads as a number is used as given, so 0% adds no VAT | medium, not executed | ClientInvoiceForm.ZeroRateExample | ClientInvoiceForm.IntendedZeroRateNoVat |

`CalculateTotal` and the line amounts are parametrised by the rate rule. The
as-written rule is `ClientInvoiceForm.ItemRate` and the corrected one is
`ClientInvoiceForm.IntendedRate`; `IntendedAgreesElsewhere` shows that the two
differ only on a rate of 0. The Express controller uses the same
`vat_rate || 21` pattern on numbers (`ExpressInvoices.ZeroRateChargedAs21`).

=== FILE: calendar.dfy ===
/** Calendar dates in the proleptic Gregorian calendar, at day granularity.
    Both C# `DateTime.AddDays` and JavaScript `new Date(t + n * 86400000)` are
    modelled by `AddDays`; the time of day is not modelled. */
module Calendar {

  datatype DateParts = DateParts(year: int, month: int, day: int)

  predicate IsLeapYear(y: int) {
    (y % 4 == 0 && y % 100 != 0) || y % 400 == 0
  }

  function DaysInMonth(y: int, m: int): int
    requires 1 <= m <= 12
  {
    if m == 2 then (if IsLeapYear(y) then 29 else 28)
    else if m == 4 || m == 6 || m == 9 || m == 11 then 30
    else 31
  }

  predicate IsValid(d: DateParts) {
    1 <= d.month <= 12 && 1 <= d.day <= DaysInMonth(d.year, d.month)
  }

  /** A real calendar day. */
  type Date = d: DateParts | IsValid(d) witness DateParts(1, 1, 1)

  /** `DateTime.MinValue`, the value of an unset C# `DateTime`. */
  const MinValue: Date := DateParts(1, 1, 1)

  /** Strictly earlier in the calendar. */
  predicate Before(a: Date, b: Date) {
    a.year < b.year
    || (a.year == b.year && a.month < b.month)
    || (a.year == b.year && a.month == b.month && a.day < b.day)
  }

  function NextDay(d: Date): (r: Date)
    ensures Before(d, r)
  {
    if d.day < DaysInMonth(d.year, d.month) then DateParts(d.year, d.month, d.day + 1)
    else if d.month < 12 then DateParts(d.year, d.month + 1, 1)
    else DateParts(d.year + 1, 1, 1)
  }

  function PrevDay(d: Date): (r: Date)
    ensures Before(r, d)
  {
    if d.day > 1 then DateParts(d.year, d.month, d.day - 1)
    else if d.month > 1 then DateParts(d.year, d.month - 1, DaysInMonth(d.year, d.month - 1))
    else DateParts(d.year - 1, 12, 31)
  }

  lemma PrevNext(d: Date)
    ensures PrevDay(NextDay(d)) == d
    ensures NextDay(PrevDay(d)) == d
  {
  }

  /** The date `n` days after `d` (before it when `n` is negative). */
  function AddDays(d: Date, n: int): Date
    decreases if n < 0 then -n else n
  {
    if n == 0 then d
    else if n > 0 then AddDays(NextDay(d), n - 1)
    else AddDays(PrevDay(d), n + 1)
  }

  lemma BeforeTransitive(a: Date, b: Date, c: Date)
    requires Before(a, b) && Before(b, c)
    ensures Before(a, c)
  {
  }

  /** Adding a positive number of days moves strictly forward, a negative one strictly back. */
  lemma {:induction false} AddDaysMoves(d: Date, n: int)
    ensures n > 0 ==> Before(d, AddDays(d, n))
    ensures n < 0 ==> Before(AddDays(d, n), d)
    decreases if n < 0 then -n else n
  {
    if n > 1 {
      AddDaysMoves(NextDay(d), n - 1);
      BeforeTransitive(d, NextDay(d), AddDays(d, n));
    } else if n < -1 {
      AddDaysMoves(PrevDay(d), n + 1);
      BeforeTransitive(AddDays(d, n), PrevDay(d), d);
    }
  }

  lemma {:induction false} AddDaysNextDay(d: Date, n: int)
    ensures AddDays(NextDay(d), n) == AddDays(d, n + 1)
    decreases if n < 0 then -n else n
  {
    if n < 0 {
      PrevNext(d);
      if n + 1 < 0 {
        AddDaysNextDay(PrevDay(d), n + 1);
      }
    }
  }

  lemma {:induction false} AddDaysPrevDay(d: Date, n: int)
    ensures AddDays(PrevDay(d), n) == AddDays(d, n - 1)
    decreases if n < 0 then -n else n
  {
    if n > 0 {
      PrevNext(d);
      if n - 1 > 0 {
        AddDaysPrevDay(NextDay(d), n - 1);
      }
    }
  }

  /** Adding `a` days and then `b` days is adding `a + b` days. */
  lemma {:induction false} AddDaysAdditive(d: Date, a: int, b: int)
    ensures AddDays(AddDays(d, a), b) == AddDays(d, a + b)
    decreases if a < 0 then -a else a
  {
    if a > 0 {
      AddDaysAdditive(NextDay(d), a - 1, b);
      AddDaysNextDay(d, a - 1 + b);
    } else if a < 0 {
      AddDaysAdditive(PrevDay(d), a + 1, b);
      AddDaysPrevDay(d, a + 1 + b);
    }
  }
}

=== FILE: client_invoice_form.dfy ===
/** The invoice form of the React client (`InvoiceForm.tsx`): the live totals,
    adding and removing item lines, the client search box and the checks made
    before the form is submitted. Form inputs hold text, so every number is
    read with `parseFloat` and a `|| default` fallback. */
module ClientInvoiceForm {
  import opened Wrappers
  import opened Sums
  import opened Sorting
  import opened Text

  // ------------------------------------------------------------ form values

  /** What an input holds: nothing (`''`), or something `parseFloat` reads as a
      number (`Some`) or as NaN (`None`). A number stored by the form itself,
      such as the default quantity 1, is `Entered(Some(1.0))`. */
  datatype Field = Blank | Entered(parsed: Option<real>)

  /** `parseFloat(x) || d`: the fallback replaces NaN and also an explicit 0. */
  function ParseOr(f: Field, d: real): (r: real)
    ensures f.Entered? && f.parsed.Some? && f.parsed.value != 0.0 ==> r == f.parsed.value
    ensures f.Blank? || f.parsed.None? || f.parsed == Some(0.0) ==> r == d
  {
    if f.Entered? && f.parsed.Some? && f.parsed.value != 0.0 then f.parsed.value else d
  }

  datatype ItemForm = ItemForm(description: string, quantity: Field, unitPrice: Field, vatRate: Field)

  /** The price and quantity the totals use: unreadable means 0. */
  function Price(item: ItemForm): real { ParseOr(item.unitPrice, 0.0) }
  function Qty(item: ItemForm): real { ParseOr(item.quantity, 0.0) }

  /** The rate the totals use: `parseFloat(vat_rate) || 21`. */
  function ItemRate(item: ItemForm): (rate: real)
    ensures rate != 0.0
  {
    ParseOr(item.vatRate, 21.0)
  }

  // ------------------------------------------------------------ calculateTotal

  /** One line's net amount. When prices include VAT the unit price is first
      divided by `1 + rate/100`; a rate of exactly -100 would divide by zero and
      is given a net of 0 here. */
  function ItemNet(inclusive: bool, rateOf: ItemForm -> real): ItemForm -> real {
    (item: ItemForm) =>
      var rate := rateOf(item);
      if !inclusive then Qty(item) * Price(item)
      else if rate == -100.0 then 0.0
      else Qty(item) * (Price(item) / (1.0 + rate / 100.0))
  }

  /** One line's VAT: its net amount times the rate. */
  function ItemVat(inclusive: bool, rateOf: ItemForm -> real): ItemForm -> real {
    (item: ItemForm) => ItemNet(inclusive, rateOf)(item) * (rateOf(item) / 100.0)
  }

  /** What the user typed as the line amount: quantity times unit price. */
  function Typed(): ItemForm -> real {
    (item: ItemForm) => Qty(item) * Price(item)
  }

  datatype Totals = Totals(subtotal: real, vat: real, total: real)

  /** `calculateTotal()`: one pass over the lines accumulating net and VAT, then
      the total as their sum. `rateOf` is the rate rule; the form uses
      `ItemRate`. */
  method CalculateTotal(items: seq<ItemForm>, inclusive: bool, rateOf: ItemForm -> real) returns (t: Totals)
    ensures t.subtotal == Sum(items, ItemNet(inclusive, rateOf))
    ensures t.vat == Sum(items, ItemVat(inclusive, rateOf))
    ensures t.total == t.subtotal + t.vat
  {
    var subtotal := 0.0;
    var vat := 0.0;
    var k := 0;
    while k < |items|
      invariant 0 <= k <= |items|
      invariant subtotal == Sum(items[..k], ItemNet(inclusive, rateOf))
      invariant vat == Sum(items[..k], ItemVat(inclusive, rateOf))
    {
      assert items[..k + 1] == items[..k] + [items[k]];
      SumAppend(items[..k], [items[k]], ItemNet(inclusive, rateOf));
      SumAppend(items[..k], [items[k]], ItemVat(inclusive, rateOf));
      subtotal := subtotal + ItemNet(inclusive, rateOf)(items[k]);
      vat := vat + ItemVat(inclusive, rateOf)(items[k]);
      k := k + 1;
    }
    assert items[..k] == items;
    t := Totals(subtotal, vat, subtotal + vat);
  }

  /** With prices excluding VAT, a line's net is quantity times price and its
      VAT is that net times rate/100. */
  lemma ExclusiveItem(item: ItemForm, rateOf: ItemForm -> real)
    ensures ItemNet(false, rateOf)(item) == Typed()(item)
    ensures ItemVat(false, rateOf)(item) == Qty(item) * Price(item) * rateOf(item) / 100.0
  {
  }

  /** With prices including VAT, a line's net plus its VAT gives back exactly
      quantity times the entered price. */
  lemma InclusiveItemSplits(item: ItemForm, rateOf: ItemForm -> real)
    requires rateOf(item) != -100.0
    ensures ItemNet(true, rateOf)(item) + ItemVat(true, rateOf)(item) == Typed()(item)
  {
    var r := rateOf(item);
    var d := 1.0 + r / 100.0;
    var p := Price(item) / d;
    assert p * d == Price(item);
    var n := Qty(item) * p;
    assert ItemNet(true, rateOf)(item) == n;
    assert n + n * (r / 100.0) == Qty(item) * (p * d);
  }

  /** With prices including VAT, the displayed total is the sum of what was
      typed: the form only splits it into net and VAT. */
  lemma {:induction false} InclusiveTotalIsEntered(items: seq<ItemForm>, rateOf: ItemForm -> real)
    requires forall i :: 0 <= i < |items| ==> rateOf(items[i]) != -100.0
    ensures Sum(items, ItemNet(true, rateOf)) + Sum(items, ItemVat(true, rateOf)) == Sum(items, Typed())
  {
    forall i | 0 <= i < |items|
      ensures Typed()(items[i]) == ItemNet(true, rateOf)(items[i]) + ItemVat(true, rateOf)(items[i])
    {
      InclusiveItemSplits(items[i], rateOf);
    }
    SumPointwise(items, ItemNet(true, rateOf), ItemVat(true, rateOf), Typed());
  }

  /** With prices excluding VAT, the subtotal is what was typed and the total
      adds rate/100 of each line on top. */
  lemma {:induction false} ExclusiveTotal(items: seq<ItemForm>, rateOf: ItemForm -> real)
    ensures Sum(items, ItemNet(false, rateOf)) == Sum(items, Typed())
    ensures Sum(items, ItemNet(false, rateOf)) + Sum(items, ItemVat(false, rateOf))
         == Sum(items, (item: ItemForm) => Qty(item) * Price(item) * (1.0 + rateOf(item) / 100.0))
  {
    var gross := (item: ItemForm) => Qty(item) * Price(item) * (1.0 + rateOf(item) / 100.0);
    forall i | 0 <= i < |items|
      ensures ItemNet(false, rateOf)(items[i]) == Typed()(items[i])
      ensures gross(items[i]) == ItemNet(false, rateOf)(items[i]) + ItemVat(false, rateOf)(items[i])
    {
      ExclusiveItem(items[i], rateOf);
    }
    SumCongruent(items, ItemNet(false, rateOf), Typed());
    SumPointwise(items, ItemNet(false, rateOf), ItemVat(false, rateOf), gross);
  }

  /** An unreadable price or quantity contributes nothing, in either mode. */
  lemma UnreadableLineIsZero(item: ItemForm, inclusive: bool)
    requires item.unitPrice.Blank? || item.unitPrice.parsed.None?
          || item.quantity.Blank? || item.quantity.parsed.None?
    ensures ItemNet(inclusive, ItemRate)(item) == 0.0
    ensures ItemVat(inclusive, ItemRate)(item) == 0.0
  {
    var rate := ItemRate(item);
    var net := ItemNet(inclusive, ItemRate)(item);
    if Price(item) == 0.0 {
      if inclusive && rate != -100.0 {
        var d := 1.0 + rate / 100.0;
        assert d != 0.0;
        assert 0.0 / d == 0.0;
      }
      assert net == 0.0;
    } else {
      assert Qty(item) == 0.0;
      assert net == 0.0;
    }
    assert ItemVat(inclusive, ItemRate)(item) == net * (rate / 100.0);
  }

  /** A rate that is blank, unreadable or 0 is charged at 21%. In particular the
      0% choice of the rate selector is displayed with 21% VAT. */
  lemma ZeroRateShownAs21(item: ItemForm)
    requires item.vatRate.Blank? || item.vatRate.parsed.None? || item.vatRate.parsed == Some(0.0)
    ensures ItemRate(item) == 21.0
    ensures ItemVat(false, ItemRate)(item) == Qty(item) * Price(item) * 21.0 / 100.0
  {
    assert ItemNet(false, ItemRate)(item) == Qty(item) * Price(item);
    assert ItemVat(false, ItemRate)(item) == Qty(item) * Price(item) * (21.0 / 100.0);
  }

  /** A concrete line: one unit at 100 with 0% selected shows 21 of VAT. */
  lemma ZeroRateExample()
    ensures var item := ItemForm("Služba", Entered(Some(1.0)), Entered(Some(100.0)), Entered(Some(0.0)));
            ItemVat(false, ItemRate)(item) == 21.0
  {
    var item := ItemForm("Služba", Entered(Some(1.0)), Entered(Some(100.0)), Entered(Some(0.0)));
    ZeroRateShownAs21(item);
    assert Qty(item) == 1.0 && Price(item) == 100.0;
  }

  /** The evidently intended rate rule: a rate that reads as a number is used
      as it is, including 0; only a blank or unreadable rate falls back to 21. */
  function IntendedRate(item: ItemForm): (rate: real)
    ensures item.vatRate.Entered? && item.vatRate.parsed.Some? ==> rate == item.vatRate.parsed.value
    ensures item.vatRate.Blank? || item.vatRate.parsed.None? ==> rate == 21.0
  {
    if item.vatRate.Entered? && item.vatRate.parsed.Some? then item.vatRate.parsed.value else 21.0
  }

  /** Under the intended rule, lines at 0% add no VAT, in either mode, and the
      inclusive net is what was typed. */
  lemma {:induction false} IntendedZeroRateNoVat(items: seq<ItemForm>, inclusive: bool)
    requires forall i :: 0 <= i < |items| ==> items[i].vatRate == Entered(Some(0.0))
    ensures Sum(items, ItemVat(inclusive, IntendedRate)) == 0.0
    ensures Sum(items, ItemNet(inclusive, IntendedRate)) == Sum(items, Typed())
  {
    forall i | 0 <= i < |items|
      ensures ItemVat(inclusive, IntendedRate)(items[i]) == 0.0
      ensures ItemNet(inclusive, IntendedRate)(items[i]) == Typed()(items[i])
    {
      assert IntendedRate(items[i]) == 0.0;
      assert Price(items[i]) / (1.0 + 0.0 / 100.0) == Price(items[i]);
    }
    SumZero(items, ItemVat(inclusive, IntendedRate));
    SumCongruent(items, ItemNet(inclusive, IntendedRate), Typed());
  }

  /** The intended rule differs from the form's only on rates that read as 0. */
  lemma IntendedAgreesElsewhere(item: ItemForm)
    ensures IntendedRate(item) == ItemRate(item) <==> item.vatRate.Blank? || item.vatRate.parsed != Some(0.0)
  {
  }

  // ------------------------------------------------------------ addItem / removeItem

  /** The line `addItem` appends: no description, quantity 1, no price, 21%. */
  const DefaultItem: ItemForm := ItemForm("", Entered(Some(1.0)), Blank, Entered(Some(21.0)))

  /** `addItem()`: the lines so far, then one default line. */
  function AddItem(items: seq<ItemForm>): (r: seq<ItemForm>)
    ensures |r| == |items| + 1 && r[..|items|] == items
    ensures Qty(r[|items|]) == 1.0 && ItemRate(r[|items|]) == 21.0 && r[|items|].unitPrice.Blank?
  {
    items + [DefaultItem]
  }

  /** `removeItem(index)`: the line at `index` is dropped and the others keep
      their order; the last remaining line is never removed, and an index that
      names no line changes nothing. */
  function RemoveItem(items: seq<ItemForm>, index: int): (r: seq<ItemForm>)
    ensures |items| >= 1 ==> |r| >= 1
    ensures |items| > 1 && 0 <= index < |items| ==>
              |r| == |items| - 1
              && (forall j :: 0 <= j < index ==> r[j] == items[j])
              && (forall j :: index <= j < |r| ==> r[j] == items[j + 1])
    ensures |items| <= 1 || index < 0 || index >= |items| ==> r == items
  {
    if |items| > 1 && 0 <= index < |items| then items[..index] + items[index + 1..] else items
  }

  /** Removing a line takes out that line and nothing else. */
  lemma RemoveItemPermutes(items: seq<ItemForm>, index: int)
    requires |items| > 1 && 0 <= index < |items|
    ensures multiset(RemoveItem(items, index)) + multiset{items[index]} == multiset(items)
  {
    assert items == items[..index] + [items[index]] + items[index + 1..];
  }

  /** Removing the line just added restores the form. */
  lemma AddThenRemove(items: seq<ItemForm>)
    requires |items| >= 1
    ensures RemoveItem(AddItem(items), |items|) == items
  {
    assert AddItem(items)[..|items|] == items;
  }

  /** A freshly added line has no price, so the totals do not move. */
  lemma AddItemKeepsTotals(items: seq<ItemForm>, inclusive: bool)
    ensures Sum(AddItem(items), ItemNet(inclusive, ItemRate)) == Sum(items, ItemNet(inclusive, ItemRate))
    ensures Sum(AddItem(items), ItemVat(inclusive, ItemRate)) == Sum(items, ItemVat(inclusive, ItemRate))
  {
    UnreadableLineIsZero(DefaultItem, inclusive);
    SumAppend(items, [DefaultItem], ItemNet(inclusive, ItemRate));
    SumAppend(items, [DefaultItem], ItemVat(inclusive, ItemRate));
  }

  // ------------------------------------------------------------ handleClientSearch

  datatype ClientRow = ClientRow(companyName: Option<string>, ico: Option<string>, dic: Option<string>, email: Option<string>)

  /** `field?.toLowerCase().includes(term)`: a missing field never matches. */
  predicate FieldHas(field: Option<string>, term: string) {
    field.Some? && Includes(ToLower(field.value), term)
  }

  /** The client shows one of the four fields containing `term`. */
  function MatchesTerm(term: string): ClientRow -> bool {
    (c: ClientRow) => FieldHas(c.companyName, term) || FieldHas(c.ico, term)
                      || FieldHas(c.dic, term) || FieldHas(c.email, term)
  }

  /** `!searchTerm.trim()`. */
  predicate IsBlank(searchTerm: string) {
    JsTrim(searchTerm) == ""
  }

  /** `handleClientSearch(searchTerm)`: a blank term lists every client; any
      other term, lower-cased but not trimmed, keeps the clients one of whose
      four fields contains it, in their original order. */
  function SearchClients(clients: seq<ClientRow>, searchTerm: string): (r: seq<ClientRow>)
    ensures IsBlank(searchTerm) ==> r == clients
    ensures |r| <= |clients|
  {
    if IsBlank(searchTerm) then clients else Filter(clients, MatchesTerm(ToLower(searchTerm)))
  }

  /** For a non-blank term, a client is listed as many times as it occurs in
      the list when one of its fields contains the lower-cased term, and not at
      all otherwise. */
  lemma SearchCounts(clients: seq<ClientRow>, searchTerm: string, c: ClientRow)
    requires !IsBlank(searchTerm)
    ensures multiset(SearchClients(clients, searchTerm))[c]
            == if MatchesTerm(ToLower(searchTerm))(c) then multiset(clients)[c] else 0
  {
    FilterCount(clients, MatchesTerm(ToLower(searchTerm)), c);
  }

  /** The list keeps the clients' order: a client added after the others is
      listed last exactly when the term is blank or one of its fields contains it. */
  lemma SearchKeepsOrder(clients: seq<ClientRow>, searchTerm: string, c: ClientRow)
    ensures SearchClients(clients + [c], searchTerm)
            == SearchClients(clients, searchTerm)
               + (if IsBlank(searchTerm) || MatchesTerm(ToLower(searchTerm))(c) then [c] else [])
  {
    if !IsBlank(searchTerm) {
      var hit := MatchesTerm(ToLower(searchTerm));
      FilterSnoc(clients, c, hit);
      assert Keep(c, hit) == if hit(c) then [c] else [];
    }
  }

  /** For a non-blank term, a client is listed exactly when it is a client and
      one of its fields contains the lower-cased term. */
  lemma SearchFinds(clients: seq<ClientRow>, searchTerm: string, c: ClientRow)
    requires !IsBlank(searchTerm)
    ensures c in SearchClients(clients, searchTerm) <==> c in clients && MatchesTerm(ToLower(searchTerm))(c)
  {
    FilterMembers(clients, MatchesTerm(ToLower(searchTerm)), c);
  }

  /** The search ignores the case of the term. */
  lemma SearchIgnoresCase(clients: seq<ClientRow>, searchTerm: string)
    ensures SearchClients(clients, ToLower(searchTerm)) == SearchClients(clients, searchTerm)
  {
    var low := ToLower(searchTerm);
    JsTrimEmpty(searchTerm);
    JsTrimEmpty(low);
    forall i | 0 <= i < |searchTerm|
      ensures IsJsSpace(low[i]) <==> IsJsSpace(searchTerm[i])
    {
      LowerCharSpace(searchTerm[i]);
    }
    ToLowerIdempotent(searchTerm);
  }

  /** The term is not trimmed: a trailing space keeps a client whose name ends
      with the word from matching. */
  lemma SearchTermNotTrimmed()
    ensures var acme := ClientRow(Some("Acme"), None, None, None);
            SearchClients([acme], "acme") == [acme] && SearchClients([acme], "acme ") == []
  {
    var acme := ClientRow(Some("Acme"), None, None, None);
    assert ToLower("Acme") == "acme";
    assert ToLower("acme") == "acme";
    assert ToLower("acme ") == "acme ";
    assert Includes("acme", "acme");
    assert !Includes("acme", "acme ");
    assert JsTrim("acme") == "acme";
    assert JsTrim("acme ") != "" by {
      JsTrimEmpty("acme ");
      assert !IsJsSpace("acme "[0]);
    }
    assert Filter([acme], MatchesTerm("acme ")) == [];
  }

  /** A longer term occurs only where the shorter one does. */
  lemma IncludesPrefix(s: string, t: string, u: string)
    requires Includes(s, t + u)
    ensures Includes(s, t)
  {
    IncludesMeansOccurs(s, t + u);
    var i :| OccursAt(s, t + u, i);
    assert s[i..i + |t|] == (t + u)[..|t|];
    assert OccursAt(s, t, i);
    IncludesMeansOccurs(s, t);
  }

  /** Typing more after a non-blank term leaves it non-blank. */
  lemma NotBlankExtends(t: string, u: string)
    requires !IsBlank(t)
    ensures !IsBlank(t + u)
  {
    JsTrimEmpty(t);
    JsTrimEmpty(t + u);
    var k :| 0 <= k < |t| && !IsJsSpace(t[k]);
    assert (t + u)[k] == t[k];
  }

  /** Typing more of the term can only narrow the list, once the term is not blank. */
  lemma SearchNarrows(clients: seq<ClientRow>, t: string, u: string, c: ClientRow)
    requires !IsBlank(t)
    requires c in SearchClients(clients, t + u)
    ensures c in SearchClients(clients, t)
  {
    var lt := ToLower(t);
    var lu := ToLower(u);
    assert ToLower(t + u) == lt + lu;
    NotBlankExtends(t, u);
    SearchFinds(clients, t + u, c);
    SearchFinds(clients, t, c);
    if FieldHas(c.companyName, lt + lu) { IncludesPrefix(ToLower(c.companyName.value), lt, lu); }
    if FieldHas(c.ico, lt + lu) { IncludesPrefix(ToLower(c.ico.value), lt, lu); }
    if FieldHas(c.dic, lt + lu) { IncludesPrefix(ToLower(c.dic.value), lt, lu); }
    if FieldHas(c.email, lt + lu) { IncludesPrefix(ToLower(c.email.value), lt, lu); }
  }

  // ------------------------------------------------------------ handleSubmit

  const NoClientMessage: string := "Vyberte klienta"
  const IncompleteItemsMessage: string := "Vyplňte všechny položky faktury"

  /** A line that blocks submission: no description, no price, or a price that
      reads as a number at most 0. An unreadable price reads as NaN, and
      `NaN <= 0` is false, so it does not block. */
  predicate Incomplete(item: ItemForm) {
    item.description == "" || item.unitPrice.Blank?
    || (item.unitPrice.parsed.Some? && item.unitPrice.parsed.value <= 0.0)
  }

  /** A line as it is sent: price `|| 0` and quantity `|| 1`. */
  datatype SentItem = SentItem(description: string, quantity: real, unitPrice: real, vatRate: Field)

  /** A line as `handleSubmit` maps it: the price the live totals use, the
      totals' quantity unless that reads as 0 (blank, NaN or 0), then 1, and
      the description and the rate text as typed. */
  function Processed(item: ItemForm): (s: SentItem)
    ensures s.quantity != 0.0
    ensures item.unitPrice.Entered? && item.unitPrice.parsed.Some? ==> s.unitPrice == item.unitPrice.parsed.value
    ensures s.unitPrice == Price(item)
    ensures s.quantity == if Qty(item) == 0.0 then 1.0 else Qty(item)
    ensures s.description == item.description && s.vatRate == item.vatRate
  {
    SentItem(item.description, ParseOr(item.quantity, 1.0), ParseOr(item.unitPrice, 0.0), item.vatRate)
  }

  /** The checks of `handleSubmit` and the lines it sends. `clientId` is the
      selected client as text, blank when none is chosen. */
  function Submit(clientId: string, items: seq<ItemForm>): (r: Result<seq<SentItem>, string>)
    ensures r == Err(NoClientMessage) <==> clientId == ""
    ensures r == Err(IncompleteItemsMessage) <==> clientId != "" && exists i :: 0 <= i < |items| && Incomplete(items[i])
    ensures r.Ok? ==> |r.value| == |items|
    ensures r.Ok? ==> forall i :: 0 <= i < |items| ==>
              r.value[i].description == items[i].description && r.value[i].description != ""
              && (r.value[i].unitPrice > 0.0 || items[i].unitPrice.parsed.None?)
    ensures r.Ok? ==> forall i :: 0 <= i < |items| ==> r.value[i] == Processed(items[i])
  {
    if clientId == "" then Err(NoClientMessage)
    else if exists i :: 0 <= i < |items| && Incomplete(items[i]) then Err(IncompleteItemsMessage)
    else Ok(seq(|items|, i requires 0 <= i < |items| => Processed(items[i])))
  }

  /** An unreadable price passes the checks and is sent as 0. */
  lemma UnreadablePriceSentAsZero(clientId: string, item: ItemForm)
    requires clientId != "" && item.description != "" && item.unitPrice == Entered(None)
    ensures Submit(clientId, [item]) == Ok([SentItem(item.description, ParseOr(item.quantity, 1.0), 0.0, item.vatRate)])
  {
    assert !Incomplete([item][0]);
    assert forall i :: 0 <= i < |[item]| ==> !Incomplete([item][i]);
    var sent := seq(1, i requires 0 <= i < 1 => Processed([item][i]));
    assert sent == [Processed(item)];
  }

  /** A blank quantity counts as 0 in the displayed totals but is sent as 1. */
  lemma BlankQuantityShownZeroSentOne(item: ItemForm, inclusive: bool)
    requires item.quantity.Blank?
    ensures ItemNet(inclusive, ItemRate)(item) == 0.0
    ensures Processed(item).quantity == 1.0
  {
    UnreadableLineIsZero(item, inclusive);
  }
}

=== FILE: client_test_data.dfy ===
/** The sample invoice the client builds to exercise PDF page breaks
    (`testDataGenerator.ts`): `itemCount` numbered lines with prices and
    quantities derived from the line number, all at 21% VAT. The dates, which
    come from the wall clock, are not part of the model. */
module ClientTestData {
  import opened Sums
  import opened Text

  datatype TestItem = TestItem(description: string, quantity: real, unitPrice: real, vatRate: real, total: real)

  datatype TestInvoice = TestInvoice(
    number: string,
    kind: string,
    clientName: string,
    clientAddress: string,
    clientCity: string,
    clientZip: string,
    clientIco: string,
    clientDic: string,
    clientIsVatPayer: bool,
    subtotal: real,
    vat: real,
    total: real,
    currency: string,
    notes: string,
    items: seq<TestItem>,
    variableSymbol: string,
    constantSymbol: string,
    paymentMethod: string)

  const TestRate: real := 21.0
  const NumberPrefix: string := "TEST-2024-"

  /** The fixed texts of the sample. */
  const DescriptionHead: string := "Testovací položka č. "
  const DescriptionTail: string := " - Služba nebo produkt s delším názvem pro testování zalamování textu"
  const ClientName: string := "TESTOVACÍ FIRMA s.r.o."
  const ClientAddress: string := "Testovací ulice 123"
  const SampleNotes: string := "Toto je testovací faktura pro ověření funkčnosti stránkování PDF."
  const PaymentMethod: string := "Převodem"

  /** A line's amount before VAT. */
  function LineSubtotal(): TestItem -> real {
    (it: TestItem) => it.unitPrice * it.quantity
  }

  /** A line's VAT: its subtotal times rate/100. */
  function LineVat(): TestItem -> real {
    (it: TestItem) => LineSubtotal()(it) * (it.vatRate / 100.0)
  }

  /** The description of line `i`, which carries the line number. */
  function LineDescription(i: nat): string {
    DescriptionHead + IntToString(i) + DescriptionTail
  }

  /** Line `i` (counting from 1) before its total is filled in. */
  function BaseLine(i: nat): TestItem {
    TestItem(LineDescription(i), (1 + i % 5) as real, (1000 + i * 100) as real, TestRate, 0.0)
  }

  /** Line `i` with its total: the subtotal plus its VAT. */
  function TestLine(i: nat): TestItem {
    var line := BaseLine(i);
    line.(total := LineSubtotal()(line) + LineVat()(line))
  }

  /** Line `i` has price 1000 + 100·i, a quantity from 1 to 5 that cycles with
      `i`, 21% VAT, and a total that is the subtotal with that VAT added. */
  lemma LineFacts(i: nat)
    ensures var it := TestLine(i);
            && it.unitPrice == (1000 + 100 * i) as real && it.unitPrice >= 1000.0
            && it.quantity == (1 + i % 5) as real && 1.0 <= it.quantity <= 5.0
            && it.vatRate == TestRate
            && it.total == LineSubtotal()(it) + LineVat()(it)
            && it.total == 1.21 * LineSubtotal()(it)
  {
    var it := TestLine(i);
    var sub := LineSubtotal()(it);
    assert LineVat()(it) == sub * 0.21;
  }

  /** The fixed parts of the sample around the computed lines and sums. */
  function Sample(itemCount: int, items: seq<TestItem>, subtotal: real, vat: real, total: real): TestInvoice {
    TestInvoice(
      NumberPrefix + PadStart(IntToString(itemCount), 4, '0'),
      "invoice",
      ClientName,
      ClientAddress,
      "Praha",
      "110 00",
      "12345678",
      "CZ12345678",
      true,
      subtotal, vat, total,
      "CZK",
      SampleNotes,
      items,
      PadStart(IntToString(itemCount), 10, '0'),
      "0308",
      PaymentMethod)
  }

  /** The loop of `generateTestInvoice`: lines 1..itemCount, and the running
      sums of their subtotals and VAT. A count below 1 gives no lines. */
  method BuildLines(itemCount: int) returns (items: seq<TestItem>, subtotal: real, vat: real)
    ensures |items| == if itemCount > 0 then itemCount else 0
    ensures forall k :: 0 <= k < |items| ==> items[k] == TestLine(k + 1)
    ensures subtotal == Sum(items, LineSubtotal())
    ensures vat == Sum(items, LineVat())
  {
    items := [];
    subtotal := 0.0;
    vat := 0.0;
    var i := 1;
    while i <= itemCount
      invariant 1 <= i <= (if itemCount > 0 then itemCount else 0) + 1
      invariant |items| == i - 1
      invariant forall k :: 0 <= k < |items| ==> items[k] == TestLine(k + 1)
      invariant subtotal == Sum(items, LineSubtotal())
      invariant vat == Sum(items, LineVat())
    {
      var line := TestLine(i);
      SumAppend(items, [line], LineSubtotal());
      SumAppend(items, [line], LineVat());
      items := items + [line];
      subtotal := subtotal + LineSubtotal()(line);
      vat := vat + LineVat()(line);
      i := i + 1;
    }
  }

  /** `generateTestInvoice(itemCount)`: the lines and their sums, the total as
      subtotal plus VAT, and the number and variable symbol padding the count
      as written, sign included. */
  method GenerateTestInvoice(itemCount: int) returns (inv: TestInvoice)
    ensures |inv.items| == if itemCount > 0 then itemCount else 0
    ensures forall k :: 0 <= k < |inv.items| ==> inv.items[k] == TestLine(k + 1)
    ensures inv.subtotal == Sum(inv.items, LineSubtotal())
    ensures inv.vat == Sum(inv.items, LineVat())
    ensures inv.total == inv.subtotal + inv.vat
    ensures inv.number == NumberPrefix + PadStart(IntToString(itemCount), 4, '0')
    ensures inv.variableSymbol == PadStart(IntToString(itemCount), 10, '0')
    ensures inv.kind == "invoice" && inv.currency == "CZK" && inv.constantSymbol == "0308"
  {
    var items, subtotal, vat := BuildLines(itemCount);
    inv := Sample(itemCount, items, subtotal, vat, subtotal + vat);
  }

  /** Lines all at 21%: the VAT is 21% of the subtotal, the total 121%. */
  lemma {:induction false} TotalIs121Percent(items: seq<TestItem>)
    requires forall k :: 0 <= k < |items| ==> items[k].vatRate == TestRate
    ensures Sum(items, LineVat()) == 0.21 * Sum(items, LineSubtotal())
    ensures Sum(items, LineSubtotal()) + Sum(items, LineVat()) == 1.21 * Sum(items, LineSubtotal())
  {
    forall k | 0 <= k < |items|
      ensures LineVat()(items[k]) == 0.21 * LineSubtotal()(items[k])
    {
      assert items[k].vatRate / 100.0 == 0.21;
    }
    SumScale(items, LineSubtotal(), LineVat(), 0.21);
  }

  /** The stored line totals add up to the invoice total. */
  lemma {:induction false} LineTotalsAddUp(items: seq<TestItem>)
    requires forall k :: 0 <= k < |items| ==> items[k].total == LineSubtotal()(items[k]) + LineVat()(items[k])
    ensures Sum(items, (it: TestItem) => it.total) == Sum(items, LineSubtotal()) + Sum(items, LineVat())
  {
    SumPointwise(items, LineSubtotal(), LineVat(), (it: TestItem) => it.total);
  }

  /** Every sample line is worth at least 1000, so any non-empty sample has a
      subtotal of at least 1000. */
  lemma SubtotalPositive(items: seq<TestItem>)
    requires |items| > 0
    requires forall k :: 0 <= k < |items| ==> items[k].unitPrice >= 1000.0 && items[k].quantity >= 1.0
    ensures Sum(items, LineSubtotal()) >= 1000.0
  {
    forall k | 0 <= k < |items|
      ensures LineSubtotal()(items[k]) >= 1000.0
    {
      AtLeastThousand(items[k].unitPrice, items[k].quantity);
    }
    SumAtLeast(items, LineSubtotal(), 1000.0);
  }

  lemma AtLeastThousand(price: real, quantity: real)
    requires price >= 1000.0 && quantity >= 1.0
    ensures price * quantity >= 1000.0
  {
    assert price * quantity - price == price * (quantity - 1.0);
  }

  /** For a non-negative count, the number is the prefix followed by digits
      that read back as the count, and the variable symbol is at least ten
      digits reading back as the count. */
  lemma NumberReadsBack(itemCount: nat)
    ensures var number := NumberPrefix + PadStart(IntToString(itemCount), 4, '0');
            number[..10] == NumberPrefix && AllDigits(number[10..]) && DigitsValue(number[10..]) == itemCount
    ensures var vs := PadStart(IntToString(itemCount), 10, '0');
            |vs| >= 10 && AllDigits(vs) && DigitsValue(vs) == itemCount
  {
    var pad := PadStart(NatToString(itemCount), 4, '0');
    assert (NumberPrefix + pad)[10..] == pad;
    PaddedValue(itemCount, 4);
    PaddedValue(itemCount, 10);
  }

  /** A negative count pads its minus sign like any other character. */
  lemma NegativeCountPadded()
    ensures NumberPrefix + PadStart(IntToString(-3), 4, '0') == "TEST-2024-00-3"
  {
    assert IntToString(-3) == "-3";
  }
}

=== FILE: core_models.dfy ===
/** The invoice records of the C# invoice service (Fakturace.Core.Models). */
module CoreModels {
  import opened Wrappers
  import opened Calendar

  /** A `Guid`; the value 0 plays the part of `Guid.Empty`. */
  type Guid = nat

  const EmptyGuid: Guid := 0

  datatype InvoiceStatus = Draft | Issued | Paid | Cancelled | Overdue

  datatype InvoiceType = Regular | Advance

  /** One invoice line. `unitPrice` excludes VAT and `vatRate` is a percentage
      such as 21; the last three fields are derived by the service. */
  datatype InvoiceItem = InvoiceItem(
    invoiceId: Guid,
    description: string,
    quantity: real,
    unit: string,
    unitPrice: real,
    vatRate: real,
    totalWithoutVat: real,
    vatAmount: real,
    totalWithVat: real)

  /** An invoice. `advanceInvoiceId` is set on a regular invoice created from an
      advance one, `regularInvoiceId` on an advance invoice that has been converted;
      `autoCreateRegularInvoiceOnPayment` matters only for advance invoices. */
  datatype Invoice = Invoice(
    id: Guid,
    invoiceType: InvoiceType,
    invoiceNumber: string,
    variableSymbol: string,
    issueDate: Date,
    dueDate: Date,
    status: InvoiceStatus,
    amountWithoutVat: real,
    vatAmount: real,
    totalAmount: real,
    currency: string,
    customerId: string,
    customerName: string,
    customerAddress: string,
    customerCompanyId: string,
    customerVatId: string,
    items: seq<InvoiceItem>,
    note: Option<string>,
    advanceInvoiceId: Option<Guid>,
    regularInvoiceId: Option<Guid>,
    autoCreateRegularInvoiceOnPayment: bool,
    createdAt: Date,
    updatedAt: Date)

  /** `new InvoiceItem()`: every field at its initializer or CLR default. */
  function NewItem(): (r: InvoiceItem)
    ensures r.unit == "ks" && r.description == ""
    ensures r.quantity == 0.0 && r.unitPrice == 0.0 && r.vatRate == 0.0
    ensures r.totalWithoutVat == 0.0 && r.vatAmount == 0.0 && r.totalWithVat == 0.0
  {
    InvoiceItem(EmptyGuid, "", 0.0, "ks", 0.0, 0.0, 0.0, 0.0, 0.0)
  }

  /** `new Invoice()`: empty number and variable symbol (the triggers for
      generating them), currency "CZK", no items, no links, enum fields at their
      zero members. */
  function NewInvoice(): (r: Invoice)
    ensures r.invoiceNumber == "" && r.variableSymbol == ""
    ensures r.currency == "CZK"
    ensures r.items == [] && r.note == None
    ensures r.advanceInvoiceId == None && r.regularInvoiceId == None
    ensures !r.autoCreateRegularInvoiceOnPayment
    ensures r.invoiceType == Regular && r.status == Draft
  {
    Invoice(EmptyGuid, Regular, "", "", MinValue, MinValue, Draft, 0.0, 0.0, 0.0, "CZK",
            "", "", "", "", "", [], None, None, None, false, MinValue, MinValue)
  }
}

=== FILE: core_numbering.dfy ===
/** `GenerateInvoiceNumberAsync` of the C# invoice service: numbers are
    `{prefix}{year}-{next:D6}` with prefix "ZF" for advance invoices and "F"
    otherwise, and `next` is one more than the largest suffix already used by an
    invoice of the same type and issue year. */
module CoreNumbering {
  import opened Wrappers
  import opened Text
  import opened DotNet
  import opened CoreModels
  import opened Sums

  function Prefix(t: InvoiceType): string {
    if t == Advance then "ZF" else "F"
  }

  /** The partition an existing invoice contributes to: same type, same issue
      year, and a number that starts with the type's prefix. */
  predicate InPartition(inv: Invoice, t: InvoiceType, year: int) {
    inv.invoiceType == t && inv.issueDate.year == year && StartsWith(inv.invoiceNumber, Prefix(t))
  }

  /** The sequence value read from a number: the second of exactly two
      '-'-separated pieces when `int.TryParse` accepts it, and 0 otherwise. */
  function SuffixValue(number: string): (r: int)
    ensures 0 <= r <= Int32Max
  {
    var parts := Split(number, '-');
    if |parts| == 2 then
      match TryParseInt32(parts[1])
      case Some(n) =>
        SplitPiecesLackSeparator(number, '-');
        NoMinusNonNegative(parts[1]);
        n
      case None => 0
    else 0
  }

  /** A string without '-' never parses to a negative value. */
  lemma NoMinusNonNegative(s: string)
    requires '-' !in s
    ensures TryParseInt32(s).Some? ==> TryParseInt32(s).value >= 0
  {
    var t := TrimNumberWhite(s);
    TrimKeepsAbsence(s);
    if |t| > 0 {
      assert t[0] in t;
    }
  }

  lemma {:induction false} TrimKeepsAbsence(s: string)
    requires '-' !in s
    ensures '-' !in TrimNumberWhite(s)
    decreases |s|
  {
    if |s| > 0 && IsNumberWhite(s[0]) {
      assert '-' !in s[1..];
      TrimKeepsAbsence(s[1..]);
    } else if |s| > 0 && IsNumberWhite(s[|s| - 1]) {
      assert '-' !in s[..|s| - 1];
      TrimKeepsAbsence(s[..|s| - 1]);
    }
  }

  function InPartitionOf(t: InvoiceType, year: int): Invoice -> bool {
    inv => InPartition(inv, t, year)
  }

  function SuffixOf(inv: Invoice): int {
    SuffixValue(inv.invoiceNumber)
  }

  /** The largest suffix in the partition, or 0 when there is none
      (`DefaultIfEmpty(0).Max()`). */
  function MaxSuffix(store: seq<Invoice>, t: InvoiceType, year: int): (r: int)
    ensures 0 <= r <= Int32Max
    ensures forall i :: 0 <= i < |store| && InPartition(store[i], t, year) ==>
              SuffixValue(store[i].invoiceNumber) <= r
    ensures r == 0 || (exists i :: 0 <= i < |store| && InPartition(store[i], t, year) &&
                                    SuffixValue(store[i].invoiceNumber) == r)
  {
    var r := MaxOver(store, InPartitionOf(t, year), SuffixOf);
    assert r <= Int32Max by {
      if r != 0 {
        var i :| 0 <= i < |store| && InPartitionOf(t, year)(store[i]) && SuffixOf(store[i]) == r;
      }
    }
    r
  }

  /** The text of a number: prefix, year, '-', and the sequence value written
      with at least six digits (`D6`). */
  function NumberText(t: InvoiceType, year: int, next: int): (r: string)
    ensures StartsWith(r, Prefix(t))
    ensures r[0] == Prefix(t)[0]
  {
    var r := Prefix(t) + IntToString(year) + "-" + FormatD(next, 6);
    assert r[..|Prefix(t)|] == Prefix(t);
    r
  }

  /** The maximum reads only the type, issue date and number of each invoice. */
  lemma MaxSuffixSameNumbers(a: seq<Invoice>, b: seq<Invoice>, t: InvoiceType, year: int)
    requires |a| == |b|
    requires forall k :: 0 <= k < |a| ==>
               a[k].invoiceType == b[k].invoiceType && a[k].issueDate == b[k].issueDate
               && a[k].invoiceNumber == b[k].invoiceNumber
    ensures MaxSuffix(a, t, year) == MaxSuffix(b, t, year)
  {
  }

  /** The number the service would hand out next. The `+ 1` is C# `int`
      arithmetic and wraps at Int32Max. */
  function GenerateInvoiceNumber(store: seq<Invoice>, t: InvoiceType, year: int): (r: string)
    ensures StartsWith(r, Prefix(t))
    ensures r[0] == Prefix(t)[0]
  {
    NumberText(t, year, Wrap32(MaxSuffix(store, t, year) + 1))
  }

  /** A number for a non-negative year and sequence value: the prefix and year,
      then exactly one '-', then the value as at least six digits, which reads
      back as that value. */
  lemma NumberTextShape(t: InvoiceType, year: int, next: int)
    requires year >= 0 && 0 <= next <= Int32Max
    ensures var n := NumberText(t, year, next);
            && Split(n, '-') == [Prefix(t) + IntToString(year), FormatD(next, 6)]
            && |FormatD(next, 6)| >= 6
            && AllDigits(FormatD(next, 6))
            && SuffixValue(n) == next
  {
    var head := Prefix(t) + IntToString(year);
    var tail := FormatD(next, 6);
    assert '-' !in IntToString(year) by {
      assert AllDigits(IntToString(year));
    }
    assert '-' !in head;
    SplitTwo(head, tail, '-');
    assert NumberText(t, year, next) == head + ['-'] + tail;
    FormatDParses(next, 6);
  }

  /** The number a store hands out, below the Int32 limit, has the shape above
      and reads back as one more than the partition maximum. */
  lemma GeneratedNumberShape(store: seq<Invoice>, t: InvoiceType, year: int)
    requires year >= 0
    requires MaxSuffix(store, t, year) < Int32Max
    ensures var n := GenerateInvoiceNumber(store, t, year);
            var next := MaxSuffix(store, t, year) + 1;
            && Split(n, '-') == [Prefix(t) + IntToString(year), FormatD(next, 6)]
            && |FormatD(next, 6)| >= 6
            && AllDigits(FormatD(next, 6))
            && SuffixValue(n) == next
  {
    var next := MaxSuffix(store, t, year) + 1;
    assert Wrap32(next) == next;
    NumberTextShape(t, year, next);
  }

  /** The next number depends on the store only through the partition maximum. */
  lemma SameMaxSameNumber(a: seq<Invoice>, b: seq<Invoice>, t: InvoiceType, year: int)
    requires MaxSuffix(a, t, year) == MaxSuffix(b, t, year)
    ensures GenerateInvoiceNumber(a, t, year) == GenerateInvoiceNumber(b, t, year)
  {
    var m := MaxSuffix(a, t, year);
    NumberOfMax(a, t, year, m);
    NumberOfMax(b, t, year, m);
  }

  /** Proof helper: unfolds the number for a known maximum. */
  lemma NumberOfMax(store: seq<Invoice>, t: InvoiceType, year: int, m: int)
    requires MaxSuffix(store, t, year) == m
    ensures GenerateInvoiceNumber(store, t, year) == NumberText(t, year, Wrap32(m + 1))
  {
    assert MaxSuffix(store, t, year) + 1 == m + 1;
  }

  /** A number generated for a regular invoice starts with 'F', never with the
      advance prefix. */
  lemma RegularNumberNotAdvance(store: seq<Invoice>, year: int)
    ensures !StartsWith(GenerateInvoiceNumber(store, Regular, year), Prefix(Advance))
  {
    var n := GenerateInvoiceNumber(store, Regular, year);
    assert n[0] == 'F';
    assert |n| >= 2 ==> n[..2][0] == 'F';
  }

  /** Appending an invoice outside the partition leaves its maximum alone. */
  lemma MaxSuffixAppendOther(store: seq<Invoice>, inv: Invoice, t: InvoiceType, year: int)
    requires !InPartition(inv, t, year)
    ensures MaxSuffix(store + [inv], t, year) == MaxSuffix(store, t, year)
  {
    assert (store + [inv])[..|store|] == store;
    assert !InPartitionOf(t, year)(inv);
  }

  /** Appending an invoice inside the partition raises the maximum to its suffix if larger. */
  lemma MaxSuffixAppendMember(store: seq<Invoice>, inv: Invoice, t: InvoiceType, year: int)
    requires InPartition(inv, t, year)
    ensures var m := MaxSuffix(store, t, year);
            var k := SuffixValue(inv.invoiceNumber);
            MaxSuffix(store + [inv], t, year) == if k > m then k else m
  {
    assert (store + [inv])[..|store|] == store;
    assert InPartitionOf(t, year)(inv) && SuffixOf(inv) == SuffixValue(inv.invoiceNumber);
  }
}

=== FILE: core_service.dfy ===
/** `InvoiceService` of the C# core as sequential transformers of the in-memory
    invoice list. Every operation takes the list and returns the new list with the
    affected invoice; an `InvalidOperationException` becomes an `Err`. The
    current instant and `Guid.NewGuid()` are parameters. */
module CoreService {
  import opened Wrappers
  import opened Text
  import opened Calendar
  import opened CoreModels
  import opened CoreTotals
  import opened CoreNumbering

  datatype ServiceError =
    | NotFound
    | CancelledCannotBePaid
    | PaidCannotBeCancelled
    | NotAnAdvance
    | RegularAlreadyCreated

  /** The list after an operation, and the invoice the operation returns. */
  datatype Outcome = Outcome(store: seq<Invoice>, invoice: Invoice)

  /** The position `FirstOrDefault(i => i.Id == id)` finds. */
  function FindIndex(store: seq<Invoice>, id: Guid): (r: Option<nat>)
    ensures r.Some? ==> r.value < |store| && store[r.value].id == id
    ensures r.Some? ==> forall j :: 0 <= j < r.value ==> store[j].id != id
    ensures r.None? <==> forall j :: 0 <= j < |store| ==> store[j].id != id
  {
    if |store| == 0 then None
    else if store[0].id == id then Some(0)
    else
      match FindIndex(store[1..], id)
      case Some(k) => Some(k + 1)
      case None => None
  }

  /** `GetInvoiceAsync`: the first invoice with the id, if any. */
  function GetInvoice(store: seq<Invoice>, id: Guid): (r: Option<Invoice>)
    ensures r.Some? ==> r.value in store && r.value.id == id
    ensures r.None? <==> forall j :: 0 <= j < |store| ==> store[j].id != id
  {
    match FindIndex(store, id)
    case Some(i) => Some(store[i])
    case None => None
  }

  /** The fields no operation of the service derives: customer, type, status,
      dates, currency, note and links. */
  function Header(inv: Invoice): Invoice {
    inv.(id := EmptyGuid, invoiceNumber := "", variableSymbol := "", items := [],
         amountWithoutVat := 0.0, vatAmount := 0.0, totalAmount := 0.0,
         createdAt := MinValue, updatedAt := MinValue)
  }

  /** `CreateInvoiceAsync`. The number is generated (from the issue year, before
      the invoice joins the list) only when empty, and the variable symbol
      defaults to the whole number. */
  function CreateInvoice(store: seq<Invoice>, inv: Invoice, newId: Guid, now: Date): (r: Outcome)
    ensures r.store == store + [r.invoice]
    ensures r.invoice.id == if inv.id == EmptyGuid then newId else inv.id
    ensures inv.invoiceNumber != "" ==> r.invoice.invoiceNumber == inv.invoiceNumber
    ensures inv.invoiceNumber == "" ==>
              r.invoice.invoiceNumber == GenerateInvoiceNumber(store, inv.invoiceType, inv.issueDate.year)
    ensures r.invoice.invoiceNumber != ""
    ensures inv.variableSymbol != "" ==> r.invoice.variableSymbol == inv.variableSymbol
    ensures inv.variableSymbol == "" ==> r.invoice.variableSymbol == r.invoice.invoiceNumber
    ensures r.invoice.createdAt == now && r.invoice.updatedAt == now
    ensures Consistent(r.invoice) && SameItemInputs(inv.items, r.invoice.items)
    ensures Header(r.invoice) == Header(inv)
    ensures r.invoice.invoiceType == inv.invoiceType && r.invoice.issueDate == inv.issueDate
  {
    var id := if inv.id == EmptyGuid then newId else inv.id;
    var number :=
      if inv.invoiceNumber == "" then GenerateInvoiceNumber(store, inv.invoiceType, inv.issueDate.year)
      else inv.invoiceNumber;
    assert number != "" by {
      if inv.invoiceNumber == "" {
        assert |Prefix(inv.invoiceType)| > 0;
      }
    }
    var symbol := if inv.variableSymbol == "" then number else inv.variableSymbol;
    var created := Recalculate(inv.(id := id, createdAt := now, updatedAt := now,
                                    invoiceNumber := number, variableSymbol := symbol));
    Outcome(store + [created], created)
  }

  /** `UpdateInvoiceAsync`: fails on an unknown id; otherwise the stored invoice is
      removed and the recomputed one appended at the end of the list. */
  function UpdateInvoice(store: seq<Invoice>, inv: Invoice, now: Date): (r: Result<Outcome, ServiceError>)
    ensures r.Err? <==> GetInvoice(store, inv.id).None?
    ensures r.Err? ==> r.error == NotFound
    ensures r.Ok? ==> |r.value.store| == |store| && r.value.store[|store| - 1] == r.value.invoice
    ensures r.Ok? ==> var i := FindIndex(store, inv.id).value;
                      r.value.store[..|store| - 1] == store[..i] + store[i + 1..]
    ensures r.Ok? ==> Consistent(r.value.invoice) && SameInputs(inv.(updatedAt := now), r.value.invoice)
  {
    match FindIndex(store, inv.id)
    case None => Err(NotFound)
    case Some(i) =>
      var updated := Recalculate(inv.(updatedAt := now));
      Ok(Outcome(store[..i] + store[i + 1..] + [updated], updated))
  }

  /** The advance invoice a payment converts automatically. */
  predicate ConvertsOnPayment(inv: Invoice) {
    inv.invoiceType == Advance && inv.autoCreateRegularInvoiceOnPayment && inv.regularInvoiceId.None?
  }

  /** What a payment writes back for the invoice `inv` (already set Paid): the
      new timestamp, and the link to the regular invoice exactly when the
      payment converts it. Nothing else of the invoice changes. */
  function PaidVersion(inv: Invoice, regularId: Guid, now: Date): Invoice {
    inv.(updatedAt := now,
         regularInvoiceId := if ConvertsOnPayment(inv) then Some(regularId) else inv.regularInvoiceId)
  }

  /** The regular invoice a payment of `id` adds to the list: the conversion's
      invoice when the paid invoice converts on payment, nothing otherwise. */
  function PaymentRegular(store: seq<Invoice>, id: Guid, regularId: Guid, now: Date): seq<Invoice>
    requires GetInvoice(store, id).Some?
  {
    if ConvertsOnPayment(GetInvoice(store, id).value) then
      [CreateRegularFromAdvance(store, id, regularId, now).value.invoice]
    else []
  }

  /** `MarkAsPaidAsync`. The stored invoice itself is set Paid first, so the
      conversion it may trigger sees the paid advance; see `SettlePayment`. */
  function MarkAsPaid(store: seq<Invoice>, id: Guid, regularId: Guid, now: Date): (r: Result<Outcome, ServiceError>)
    ensures r.Err? <==> GetInvoice(store, id).None? || GetInvoice(store, id).value.status == Cancelled
    ensures r.Err? && GetInvoice(store, id).None? ==> r.error == NotFound
    ensures r.Err? && GetInvoice(store, id).Some? ==> r.error == CancelledCannotBePaid
    ensures r.Ok? ==> r.value.invoice.id == id && r.value.invoice.status == Paid && Consistent(r.value.invoice)
    ensures r.Ok? ==> |r.value.store| == |store| + (if ConvertsOnPayment(GetInvoice(store, id).value) then 1 else 0)
    ensures r.Ok? ==> SameInputs(PaidVersion(GetInvoice(store, id).value.(status := Paid), regularId, now), r.value.invoice)
    ensures r.Ok? ==> var i := FindIndex(store, id).value;
                      r.value.store == store[..i] + store[i + 1..] + PaymentRegular(store, id, regularId, now) + [r.value.invoice]
  {
    match FindIndex(store, id)
    case None => Err(NotFound)
    case Some(i) =>
      var inv := store[i];
      if inv.status == Cancelled then Err(CancelledCannotBePaid)
      else
        var paid := inv.(status := Paid, updatedAt := now);
        PaymentRegularIgnoresStatus(store, i, paid, regularId, now);
        assert store[i := paid][..i] == store[..i] && store[i := paid][i + 1..] == store[i + 1..];
        Ok(SettlePayment(store[i := paid], i, regularId, now))
  }

  /** A successful payment is the settlement of the stored invoice with its new status. */
  lemma MarkAsPaidSettles(store: seq<Invoice>, id: Guid, regularId: Guid, now: Date)
    requires MarkAsPaid(store, id, regularId, now).Ok?
    ensures var i := FindIndex(store, id).value;
            var paid := store[i].(status := Paid, updatedAt := now);
            && FindIndex(store[i := paid], id) == Some(i)
            && MarkAsPaid(store, id, regularId, now).value == SettlePayment(store[i := paid], i, regularId, now)
  {
    var i := FindIndex(store, id).value;
    FindIndexSetSameId(store, i, store[i].(status := Paid, updatedAt := now), id);
  }

  /** The rest of a payment once the stored invoice at `i` has its new status: an
      advance that converts on payment gets its regular invoice and the link to
      it, then the invoice goes through `UpdateInvoice`. */
  function SettlePayment(store: seq<Invoice>, i: nat, regularId: Guid, now: Date): (r: Outcome)
    requires i < |store| && FindIndex(store, store[i].id) == Some(i)
    ensures r.invoice.id == store[i].id && r.invoice.status == store[i].status && Consistent(r.invoice)
    ensures |r.store| == |store| + (if ConvertsOnPayment(store[i]) then 1 else 0)
    ensures SameInputs(PaidVersion(store[i], regularId, now), r.invoice)
    ensures r.store == store[..i] + store[i + 1..] + PaymentRegular(store, store[i].id, regularId, now) + [r.invoice]
  {
    var inv := store[i];
    if ConvertsOnPayment(inv) then
      var created := CreateRegularFromAdvance(store, inv.id, regularId, now).value;
      UpdateAfterAppend(store, created.invoice, i, inv.(regularInvoiceId := Some(created.invoice.id)), now);
      UpdateInvoice(created.store, inv.(regularInvoiceId := Some(created.invoice.id)), now).value
    else
      UpdateInvoice(store, inv, now).value
  }

  /** `CancelInvoiceAsync`: Paid invoices cannot be cancelled; anything else,
      including an already cancelled invoice, becomes Cancelled. */
  function CancelInvoice(store: seq<Invoice>, id: Guid, now: Date): (r: Result<Outcome, ServiceError>)
    ensures r.Err? <==> GetInvoice(store, id).None? || GetInvoice(store, id).value.status == Paid
    ensures r.Err? && GetInvoice(store, id).None? ==> r.error == NotFound
    ensures r.Err? && GetInvoice(store, id).Some? ==> r.error == PaidCannotBeCancelled
    ensures r.Ok? ==> r.value.invoice.id == id && r.value.invoice.status == Cancelled && Consistent(r.value.invoice)
    ensures r.Ok? ==> |r.value.store| == |store|
    ensures r.Ok? ==> Header(r.value.invoice) == Header(GetInvoice(store, id).value.(status := Cancelled))
  {
    match FindIndex(store, id)
    case None => Err(NotFound)
    case Some(i) =>
      var inv := store[i];
      if inv.status == Paid then Err(PaidCannotBeCancelled)
      else
        var cancelled := inv.(status := Cancelled, updatedAt := now);
        FindIndexSetSameId(store, i, cancelled, id);
        UpdateInvoice(store[i := cancelled], cancelled, now)
  }

  /** A successful cancellation is an update of the stored invoice with its new status. */
  lemma CancelUpdates(store: seq<Invoice>, id: Guid, now: Date)
    requires CancelInvoice(store, id, now).Ok?
    ensures var i := FindIndex(store, id).value;
            var cancelled := store[i].(status := Cancelled, updatedAt := now);
            && FindIndex(store[i := cancelled], id) == Some(i)
            && CancelInvoice(store, id, now) == UpdateInvoice(store[i := cancelled], cancelled, now)
  {
    var i := FindIndex(store, id).value;
    FindIndexSetSameId(store, i, store[i].(status := Cancelled, updatedAt := now), id);
  }

  /** The note written on a regular invoice created from an advance one. */
  function ConversionNote(advanceNumber: string): (r: string)
    ensures Includes(r, advanceNumber)
  {
    var lead := "Faktura vytvo\U{0159}en\U{00E1} na z\U{00E1}klad\U{011B} z\U{00E1}lohov\U{00E9} faktury \U{010D}. ";
    IncludesSuffix(lead, advanceNumber);
    lead + advanceNumber
  }

  /** A copy of an advance line as the conversion builds it: inputs and amounts
      copied, owner left empty. */
  function CopyItem(it: InvoiceItem): (r: InvoiceItem)
    ensures ItemInputs(r) == ItemInputs(it)
  {
    InvoiceItem(EmptyGuid, it.description, it.quantity, it.unit, it.unitPrice, it.vatRate,
                it.totalWithoutVat, it.vatAmount, it.totalWithVat)
  }

  function CopyItems(items: seq<InvoiceItem>): (r: seq<InvoiceItem>)
    ensures SameItemInputs(items, r)
  {
    seq(|items|, k requires 0 <= k < |items| => CopyItem(items[k]))
  }

  /** The regular invoice the conversion of `adv` hands to `CreateInvoiceAsync`. */
  function RegularDraft(adv: Invoice, regularId: Guid, now: Date): Invoice {
    NewInvoice().(
      id := regularId, invoiceType := Regular, issueDate := now, dueDate := AddDays(now, 14),
      status := Issued, customerId := adv.customerId, customerName := adv.customerName,
      customerAddress := adv.customerAddress, customerCompanyId := adv.customerCompanyId,
      customerVatId := adv.customerVatId, currency := adv.currency,
      advanceInvoiceId := Some(adv.id), note := Some(ConversionNote(adv.invoiceNumber)),
      items := CopyItems(adv.items))
  }

  /** `CreateRegularFromAdvanceAsync`: a new Regular, Issued invoice with the
      advance's customer, currency and lines, due 14 days after `now`, pointing back
      at the advance. The advance itself is left untouched. */
  function CreateRegularFromAdvance(store: seq<Invoice>, advanceId: Guid, regularId: Guid, now: Date)
    : (r: Result<Outcome, ServiceError>)
    ensures r.Err? <==> GetInvoice(store, advanceId).None?
                        || GetInvoice(store, advanceId).value.invoiceType != Advance
                        || GetInvoice(store, advanceId).value.regularInvoiceId.Some?
    ensures r.Err? && GetInvoice(store, advanceId).None? ==> r.error == NotFound
    ensures r.Err? && GetInvoice(store, advanceId).Some? ==>
              r.error == (if GetInvoice(store, advanceId).value.invoiceType != Advance then NotAnAdvance
                          else RegularAlreadyCreated)
    ensures r.Ok? ==> r.value.store == store + [r.value.invoice]
    ensures r.Ok? ==>
              var adv := GetInvoice(store, advanceId).value;
              var reg := r.value.invoice;
              && reg.id == regularId
              && reg.invoiceNumber == GenerateInvoiceNumber(store, Regular, now.year)
              && reg.variableSymbol == reg.invoiceNumber
              && reg.createdAt == now && reg.updatedAt == now
              && reg.invoiceType == Regular && reg.status == Issued
              && reg.issueDate == now && reg.dueDate == AddDays(now, 14)
              && reg.customerId == adv.customerId && reg.customerName == adv.customerName
              && reg.customerAddress == adv.customerAddress
              && reg.customerCompanyId == adv.customerCompanyId && reg.customerVatId == adv.customerVatId
              && reg.currency == adv.currency
              && reg.advanceInvoiceId == Some(advanceId) && reg.regularInvoiceId.None?
              && reg.note.Some? && Includes(reg.note.value, adv.invoiceNumber)
              && SameItemInputs(adv.items, reg.items)
              && Consistent(reg)
              && (Consistent(adv) ==> reg.totalAmount == adv.totalAmount)
  {
    match FindIndex(store, advanceId)
    case None => Err(NotFound)
    case Some(i) =>
      var adv := store[i];
      if adv.invoiceType != Advance then Err(NotAnAdvance)
      else if adv.regularInvoiceId.Some? then Err(RegularAlreadyCreated)
      else
        var regular := RegularDraft(adv, regularId, now);
        var created := CreateInvoice(store, regular, regularId, now);
        SameItemInputsTransitive(adv.items, regular.items, created.invoice.items);
        assert Consistent(adv) ==> created.invoice.totalAmount == adv.totalAmount by {
          if Consistent(adv) {
            SameLinesSameTotals(adv, created.invoice);
          }
        }
        Ok(created)
  }

  lemma SameItemInputsTransitive(a: seq<InvoiceItem>, b: seq<InvoiceItem>, c: seq<InvoiceItem>)
    requires SameItemInputs(a, b) && SameItemInputs(b, c)
    ensures SameItemInputs(a, c)
  {
  }

  /** Changing only the status and timestamp of the stored invoice changes
      neither its lookup nor the regular invoice its payment creates. */
  lemma PaymentRegularIgnoresStatus(store: seq<Invoice>, i: nat, v: Invoice, regularId: Guid, now: Date)
    requires i < |store| && FindIndex(store, store[i].id) == Some(i)
    requires v == store[i].(status := v.status, updatedAt := v.updatedAt)
    ensures FindIndex(store[i := v], v.id) == Some(i)
    ensures PaymentRegular(store[i := v], v.id, regularId, now) == PaymentRegular(store, v.id, regularId, now)
  {
    FindIndexSetSameId(store, i, v, v.id);
    if ConvertsOnPayment(v) {
      ConversionIgnoresStatus(store, i, v, regularId, now);
    }
  }

  lemma ConversionIgnoresStatus(store: seq<Invoice>, i: nat, v: Invoice, regularId: Guid, now: Date)
    requires i < |store| && FindIndex(store, store[i].id) == Some(i)
    requires v == store[i].(status := v.status, updatedAt := v.updatedAt)
    requires FindIndex(store[i := v], v.id) == Some(i) && ConvertsOnPayment(v)
    ensures CreateRegularFromAdvance(store[i := v], v.id, regularId, now).Ok?
    ensures CreateRegularFromAdvance(store, v.id, regularId, now).Ok?
    ensures CreateRegularFromAdvance(store[i := v], v.id, regularId, now).value.invoice
            == CreateRegularFromAdvance(store, v.id, regularId, now).value.invoice
  {
    var changed := store[i := v];
    assert GetInvoice(changed, v.id) == Some(v);
    assert GetInvoice(store, v.id) == Some(store[i]);
    DraftIgnoresStatus(store[i], v, regularId, now);
    NumberIgnoresStatus(store, i, v, now.year);
    SameDraftSameConversion(changed, store, v.id, regularId, now);
  }

  /** The draft reads neither the status nor the timestamp of the advance. */
  lemma DraftIgnoresStatus(adv: Invoice, v: Invoice, regularId: Guid, now: Date)
    requires v == adv.(status := v.status, updatedAt := v.updatedAt)
    ensures RegularDraft(v, regularId, now) == RegularDraft(adv, regularId, now)
  {
  }

  /** Generated numbers read neither the status nor the timestamp of any invoice. */
  lemma NumberIgnoresStatus(store: seq<Invoice>, i: nat, v: Invoice, year: int)
    requires i < |store| && v == store[i].(status := v.status, updatedAt := v.updatedAt)
    ensures GenerateInvoiceNumber(store[i := v], Regular, year) == GenerateInvoiceNumber(store, Regular, year)
  {
    var changed := store[i := v];
    forall k | 0 <= k < |changed|
      ensures changed[k].invoiceType == store[k].invoiceType && changed[k].issueDate == store[k].issueDate
              && changed[k].invoiceNumber == store[k].invoiceNumber
    {
    }
    MaxSuffixSameNumbers(changed, store, Regular, year);
    SameMaxSameNumber(changed, store, Regular, year);
  }

  /** Two conversions of advances with the same draft, in lists that generate the
      same regular number, create the same invoice. */
  lemma SameDraftSameConversion(a: seq<Invoice>, b: seq<Invoice>, id: Guid, regularId: Guid, now: Date)
    requires CreateRegularFromAdvance(a, id, regularId, now).Ok? && CreateRegularFromAdvance(b, id, regularId, now).Ok?
    requires RegularDraft(GetInvoice(a, id).value, regularId, now) == RegularDraft(GetInvoice(b, id).value, regularId, now)
    requires GenerateInvoiceNumber(a, Regular, now.year) == GenerateInvoiceNumber(b, Regular, now.year)
    ensures CreateRegularFromAdvance(a, id, regularId, now).value.invoice
            == CreateRegularFromAdvance(b, id, regularId, now).value.invoice
  {
    var draft := RegularDraft(GetInvoice(a, id).value, regularId, now);
    ConversionIsCreation(a, id, regularId, now);
    ConversionIsCreation(b, id, regularId, now);
    CreateInvoiceReadsNumber(a, b, draft, regularId, now);
  }

  /** A conversion creates the draft of the stored advance. */
  lemma ConversionIsCreation(store: seq<Invoice>, advanceId: Guid, regularId: Guid, now: Date)
    requires CreateRegularFromAdvance(store, advanceId, regularId, now).Ok?
    ensures CreateRegularFromAdvance(store, advanceId, regularId, now).value.invoice
            == CreateInvoice(store, RegularDraft(GetInvoice(store, advanceId).value, regularId, now), regularId, now).invoice
  {
  }

  /** Creation reads the list only through the number it would generate. */
  lemma CreateInvoiceReadsNumber(a: seq<Invoice>, b: seq<Invoice>, inv: Invoice, newId: Guid, now: Date)
    requires GenerateInvoiceNumber(a, inv.invoiceType, inv.issueDate.year)
             == GenerateInvoiceNumber(b, inv.invoiceType, inv.issueDate.year)
    ensures CreateInvoice(a, inv, newId, now).invoice == CreateInvoice(b, inv, newId, now).invoice
  {
  }

  /** Updating the invoice at `i` after an append keeps the appended invoice
      just before the updated one. */
  lemma UpdateAfterAppend(store: seq<Invoice>, extra: Invoice, i: nat, inv: Invoice, now: Date)
    requires i < |store| && FindIndex(store, inv.id) == Some(i)
    ensures UpdateInvoice(store + [extra], inv, now).Ok?
    ensures var r := UpdateInvoice(store + [extra], inv, now).value;
            r.store == store[..i] + store[i + 1..] + [extra] + [r.invoice]
  {
    FindIndexAppendFound(store, extra, inv.id);
    RemoveAtAppend(store, extra, i);
  }

  /** Removing position `i` from a list with one more element at its end. */
  lemma RemoveAtAppend<T>(s: seq<T>, x: T, i: nat)
    requires i < |s|
    ensures (s + [x])[..i] + (s + [x])[i + 1..] == s[..i] + s[i + 1..] + [x]
  {
    assert (s + [x])[..i] == s[..i];
    assert (s + [x])[i + 1..] == s[i + 1..] + [x];
  }

  /** Overwriting a slot with an invoice of the same id changes no lookup. */
  lemma FindIndexSetSameId(store: seq<Invoice>, i: nat, v: Invoice, id: Guid)
    requires i < |store| && v.id == store[i].id
    ensures FindIndex(store[i := v], id) == FindIndex(store, id)
  {
    FindIndexById(store, store[i := v], id);
  }

  /** Lookup depends only on the sequence of ids. */
  lemma {:induction false} FindIndexById(a: seq<Invoice>, b: seq<Invoice>, id: Guid)
    requires |a| == |b| && forall k :: 0 <= k < |a| ==> a[k].id == b[k].id
    ensures FindIndex(a, id) == FindIndex(b, id)
    decreases |a|
  {
    if |a| > 0 && a[0].id != id {
      FindIndexById(a[1..], b[1..], id);
    }
  }

  /** Appending never changes a lookup that already succeeds. */
  lemma FindIndexAppendFound(store: seq<Invoice>, extra: Invoice, id: Guid)
    requires FindIndex(store, id).Some?
    ensures FindIndex(store + [extra], id) == FindIndex(store, id)
  {
    var i := FindIndex(store, id).value;
    var r := FindIndex(store + [extra], id);
    assert (store + [extra])[i].id == id;
    assert r.Some? && r.value <= i;
  }
}

=== FILE: core_service_lemmas.dfy ===
/** Properties of the C# invoice service across several calls: consecutive
    numbering, independent series, the store invariant every operation keeps, the
    status rules, and the asymmetric advance/regular links. */
module CoreServiceLemmas {
  import opened Wrappers
  import opened Text
  import opened DotNet
  import opened Calendar
  import opened CoreModels
  import opened CoreTotals
  import opened CoreNumbering
  import opened CoreService

  /** No two stored invoices share an id. */
  predicate UniqueIds(store: seq<Invoice>) {
    forall j, k :: 0 <= j < k < |store| ==> store[j].id != store[k].id
  }

  /** The id is not used by any stored invoice. */
  predicate Fresh(store: seq<Invoice>, id: Guid) {
    forall j :: 0 <= j < |store| ==> store[j].id != id
  }

  /** What the service keeps true of its list: unique, non-empty ids and
      totals that agree with the lines. */
  predicate ValidStore(store: seq<Invoice>) {
    && UniqueIds(store)
    && forall j :: 0 <= j < |store| ==> store[j].id != EmptyGuid && Consistent(store[j])
  }

  // ---------------------------------------------------------------- lookup

  /** With unique ids, looking up a stored invoice's id finds that invoice. */
  lemma UniqueLookup(store: seq<Invoice>, j: nat)
    requires UniqueIds(store) && j < |store|
    ensures GetInvoice(store, store[j].id) == Some(store[j])
  {
    var r := FindIndex(store, store[j].id);
    assert r.Some? && r.value <= j;
  }

  lemma AppendUnique(store: seq<Invoice>, x: Invoice)
    requires UniqueIds(store) && Fresh(store, x.id)
    ensures UniqueIds(store + [x])
  {
  }

  /** The positions of `store[..i] + store[i + 1..]`, in terms of `store`. */
  lemma RemoveAt(store: seq<Invoice>, i: nat)
    requires i < |store|
    ensures |store[..i] + store[i + 1..]| == |store| - 1
    ensures forall k :: 0 <= k < i ==> (store[..i] + store[i + 1..])[k] == store[k]
    ensures forall k :: i < k < |store| ==> (store[..i] + store[i + 1..])[k - 1] == store[k]
  {
  }

  /** Removing an invoice and appending one with the same id keeps ids unique. */
  lemma ReplaceUnique(store: seq<Invoice>, i: nat, x: Invoice)
    requires UniqueIds(store) && i < |store| && x.id == store[i].id
    ensures UniqueIds(store[..i] + store[i + 1..] + [x])
  {
    var t := store[..i] + store[i + 1..] + [x];
    RemoveAt(store, i);
    forall j, k | 0 <= j < k < |t|
      ensures t[j].id != t[k].id
    {
      var pj := if j < i then j else j + 1;
      var pk := if k < i then k else k + 1;
      assert t[j] == store[pj];
      if k < |t| - 1 {
        assert t[k] == store[pk];
      } else {
        assert t[k] == x;
        assert pj != i;
      }
    }
  }

  /** After `UpdateInvoice`, the updated invoice is what its id finds, and every
      other id finds what it found before. */
  lemma UpdateLookup(store: seq<Invoice>, inv: Invoice, now: Date, other: Guid)
    requires UniqueIds(store)
    requires UpdateInvoice(store, inv, now).Ok?
    ensures var out := UpdateInvoice(store, inv, now).value;
            && UniqueIds(out.store)
            && GetInvoice(out.store, inv.id) == Some(out.invoice)
            && (other != inv.id ==> GetInvoice(out.store, other) == GetInvoice(store, other))
  {
    var i := FindIndex(store, inv.id).value;
    var out := UpdateInvoice(store, inv, now).value;
    assert out.store == store[..i] + store[i + 1..] + [out.invoice];
    ReplaceUnique(store, i, out.invoice);
    UniqueLookup(out.store, |out.store| - 1);
    if other != inv.id {
      ReplaceLookupOther(store, i, out.invoice, other);
    }
  }

  /** Moving the invoice at `i` to the end, replaced by one with the same id,
      changes nothing another id finds. */
  lemma ReplaceLookupOther(store: seq<Invoice>, i: nat, x: Invoice, other: Guid)
    requires UniqueIds(store) && i < |store| && x.id == store[i].id && other != x.id
    ensures GetInvoice(store[..i] + store[i + 1..] + [x], other) == GetInvoice(store, other)
  {
    var t := store[..i] + store[i + 1..] + [x];
    ReplaceUnique(store, i, x);
    RemoveAt(store, i);
    match FindIndex(store, other)
    case Some(j) =>
      assert j != i;
      var p := if j < i then j else j - 1;
      assert t[p] == store[j];
      UniqueLookup(t, p);
      UniqueLookup(store, j);
    case None =>
      forall k | 0 <= k < |t|
        ensures t[k].id != other
      {
        if k < i {
          assert t[k] == store[k];
        } else if k < |t| - 1 {
          assert t[k] == store[k + 1];
        }
      }
  }

  /** Appending a consistent invoice with a fresh, non-empty id keeps the store valid. */
  lemma AppendPreservesValid(store: seq<Invoice>, x: Invoice)
    requires ValidStore(store) && x.id != EmptyGuid && Fresh(store, x.id) && Consistent(x)
    ensures ValidStore(store + [x])
  {
    AppendUnique(store, x);
    assert forall j :: 0 <= j < |store| ==> (store + [x])[j] == store[j];
  }

  /** Replacing an invoice by a consistent one with the same id, moved to the
      end, keeps the store valid. */
  lemma ReplacePreservesValid(store: seq<Invoice>, i: nat, x: Invoice)
    requires ValidStore(store) && i < |store| && x.id == store[i].id && Consistent(x)
    ensures ValidStore(store[..i] + store[i + 1..] + [x])
  {
    ReplaceUnique(store, i, x);
    RemoveAt(store, i);
    var t := store[..i] + store[i + 1..] + [x];
    forall k | 0 <= k < |t|
      ensures t[k].id != EmptyGuid && Consistent(t[k])
    {
      if k < i {
        assert t[k] == store[k];
      } else if k < |t| - 1 {
        assert t[k] == store[k + 1];
      }
    }
  }

  // ---------------------------------------------------------------- numbering

  /** Two creations of the same type and issue year, both with empty numbers,
      receive consecutive sequence values. */
  lemma ConsecutiveNumbers(store: seq<Invoice>, a: Invoice, b: Invoice, idA: Guid, idB: Guid, nowA: Date, nowB: Date)
    requires a.invoiceNumber == "" && b.invoiceNumber == ""
    requires a.invoiceType == b.invoiceType && a.issueDate.year == b.issueDate.year >= 0
    requires MaxSuffix(store, a.invoiceType, a.issueDate.year) + 1 < Int32Max
    ensures var first := CreateInvoice(store, a, idA, nowA);
            var second := CreateInvoice(first.store, b, idB, nowB);
            && SuffixValue(first.invoice.invoiceNumber) == MaxSuffix(store, a.invoiceType, a.issueDate.year) + 1
            && SuffixValue(second.invoice.invoiceNumber) == SuffixValue(first.invoice.invoiceNumber) + 1
  {
    var t, y := a.invoiceType, a.issueDate.year;
    var first := CreateInvoice(store, a, idA, nowA);
    GeneratedNumberShape(store, t, y);
    assert InPartition(first.invoice, t, y);
    MaxSuffixAppendMember(store, first.invoice, t, y);
    GeneratedNumberShape(first.store, t, y);
  }

  /** Creating an invoice of one type does not move the other type's series. */
  lemma SeparateSeries(store: seq<Invoice>, inv: Invoice, newId: Guid, now: Date, t: InvoiceType, year: int)
    requires inv.invoiceType != t
    ensures GenerateInvoiceNumber(CreateInvoice(store, inv, newId, now).store, t, year)
            == GenerateInvoiceNumber(store, t, year)
  {
    var created := CreateInvoice(store, inv, newId, now);
    MaxSuffixAppendOther(store, created.invoice, t, year);
    SameMaxSameNumber(created.store, store, t, year);
  }

  /** The first number of a (type, year) partition ends in "-000001". */
  lemma FirstNumberOfYear(store: seq<Invoice>, t: InvoiceType, year: int)
    requires forall j :: 0 <= j < |store| ==> !InPartition(store[j], t, year)
    ensures GenerateInvoiceNumber(store, t, year) == Prefix(t) + IntToString(year) + "-000001"
  {
    assert MaxSuffix(store, t, year) == 0;
    assert NatToString(1) == "1";
    assert Repeat('0', 5) == "00000";
    assert FormatD(1, 6) == "000001";
  }

  // ---------------------------------------------------------------- store invariant

  lemma CreatePreservesValid(store: seq<Invoice>, inv: Invoice, newId: Guid, now: Date)
    requires ValidStore(store)
    requires var id := if inv.id == EmptyGuid then newId else inv.id;
             id != EmptyGuid && Fresh(store, id)
    ensures ValidStore(CreateInvoice(store, inv, newId, now).store)
  {
    var created := CreateInvoice(store, inv, newId, now);
    AppendPreservesValid(store, created.invoice);
  }

  lemma UpdatePreservesValid(store: seq<Invoice>, inv: Invoice, now: Date)
    requires ValidStore(store)
    requires UpdateInvoice(store, inv, now).Ok?
    ensures ValidStore(UpdateInvoice(store, inv, now).value.store)
  {
    var i := FindIndex(store, inv.id).value;
    var out := UpdateInvoice(store, inv, now).value;
    assert out.store == store[..i] + store[i + 1..] + [out.invoice];
    ReplacePreservesValid(store, i, out.invoice);
  }

  lemma CancelPreservesValid(store: seq<Invoice>, id: Guid, now: Date)
    requires ValidStore(store)
    ensures CancelInvoice(store, id, now).Ok? ==> ValidStore(CancelInvoice(store, id, now).value.store)
  {
    if CancelInvoice(store, id, now).Ok? {
      var i := FindIndex(store, id).value;
      var cancelled := store[i].(status := Cancelled, updatedAt := now);
      CancelUpdates(store, id, now);
      SetPreservesValid(store, i, cancelled);
      UpdatePreservesValid(store[i := cancelled], cancelled, now);
    }
  }

  lemma CreateRegularPreservesValid(store: seq<Invoice>, advanceId: Guid, regularId: Guid, now: Date)
    requires ValidStore(store)
    requires regularId != EmptyGuid && Fresh(store, regularId)
    ensures CreateRegularFromAdvance(store, advanceId, regularId, now).Ok? ==>
              ValidStore(CreateRegularFromAdvance(store, advanceId, regularId, now).value.store)
  {
    if CreateRegularFromAdvance(store, advanceId, regularId, now).Ok? {
      var out := CreateRegularFromAdvance(store, advanceId, regularId, now).value;
      AppendPreservesValid(store, out.invoice);
    }
  }

  /** Overwriting a slot with a consistent invoice of the same id keeps the store valid. */
  lemma SetPreservesValid(store: seq<Invoice>, i: nat, v: Invoice)
    requires ValidStore(store) && i < |store| && v.id == store[i].id && Consistent(v)
    ensures ValidStore(store[i := v])
  {
  }

  lemma SetKeepsUnique(store: seq<Invoice>, i: nat, v: Invoice)
    requires UniqueIds(store) && i < |store| && v.id == store[i].id
    ensures UniqueIds(store[i := v])
  {
  }

  lemma CreateRegularKeepsUnique(store: seq<Invoice>, advanceId: Guid, regularId: Guid, now: Date)
    requires UniqueIds(store) && Fresh(store, regularId)
    requires CreateRegularFromAdvance(store, advanceId, regularId, now).Ok?
    ensures UniqueIds(CreateRegularFromAdvance(store, advanceId, regularId, now).value.store)
  {
    var out := CreateRegularFromAdvance(store, advanceId, regularId, now).value;
    AppendUnique(store, out.invoice);
  }

  lemma SettlePreservesValid(store: seq<Invoice>, i: nat, regularId: Guid, now: Date)
    requires i < |store| && FindIndex(store, store[i].id) == Some(i)
    requires ValidStore(store) && regularId != EmptyGuid && Fresh(store, regularId)
    ensures ValidStore(SettlePayment(store, i, regularId, now).store)
  {
    var inv := store[i];
    if ConvertsOnPayment(inv) {
      var created := CreateRegularFromAdvance(store, inv.id, regularId, now).value;
      CreateRegularPreservesValid(store, inv.id, regularId, now);
      FindIndexAppendFound(store, created.invoice, inv.id);
      UpdatePreservesValid(created.store, inv.(regularInvoiceId := Some(created.invoice.id)), now);
    } else {
      UpdatePreservesValid(store, inv, now);
    }
  }

  /** Setting the stored invoice Paid and settling the payment keeps the store valid. */
  lemma PaidStepPreservesValid(store: seq<Invoice>, i: nat, regularId: Guid, now: Date)
    requires ValidStore(store) && i < |store| && FindIndex(store, store[i].id) == Some(i)
    requires regularId != EmptyGuid && Fresh(store, regularId)
    ensures var marked := store[i := store[i].(status := Paid, updatedAt := now)];
            && FindIndex(marked, store[i].id) == Some(i)
            && ValidStore(SettlePayment(marked, i, regularId, now).store)
  {
    var paid := store[i].(status := Paid, updatedAt := now);
    var marked := store[i := paid];
    FindIndexSetSameId(store, i, paid, store[i].id);
    SetPreservesValid(store, i, paid);
    assert Fresh(marked, regularId) by {
      assert forall j :: 0 <= j < |marked| ==> marked[j].id == store[j].id;
    }
    SettlePreservesValid(marked, i, regularId, now);
  }

  lemma MarkAsPaidPreservesValid(store: seq<Invoice>, id: Guid, regularId: Guid, now: Date)
    requires ValidStore(store)
    requires regularId != EmptyGuid && Fresh(store, regularId)
    ensures MarkAsPaid(store, id, regularId, now).Ok? ==> ValidStore(MarkAsPaid(store, id, regularId, now).value.store)
  {
    if MarkAsPaid(store, id, regularId, now).Ok? {
      var i := FindIndex(store, id).value;
      MarkAsPaidSettles(store, id, regularId, now);
      PaidStepPreservesValid(store, i, regularId, now);
    }
  }

  // ---------------------------------------------------------------- status rules

  /** A cancelled invoice can no longer be paid. */
  lemma CancelThenPayFails(store: seq<Invoice>, id: Guid, now: Date, regularId: Guid, later: Date)
    requires UniqueIds(store)
    requires CancelInvoice(store, id, now).Ok?
    ensures MarkAsPaid(CancelInvoice(store, id, now).value.store, id, regularId, later) == Err(CancelledCannotBePaid)
  {
    var i := FindIndex(store, id).value;
    var cancelled := store[i].(status := Cancelled, updatedAt := now);
    CancelUpdates(store, id, now);
    UpdateLookup(store[i := cancelled], cancelled, now, id);
  }

  /** A paid invoice can no longer be cancelled. */
  lemma PayThenCancelFails(store: seq<Invoice>, id: Guid, regularId: Guid, now: Date, later: Date)
    requires UniqueIds(store) && Fresh(store, regularId)
    requires MarkAsPaid(store, id, regularId, now).Ok?
    ensures CancelInvoice(MarkAsPaid(store, id, regularId, now).value.store, id, later) == Err(PaidCannotBeCancelled)
  {
    PaidIsStored(store, id, regularId, now);
  }

  /** After a payment, the invoice's id finds the paid invoice the call returned. */
  lemma PaidIsStored(store: seq<Invoice>, id: Guid, regularId: Guid, now: Date)
    requires UniqueIds(store) && Fresh(store, regularId)
    requires MarkAsPaid(store, id, regularId, now).Ok?
    ensures var out := MarkAsPaid(store, id, regularId, now).value;
            GetInvoice(out.store, id) == Some(out.invoice)
  {
    var i := FindIndex(store, id).value;
    MarkAsPaidSettles(store, id, regularId, now);
    PaidStepStored(store, i, regularId, now);
  }

  /** Setting the stored invoice Paid and settling the payment leaves it findable. */
  lemma PaidStepStored(store: seq<Invoice>, i: nat, regularId: Guid, now: Date)
    requires i < |store| && FindIndex(store, store[i].id) == Some(i)
    requires UniqueIds(store) && Fresh(store, regularId)
    ensures var marked := store[i := store[i].(status := Paid, updatedAt := now)];
            && FindIndex(marked, store[i].id) == Some(i)
            && var out := SettlePayment(marked, i, regularId, now);
               GetInvoice(out.store, store[i].id) == Some(out.invoice)
  {
    var marked := store[i := store[i].(status := Paid, updatedAt := now)];
    MarkedKeepsInvariants(store, i, regularId, now);
    SettledIsStored(marked, i, regularId, now);
  }

  /** The list with the stored invoice set Paid keeps its lookups, unique ids and
      fresh ids. */
  lemma MarkedKeepsInvariants(store: seq<Invoice>, i: nat, regularId: Guid, now: Date)
    requires i < |store| && FindIndex(store, store[i].id) == Some(i)
    requires UniqueIds(store) && Fresh(store, regularId)
    ensures var marked := store[i := store[i].(status := Paid, updatedAt := now)];
            && FindIndex(marked, store[i].id) == Some(i)
            && UniqueIds(marked) && Fresh(marked, regularId)
  {
    var paid := store[i].(status := Paid, updatedAt := now);
    var marked := store[i := paid];
    FindIndexSetSameId(store, i, paid, store[i].id);
    SetKeepsUnique(store, i, paid);
    assert forall j :: 0 <= j < |marked| ==> marked[j].id == store[j].id;
  }

  lemma SettledIsStored(store: seq<Invoice>, i: nat, regularId: Guid, now: Date)
    requires i < |store| && FindIndex(store, store[i].id) == Some(i)
    requires UniqueIds(store) && Fresh(store, regularId)
    ensures var out := SettlePayment(store, i, regularId, now);
            GetInvoice(out.store, store[i].id) == Some(out.invoice)
  {
    var inv := store[i];
    if ConvertsOnPayment(inv) {
      var created := CreateRegularFromAdvance(store, inv.id, regularId, now).value;
      CreateRegularKeepsUnique(store, inv.id, regularId, now);
      FindIndexAppendFound(store, created.invoice, inv.id);
      UpdateLookup(created.store, inv.(regularInvoiceId := Some(created.invoice.id)), now, inv.id);
    } else {
      UpdateLookup(store, inv, now, inv.id);
    }
  }

  // ---------------------------------------------------------------- advance and regular

  /** Paying an advance invoice that converts on payment creates exactly one
      regular invoice; the two then point at each other. */
  lemma PaymentLinksBothWays(store: seq<Invoice>, id: Guid, regularId: Guid, now: Date)
    requires UniqueIds(store) && Fresh(store, regularId)
    requires GetInvoice(store, id).Some? && GetInvoice(store, id).value.status != Cancelled
    requires ConvertsOnPayment(GetInvoice(store, id).value)
    ensures MarkAsPaid(store, id, regularId, now).Ok?
    ensures var out := MarkAsPaid(store, id, regularId, now).value;
            && |out.store| == |store| + 1
            && out.invoice.regularInvoiceId == Some(regularId)
            && GetInvoice(out.store, id) == Some(out.invoice)
            && GetInvoice(out.store, regularId).Some?
            && GetInvoice(out.store, regularId).value.invoiceType == Regular
            && GetInvoice(out.store, regularId).value.advanceInvoiceId == Some(id)
  {
    PaymentLinksForward(store, id, regularId, now);
    PaidIsStored(store, id, regularId, now);
  }

  /** The payment side of the links: the paid advance names the new regular
      invoice, which is stored and names the advance. */
  predicate RegularLinked(out: Outcome, advanceId: Guid, regularId: Guid) {
    && out.invoice.regularInvoiceId == Some(regularId)
    && GetInvoice(out.store, regularId).Some?
    && GetInvoice(out.store, regularId).value.invoiceType == Regular
    && GetInvoice(out.store, regularId).value.advanceInvoiceId == Some(advanceId)
  }

  lemma PaymentLinksForward(store: seq<Invoice>, id: Guid, regularId: Guid, now: Date)
    requires UniqueIds(store) && Fresh(store, regularId)
    requires GetInvoice(store, id).Some? && GetInvoice(store, id).value.status != Cancelled
    requires ConvertsOnPayment(GetInvoice(store, id).value)
    ensures MarkAsPaid(store, id, regularId, now).Ok?
    ensures RegularLinked(MarkAsPaid(store, id, regularId, now).value, id, regularId)
  {
    var i := FindIndex(store, id).value;
    MarkAsPaidSettles(store, id, regularId, now);
    PaidStepLinks(store, i, regularId, now);
  }

  /** Setting a converting advance Paid and settling the payment links it. */
  lemma PaidStepLinks(store: seq<Invoice>, i: nat, regularId: Guid, now: Date)
    requires i < |store| && FindIndex(store, store[i].id) == Some(i)
    requires UniqueIds(store) && Fresh(store, regularId)
    requires ConvertsOnPayment(store[i])
    ensures var marked := store[i := store[i].(status := Paid, updatedAt := now)];
            && FindIndex(marked, store[i].id) == Some(i)
            && RegularLinked(SettlePayment(marked, i, regularId, now), store[i].id, regularId)
  {
    var marked := store[i := store[i].(status := Paid, updatedAt := now)];
    MarkedKeepsInvariants(store, i, regularId, now);
    SettleLinks(marked, i, regularId, now);
  }

  lemma SettleLinks(store: seq<Invoice>, i: nat, regularId: Guid, now: Date)
    requires i < |store| && FindIndex(store, store[i].id) == Some(i)
    requires UniqueIds(store) && Fresh(store, regularId)
    requires ConvertsOnPayment(store[i])
    ensures RegularLinked(SettlePayment(store, i, regularId, now), store[i].id, regularId)
  {
    var inv := store[i];
    var created := CreateRegularFromAdvance(store, inv.id, regularId, now).value;
    CreateRegularKeepsUnique(store, inv.id, regularId, now);
    FindIndexAppendFound(store, created.invoice, inv.id);
    var linked := inv.(regularInvoiceId := Some(created.invoice.id));
    UpdateLookup(created.store, linked, now, regularId);
    UniqueLookup(created.store, |store|);
  }

  /** Paying the same advance invoice again creates no second regular invoice. */
  lemma SecondPaymentConvertsNothing(store: seq<Invoice>, id: Guid, regularId: Guid, now: Date,
                                     secondId: Guid, later: Date)
    requires UniqueIds(store) && Fresh(store, regularId)
    requires GetInvoice(store, id).Some? && GetInvoice(store, id).value.status != Cancelled
    requires ConvertsOnPayment(GetInvoice(store, id).value)
    ensures var once := MarkAsPaid(store, id, regularId, now).value.store;
            && MarkAsPaid(once, id, secondId, later).Ok?
            && |MarkAsPaid(once, id, secondId, later).value.store| == |once|
  {
    PaymentLinksBothWays(store, id, regularId, now);
    var out := MarkAsPaid(store, id, regularId, now).value;
    assert GetInvoice(out.store, id) == Some(out.invoice);
    assert !ConvertsOnPayment(out.invoice) && out.invoice.status != Cancelled;
  }

  /** A direct conversion leaves the advance unlinked, so a second conversion of
      the same advance succeeds as well and yields another regular invoice. */
  lemma DirectConversionLeavesAdvanceUnlinked(store: seq<Invoice>, advanceId: Guid, regularId: Guid, now: Date,
                                              secondId: Guid, later: Date)
    requires CreateRegularFromAdvance(store, advanceId, regularId, now).Ok?
    ensures var out := CreateRegularFromAdvance(store, advanceId, regularId, now).value;
            && GetInvoice(out.store, advanceId) == GetInvoice(store, advanceId)
            && GetInvoice(out.store, advanceId).value.regularInvoiceId.None?
            && CreateRegularFromAdvance(out.store, advanceId, secondId, later).Ok?
  {
    var out := CreateRegularFromAdvance(store, advanceId, regularId, now).value;
    FindIndexAppendFound(store, out.invoice, advanceId);
  }
}

=== FILE: core_totals.dfy ===
/** `RecalculateInvoiceTotals` of the C# invoice service: every line is
    recomputed from quantity, unit price and rate, and the invoice amounts are
    exact (unrounded) sums over the lines. C# `decimal` is modelled as `real`. */
module CoreTotals {
  import opened Sums
  import opened CoreModels

  function NetOf(it: InvoiceItem): real { it.totalWithoutVat }
  function VatOf(it: InvoiceItem): real { it.vatAmount }
  function GrossOf(it: InvoiceItem): real { it.totalWithVat }

  /** A line whose derived amounts agree with its inputs. */
  predicate ItemConsistent(it: InvoiceItem) {
    && it.totalWithoutVat == it.quantity * it.unitPrice
    && it.vatAmount == it.totalWithoutVat * (it.vatRate / 100.0)
    && it.totalWithVat == it.totalWithoutVat + it.vatAmount
  }

  /** The denormalised amounts of an invoice agree with its lines. */
  predicate Consistent(inv: Invoice) {
    && (forall i :: 0 <= i < |inv.items| ==> ItemConsistent(inv.items[i]))
    && inv.amountWithoutVat == Sum(inv.items, NetOf)
    && inv.vatAmount == Sum(inv.items, VatOf)
    && inv.totalAmount == Sum(inv.items, GrossOf)
  }

  /** The caller-supplied part of a line: everything except owner and derived amounts. */
  function ItemInputs(it: InvoiceItem): InvoiceItem {
    it.(invoiceId := EmptyGuid, totalWithoutVat := 0.0, vatAmount := 0.0, totalWithVat := 0.0)
  }

  /** Two line lists with the same inputs, line by line. */
  predicate SameItemInputs(a: seq<InvoiceItem>, b: seq<InvoiceItem>) {
    |a| == |b| && forall i :: 0 <= i < |a| ==> ItemInputs(a[i]) == ItemInputs(b[i])
  }

  /** Two invoices that differ at most in derived amounts and line owners. */
  predicate SameInputs(a: Invoice, b: Invoice) {
    && SameItemInputs(a.items, b.items)
    && a.(items := [], amountWithoutVat := 0.0, vatAmount := 0.0, totalAmount := 0.0)
       == b.(items := [], amountWithoutVat := 0.0, vatAmount := 0.0, totalAmount := 0.0)
  }

  function RecalculateItem(it: InvoiceItem, owner: Guid): (r: InvoiceItem)
    ensures ItemConsistent(r)
    ensures ItemInputs(r) == ItemInputs(it) && r.invoiceId == owner
  {
    var net := it.quantity * it.unitPrice;
    var vat := net * (it.vatRate / 100.0);
    it.(totalWithoutVat := net, vatAmount := vat, totalWithVat := net + vat, invoiceId := owner)
  }

  function RecalculateItems(items: seq<InvoiceItem>, owner: Guid): (r: seq<InvoiceItem>)
    ensures SameItemInputs(items, r)
    ensures forall i :: 0 <= i < |r| ==> ItemConsistent(r[i]) && r[i].invoiceId == owner
  {
    seq(|items|, i requires 0 <= i < |items| => RecalculateItem(items[i], owner))
  }

  /** `RecalculateInvoiceTotals`: the result is consistent and keeps every input. */
  function Recalculate(inv: Invoice): (r: Invoice)
    ensures Consistent(r)
    ensures SameInputs(inv, r)
    ensures forall i :: 0 <= i < |r.items| ==> r.items[i].invoiceId == inv.id
  {
    var items := RecalculateItems(inv.items, inv.id);
    inv.(items := items,
         amountWithoutVat := Sum(items, NetOf),
         vatAmount := Sum(items, VatOf),
         totalAmount := Sum(items, GrossOf))
  }

  /** The derived amounts of a line are determined by its inputs. */
  lemma ItemInputsDetermineAmounts(a: InvoiceItem, b: InvoiceItem)
    requires ItemConsistent(a) && ItemConsistent(b) && ItemInputs(a) == ItemInputs(b)
    ensures NetOf(a) == NetOf(b) && VatOf(a) == VatOf(b) && GrossOf(a) == GrossOf(b)
  {
    assert a.quantity == ItemInputs(a).quantity == ItemInputs(b).quantity == b.quantity;
    assert a.unitPrice == ItemInputs(a).unitPrice;
    assert b.unitPrice == ItemInputs(b).unitPrice;
    assert a.vatRate == ItemInputs(a).vatRate;
    assert b.vatRate == ItemInputs(b).vatRate;
  }

  /** Consistent invoices with the same line inputs have the same amounts. */
  lemma SameLinesSameTotals(a: Invoice, b: Invoice)
    requires Consistent(a) && Consistent(b) && SameItemInputs(a.items, b.items)
    ensures a.amountWithoutVat == b.amountWithoutVat
    ensures a.vatAmount == b.vatAmount
    ensures a.totalAmount == b.totalAmount
  {
    forall i | 0 <= i < |a.items|
      ensures NetOf(a.items[i]) == NetOf(b.items[i])
      ensures VatOf(a.items[i]) == VatOf(b.items[i])
      ensures GrossOf(a.items[i]) == GrossOf(b.items[i])
    {
      ItemInputsDetermineAmounts(a.items[i], b.items[i]);
    }
    SumTransfer(a.items, NetOf, b.items, NetOf);
    SumTransfer(a.items, VatOf, b.items, VatOf);
    SumTransfer(a.items, GrossOf, b.items, GrossOf);
  }

  /** The invoice total is the net amount plus the VAT, with no rounding. */
  lemma TotalIsNetPlusVat(inv: Invoice)
    requires Consistent(inv)
    ensures inv.totalAmount == inv.amountWithoutVat + inv.vatAmount
  {
    SumPointwise(inv.items, NetOf, VatOf, GrossOf);
  }

  /** Every line's VAT is its net amount times the rate, so over a whole invoice
      whose lines share one rate the VAT is the net amount times that rate. */
  lemma UniformRateVat(inv: Invoice, rate: real)
    requires Consistent(inv)
    requires forall i :: 0 <= i < |inv.items| ==> inv.items[i].vatRate == rate
    ensures inv.vatAmount == (rate / 100.0) * inv.amountWithoutVat
  {
    SumScale(inv.items, NetOf, VatOf, rate / 100.0);
  }

  /** Recalculating a consistent invoice whose lines already belong to it changes nothing. */
  lemma RecalculateFixesConsistent(inv: Invoice)
    requires Consistent(inv)
    requires forall i :: 0 <= i < |inv.items| ==> inv.items[i].invoiceId == inv.id
    ensures Recalculate(inv) == inv
  {
    var r := Recalculate(inv);
    assert r.items == inv.items by {
      forall i | 0 <= i < |inv.items|
        ensures r.items[i] == inv.items[i]
      {
        var a := inv.items[i];
        assert r.items[i] == RecalculateItem(a, inv.id);
      }
    }
  }

  /** Recalculation is idempotent. */
  lemma RecalculateIdempotent(inv: Invoice)
    ensures Recalculate(Recalculate(inv)) == Recalculate(inv)
  {
    RecalculateFixesConsistent(Recalculate(inv));
  }

  /** An invoice without lines totals zero. */
  lemma EmptyInvoiceTotalsZero(inv: Invoice)
    requires inv.items == []
    ensures Recalculate(inv).totalAmount == 0.0
    ensures Recalculate(inv).amountWithoutVat == 0.0 && Recalculate(inv).vatAmount == 0.0
  {
  }
}

=== FILE: dotnet.dfy ===
/** The .NET integer rules the C# invoice service relies on: 32-bit `int`
    arithmetic, `int.TryParse` with the default `NumberStyles.Integer`, and the
    `D<n>` format specifier. */
module DotNet {
  import opened Wrappers
  import opened Text

  const Int32Min: int := -2147483648
  const Int32Max: int := 2147483647

  predicate IsInt32(n: int) {
    Int32Min <= n <= Int32Max
  }

  /** Unchecked 32-bit two's-complement wrap-around of an exact result. */
  function Wrap32(n: int): (r: int)
    ensures IsInt32(r)
    ensures IsInt32(n) ==> r == n
    ensures (r - n) % 0x1_0000_0000 == 0
  {
    var m := (n - Int32Min) % 0x1_0000_0000;
    m + Int32Min
  }

  /** White space accepted around a number by `NumberStyles.Integer`. */
  predicate IsNumberWhite(c: char) {
    c == ' ' || ('\t' <= c <= '\r')
  }

  function TrimNumberWhite(s: string): (r: string)
    ensures |r| <= |s|
    decreases |s|
  {
    if |s| > 0 && IsNumberWhite(s[0]) then TrimNumberWhite(s[1..])
    else if |s| > 0 && IsNumberWhite(s[|s| - 1]) then TrimNumberWhite(s[..|s| - 1])
    else s
  }

  /** Trimming stops at once when neither end is white space. */
  lemma TrimNoWhite(s: string)
    requires |s| > 0 && !IsNumberWhite(s[0]) && !IsNumberWhite(s[|s| - 1])
    ensures TrimNumberWhite(s) == s
  {
  }

  /** `int.TryParse(s, out n)`: optional surrounding white space, an optional
      leading sign, one or more ASCII digits, and a value inside the Int32 range;
      anything else fails. */
  function TryParseInt32(s: string): (r: Option<int>)
    ensures r.Some? ==> IsInt32(r.value)
  {
    ParseTrimmed(TrimNumberWhite(s))
  }

  /** The part of `int.TryParse` after the white space is gone. */
  function ParseTrimmed(t: string): (r: Option<int>)
    ensures r.Some? ==> IsInt32(r.value)
  {
    if |t| == 0 then None
    else
      var negative := t[0] == '-';
      var digits := if t[0] == '-' || t[0] == '+' then t[1..] else t;
      if |digits| == 0 || !AllDigits(digits) then None
      else
        var v: int := if negative then -(DigitsValue(digits) as int) else DigitsValue(digits);
        if IsInt32(v) then Some(v) else None
  }

  /** `n.ToString("D" + width)`: the magnitude zero-padded to `width` digits,
      preceded by '-' for a negative value. */
  function FormatD(n: int, width: nat): (r: string)
    ensures |r| >= 1
    ensures n >= 0 ==> AllDigits(r)
    ensures n >= 0 <==> '-' !in r
  {
    if n < 0 then
      var m := PadStart(NatToString(-n), width, '0');
      assert r0: m[0] != '-' by { assert IsDigit(m[0]); }
      "-" + m
    else
      var m := PadStart(NatToString(n), width, '0');
      assert AllDigits(m);
      m
  }

  /** Parsing a non-empty string of digits. */
  lemma ParseDigits(p: string)
    requires |p| >= 1 && AllDigits(p) && IsInt32(DigitsValue(p))
    ensures TryParseInt32(p) == Some(DigitsValue(p))
  {
    assert IsDigit(p[0]) && IsDigit(p[|p| - 1]);
    TrimNoWhite(p);
  }

  /** Parsing a non-empty string of digits behind a '-' sign. */
  lemma ParseNegativeDigits(p: string)
    requires |p| >= 1 && AllDigits(p) && IsInt32(-(DigitsValue(p) as int))
    ensures TryParseInt32("-" + p) == Some(-(DigitsValue(p) as int))
  {
    var f := "-" + p;
    assert f[|f| - 1] == p[|p| - 1];
    assert IsDigit(p[|p| - 1]);
    TrimNoWhite(f);
    ParseTrimmedNegative(p);
  }

  lemma ParseTrimmedNegative(p: string)
    requires |p| >= 1 && AllDigits(p) && IsInt32(-(DigitsValue(p) as int))
    ensures ParseTrimmed("-" + p) == Some(-(DigitsValue(p) as int))
  {
    assert ("-" + p)[1..] == p;
  }

  /** Every Int32 value survives a round trip through `D` formatting and `int.TryParse`. */
  lemma FormatDParses(n: int, width: nat)
    requires IsInt32(n)
    ensures TryParseInt32(FormatD(n, width)) == Some(n)
  {
    var m: nat := if n < 0 then -n else n;
    var p := PadStart(NatToString(m), width, '0');
    PaddedValue(m, width);
    if n < 0 {
      assert FormatD(n, width) == "-" + p;
      ParseNegativeDigits(p);
    } else {
      assert FormatD(n, width) == p;
      ParseDigits(p);
    }
  }
}

=== FILE: express_helpers.dfy ===
/** The pure helpers of the Express back end (`src/utils/helpers.ts`): the VAT
    breakdown rounded to cents, and the `FA`/`ZF`/`NB` invoice numbers. */
module ExpressHelpers {
  import opened Wrappers
  import opened Text

  // ------------------------------------------------------------ rounding

  /** JavaScript `Math.round`: the nearest integer, halves going towards +infinity. */
  function MathRound(y: real): (n: int)
    ensures y - 0.5 < n as real <= y + 0.5
  {
    (y + 0.5).Floor
  }

  /** `Math.round(x * 100) / 100`: `x` to the nearest cent. */
  function Round2(x: real): (r: real)
    ensures x - 0.005 < r <= x + 0.005
  {
    MathRound(x * 100.0) as real / 100.0
  }

  /** A whole number of cents. */
  predicate IsCents(x: real) {
    (x * 100.0).Floor as real == x * 100.0
  }

  lemma Round2IsCents(x: real)
    ensures IsCents(Round2(x))
  {
    var k := MathRound(x * 100.0);
    assert Round2(x) * 100.0 == k as real;
  }

  /** An amount already in cents is left alone. */
  lemma Round2KeepsCents(x: real)
    requires IsCents(x)
    ensures Round2(x) == x
  {
    var k := (x * 100.0).Floor;
    assert MathRound(x * 100.0) == k;
  }

  lemma Round2Idempotent(x: real)
    ensures Round2(Round2(x)) == Round2(x)
  {
    Round2IsCents(x);
    Round2KeepsCents(Round2(x));
  }

  /** Rounding never reverses the order of two amounts. */
  lemma Round2Monotone(x: real, y: real)
    requires x <= y
    ensures Round2(x) <= Round2(y)
  {
    assert (x * 100.0 + 0.5).Floor <= (y * 100.0 + 0.5).Floor;
  }

  /** A half cent goes up. */
  lemma HalfCentRoundsUp(k: int)
    ensures Round2(k as real / 100.0 + 0.005) == (k + 1) as real / 100.0
  {
    assert (k as real / 100.0 + 0.005) * 100.0 + 0.5 == (k + 1) as real;
  }

  // ------------------------------------------------------------ calculateVAT

  datatype VatBreakdown = VatBreakdown(subtotal: real, vatAmount: real, total: real)

  /** The rate `calculateVAT` uses when the argument is left out. A default
      parameter replaces only a missing argument, so an explicit 0 stays 0. */
  const DefaultVatRate: real := 21.0

  /** `calculateVAT(amount, vatRate)`: VAT and total computed exactly from the
      unrounded subtotal, then each of the three figures rounded to cents on its
      own. */
  function CalculateVat(amount: real, vatRate: Option<real>): (r: VatBreakdown)
    ensures amount - 0.005 < r.subtotal <= amount + 0.005
    ensures var vat := amount * vatRate.GetOr(DefaultVatRate) / 100.0;
            vat - 0.005 < r.vatAmount <= vat + 0.005
    ensures var vat := amount * vatRate.GetOr(DefaultVatRate) / 100.0;
            amount + vat - 0.005 < r.total <= amount + vat + 0.005
    ensures IsCents(r.subtotal) && IsCents(r.vatAmount) && IsCents(r.total)
  {
    var rate := vatRate.GetOr(DefaultVatRate);
    var vatAmount := amount * rate / 100.0;
    var total := amount + vatAmount;
    Round2IsCents(amount);
    Round2IsCents(vatAmount);
    Round2IsCents(total);
    VatBreakdown(Round2(amount), Round2(vatAmount), Round2(total))
  }

  /** An explicit zero rate yields no VAT and a total equal to the subtotal. */
  lemma ZeroRateMeansNoVat(amount: real)
    ensures CalculateVat(amount, Some(0.0)).vatAmount == 0.0
    ensures CalculateVat(amount, Some(0.0)).total == CalculateVat(amount, Some(0.0)).subtotal
  {
    assert Round2(0.0) == 0.0 by {
      assert MathRound(0.0) == 0;
    }
  }

  /** Because the three figures are rounded separately, the rounded total can
      miss the sum of the rounded parts, but by at most a cent either way. */
  lemma RoundedPartsWithinCent(amount: real, vatRate: Option<real>)
    ensures var r := CalculateVat(amount, vatRate);
            -0.01 <= r.total - (r.subtotal + r.vatAmount) <= 0.01
  {
    var r := CalculateVat(amount, vatRate);
    var a := (r.subtotal * 100.0).Floor;
    var b := (r.vatAmount * 100.0).Floor;
    var c := (r.total * 100.0).Floor;
    assert -1.5 < (c - a - b) as real < 1.5;
  }

  /** A concrete case where the rounded parts do not add up: 0.025 at 20%. */
  lemma RoundedPartsMayNotAdd()
    ensures var r := CalculateVat(0.025, Some(20.0));
            r == VatBreakdown(0.03, 0.01, 0.03) && r.subtotal + r.vatAmount != r.total
  {
    assert MathRound(2.5) == 3;
    assert MathRound(0.5) == 1;
    assert MathRound(3.0) == 3;
  }

  // ------------------------------------------------------------ generateInvoiceNumber

  /** `FA` for an invoice, `ZF` for a proforma, `NB` for every other type. */
  function InvoicePrefix(kind: string): (p: string)
    ensures |p| == 2
    ensures p == "FA" <==> kind == "invoice"
    ensures p == "ZF" <==> kind == "proforma"
    ensures p == "NB" <==> kind != "invoice" && kind != "proforma"
  {
    if kind == "invoice" then "FA" else if kind == "proforma" then "ZF" else "NB"
  }

  /** `generateInvoiceNumber(type, year, sequence)`: prefix, year and the
      sequence padded to at least four digits, with no separator. */
  function GenerateInvoiceNumber(kind: string, year: int, sequence: int): (r: string)
    ensures StartsWith(r, InvoicePrefix(kind))
    ensures |r| >= 2 + 1 + 4
  {
    var r := InvoicePrefix(kind) + IntToString(year) + PadStart(IntToString(sequence), 4, '0');
    assert r[..2] == InvoicePrefix(kind);
    r
  }

  lemma FourDigitYear(year: int)
    requires 1000 <= year <= 9999
    ensures |IntToString(year)| == 4
  {
    assert year / 100 / 10 == year / 1000;
    assert year / 10 / 10 == year / 100;
    assert |NatToString(year / 1000)| == 1;
    assert |NatToString(year / 100)| == 2;
    assert |NatToString(year / 10)| == 3;
    assert NatToString(year) == NatToString(year / 10) + [DigitChar(year % 10)];
  }

  /** With a four-digit year, the number splits back into the prefix, the year
      and a digit run that reads as the sequence; padding never truncates. */
  lemma InvoiceNumberReadsBack(kind: string, year: int, sequence: nat)
    requires 1000 <= year <= 9999
    ensures var r := GenerateInvoiceNumber(kind, year, sequence);
            && r[..2] == InvoicePrefix(kind)
            && r[2..6] == IntToString(year)
            && AllDigits(r[6..]) && DigitsValue(r[6..]) == sequence
  {
    FourDigitYear(year);
    var r := GenerateInvoiceNumber(kind, year, sequence);
    var pad := PadStart(NatToString(sequence), 4, '0');
    assert r == InvoicePrefix(kind) + IntToString(year) + pad;
    assert r[6..] == pad;
    assert r[2..6] == IntToString(year);
    PaddedValue(sequence, 4);
  }

  /** Within one type and one four-digit year, distinct sequences give distinct
      numbers. */
  lemma InvoiceNumberInjective(kind: string, year: int, a: nat, b: nat)
    requires 1000 <= year <= 9999
    requires GenerateInvoiceNumber(kind, year, a) == GenerateInvoiceNumber(kind, year, b)
    ensures a == b
  {
    InvoiceNumberReadsBack(kind, year, a);
    InvoiceNumberReadsBack(kind, year, b);
  }

  /** Invoices and proformas never share a number; advance and received
      invoices share the `NB` series. */
  lemma SeriesApart(year: int, a: int, b: int)
    ensures GenerateInvoiceNumber("invoice", year, a) != GenerateInvoiceNumber("proforma", year, b)
    ensures InvoicePrefix("advance") == InvoicePrefix("received")
  {
    assert GenerateInvoiceNumber("invoice", year, a)[1] == 'A';
    assert GenerateInvoiceNumber("proforma", year, b)[1] == 'F';
  }
}

=== FILE: express_invoices.dfy ===
/** The write path of the Express `invoiceController`: `createInvoice`,
    `updateInvoice` and `deleteInvoice` over the SQLite `invoices` and
    `invoice_items` tables, held here as two sequences of rows. */
module ExpressInvoices {
  import opened Wrappers
  import opened Sums
  import opened Calendar
  import opened Sorting
  import opened ExpressHelpers

  /** An item of the request body; a missing description is `None`. */
  datatype ItemInput = ItemInput(description: Option<string>, quantity: real, unitPrice: real, vatRate: Option<real>)

  /** The body of `POST /invoices`. Ids are SQLite integers; an absent field is `None`. */
  datatype CreateBody = CreateBody(
    clientId: Option<int>,
    kind: Option<string>,
    issueDate: Option<Date>,
    dueDate: Option<Date>,
    taxDate: Option<Date>,
    items: Option<seq<ItemInput>>,
    notes: Option<string>,
    currency: Option<string>)

  /** A row of `invoices`; `status` is `None` for SQL NULL. */
  datatype InvoiceRow = InvoiceRow(
    id: int,
    userId: int,
    clientId: int,
    kind: string,
    number: string,
    issueDate: Date,
    dueDate: Date,
    taxDate: Option<Date>,
    subtotal: real,
    vatRate: real,
    vatAmount: real,
    total: real,
    currency: string,
    status: Option<string>,
    notes: Option<string>,
    deleted: bool)

  /** A row of `invoice_items`. */
  datatype ItemRow = ItemRow(invoiceId: int, description: string, quantity: real, unitPrice: real, vatRate: real, total: real)

  datatype Tables = Tables(invoices: seq<InvoiceRow>, items: seq<ItemRow>)

  /** The HTTP status and the `error` text of a failed request. */
  datatype ApiError = ApiError(status: int, message: string)

  datatype Created = Created(tables: Tables, id: int, number: string)

  /** The `CHECK` lists of `src/config/database.ts`. */
  const InvoiceTypes: set<string> := {"invoice", "received", "proforma", "quote", "advance"}
  const InvoiceStatuses: set<string> := {"unpaid", "paid", "cancelled", "overdue", "draft", "sent"}

  /** The column defaults the insert relies on. */
  const DefaultStatus: string := "unpaid"
  const DefaultCurrency: string := "CZK"

  // ------------------------------------------------------------ createInvoice

  /** `!client_id || !type || !issue_date || !due_date || !items || items.length === 0`. */
  predicate MissingRequired(body: CreateBody) {
    || body.clientId.None? || body.clientId.value == 0
    || body.kind.None? || body.kind.value == ""
    || body.issueDate.None?
    || body.dueDate.None?
    || body.items.None? || |body.items.value| == 0
  }

  /** `item.vat_rate || 21`: an absent rate and a rate of 0 both become 21. */
  function ItemRate(item: ItemInput): (rate: real)
    ensures rate == 21.0 <==> item.vatRate.None? || item.vatRate.value == 0.0 || item.vatRate.value == 21.0
    ensures rate != 0.0
  {
    if item.vatRate.Some? && item.vatRate.value != 0.0 then item.vatRate.value else 21.0
  }

  function ItemSubtotal(): ItemInput -> real {
    (item: ItemInput) => item.quantity * item.unitPrice
  }

  function ItemVat(): ItemInput -> real {
    (item: ItemInput) => item.quantity * item.unitPrice * ItemRate(item) / 100.0
  }

  /** The stored item total, `quantity * unit_price * (1 + rate / 100)`. */
  function ItemGross(): ItemInput -> real {
    (item: ItemInput) => item.quantity * item.unitPrice * (1.0 + ItemRate(item) / 100.0)
  }

  /** The item rows inserted for invoice `id`. An item without a description
      violates `NOT NULL`; its insert fails, is only logged, and the invoice
      stands without it. */
  function StoredItems(id: int, items: seq<ItemInput>): (rows: seq<ItemRow>)
    ensures |rows| <= |items|
    ensures forall k :: 0 <= k < |rows| ==> rows[k].invoiceId == id
  {
    if |items| == 0 then []
    else
      var item := items[|items| - 1];
      StoredItems(id, items[..|items| - 1])
      + (if item.description.Some?
         then [ItemRow(id, item.description.value, item.quantity, item.unitPrice, ItemRate(item), ItemGross()(item))]
         else [])
  }

  /** The invoices counted by the numbering query: same user, same type, same
      issue year. Soft-deleted rows are counted too. */
  function SameSeries(userId: int, kind: string, year: int): InvoiceRow -> bool {
    (row: InvoiceRow) => row.userId == userId && row.kind == kind && row.issueDate.year == year
  }

  function SeriesCount(invoices: seq<InvoiceRow>, userId: int, kind: string, year: int): nat {
    |Filter(invoices, SameSeries(userId, kind, year))|
  }

  /** The number a new invoice of this series receives. */
  function NextNumber(invoices: seq<InvoiceRow>, userId: int, kind: string, year: int): string {
    GenerateInvoiceNumber(kind, year, SeriesCount(invoices, userId, kind, year) + 1)
  }

  /** `createInvoice`: validation, totals, the count-based number, then the
      invoice row (id `newId`, the autoincrement value) and its item rows. A
      type outside the `CHECK` list makes the insert fail with a 500. */
  function Create(t: Tables, userId: int, body: CreateBody, newId: int): (r: Result<Created, ApiError>)
    ensures r.Err? <==> MissingRequired(body) || body.kind.value !in InvoiceTypes
    ensures r.Err? && MissingRequired(body) ==> r.error == ApiError(400, "Missing required fields")
    ensures r.Err? && !MissingRequired(body) ==> r.error == ApiError(500, "Failed to create invoice")
    ensures r.Ok? ==> && |r.value.tables.invoices| == |t.invoices| + 1
                      && r.value.tables.invoices[..|t.invoices|] == t.invoices
                      && r.value.tables.items == t.items + StoredItems(newId, body.items.value)
    ensures r.Ok? ==> var row := r.value.tables.invoices[|t.invoices|];
                      && row.id == newId == r.value.id && row.userId == userId
                      && row.clientId == body.clientId.value && row.kind == body.kind.value
                      && row.issueDate == body.issueDate.value && row.dueDate == body.dueDate.value
                      && row.taxDate == body.taxDate && row.notes == body.notes
                      && row.number == r.value.number
                      && row.number == NextNumber(t.invoices, userId, row.kind, row.issueDate.year)
                      && row.subtotal == Sum(body.items.value, ItemSubtotal())
                      && row.vatAmount == Sum(body.items.value, ItemVat())
                      && row.total == row.subtotal + row.vatAmount
                      && row.vatRate == 21.0
                      && row.currency == body.currency.GetOr(DefaultCurrency)
                      && row.status == Some(DefaultStatus)
                      && !row.deleted
  {
    if MissingRequired(body) then Err(ApiError(400, "Missing required fields"))
    else
      var items := body.items.value;
      var subtotal := Sum(items, ItemSubtotal());
      var totalVat := Sum(items, ItemVat());
      var kind := body.kind.value;
      var issueDate := body.issueDate.value;
      var number := NextNumber(t.invoices, userId, kind, issueDate.year);
      if kind !in InvoiceTypes then Err(ApiError(500, "Failed to create invoice"))
      else
        var row := InvoiceRow(newId, userId, body.clientId.value, kind, number, issueDate, body.dueDate.value,
                              body.taxDate, subtotal, 21.0, totalVat, subtotal + totalVat,
                              body.currency.GetOr(DefaultCurrency), Some(DefaultStatus), body.notes, false);
        Ok(Created(Tables(t.invoices + [row], t.items + StoredItems(newId, items)), newId, number))
  }

  /** A rate of 0 is charged as 21%, and stored as 21. */
  lemma ZeroRateChargedAs21(item: ItemInput, id: int)
    requires item.vatRate == Some(0.0)
    ensures ItemVat()(item) == item.quantity * item.unitPrice * 21.0 / 100.0
    ensures item.description.Some? ==> StoredItems(id, [item])[0].vatRate == 21.0
  {
    assert [item][..0] == [];
  }

  lemma GrossIsNetPlusVat(item: ItemInput)
    ensures ItemGross()(item) == ItemSubtotal()(item) + ItemVat()(item)
  {
    var q := item.quantity * item.unitPrice;
    assert q * (1.0 + ItemRate(item) / 100.0) == q + q * ItemRate(item) / 100.0;
  }

  function RowTotal(): ItemRow -> real {
    (row: ItemRow) => row.total
  }

  /** When every item has a description, the stored item totals sum to the
      items' gross amounts. */
  lemma {:induction false} StoredTotalsAreGross(id: int, items: seq<ItemInput>)
    requires forall k :: 0 <= k < |items| ==> items[k].description.Some?
    ensures Sum(StoredItems(id, items), RowTotal()) == Sum(items, ItemGross())
    decreases |items|
  {
    if |items| > 0 {
      var init := items[..|items| - 1];
      StoredTotalsAreGross(id, init);
      var rows := StoredItems(id, items);
      assert rows[..|rows| - 1] == StoredItems(id, init);
    }
  }

  /** When every item has a description, the stored item totals add up to the
      invoice total. */
  lemma StoredItemsAddUp(t: Tables, userId: int, body: CreateBody, newId: int)
    requires Create(t, userId, body, newId).Ok?
    requires forall k :: 0 <= k < |body.items.value| ==> body.items.value[k].description.Some?
    ensures var c := Create(t, userId, body, newId).value;
            Sum(StoredItems(newId, body.items.value), RowTotal()) == c.tables.invoices[|t.invoices|].total
  {
    var items := body.items.value;
    StoredTotalsAreGross(newId, items);
    forall k | 0 <= k < |items|
      ensures ItemGross()(items[k]) == ItemSubtotal()(items[k]) + ItemVat()(items[k])
    {
      GrossIsNetPlusVat(items[k]);
    }
    SumPointwise(items, ItemSubtotal(), ItemVat(), ItemGross());
  }

  // ------------------------------------------------------------ updateInvoice / deleteInvoice

  function Matches(id: int, userId: int): InvoiceRow -> bool {
    (row: InvoiceRow) => row.id == id && row.userId == userId
  }

  predicate AnyMatch(invoices: seq<InvoiceRow>, id: int, userId: int) {
    exists k :: 0 <= k < |invoices| && Matches(id, userId)(invoices[k])
  }

  /** The status and notes of matching rows set from the body; `None` writes NULL. */
  function SetStatusAndNotes(invoices: seq<InvoiceRow>, id: int, userId: int,
                             status: Option<string>, notes: Option<string>): (r: seq<InvoiceRow>)
    ensures |r| == |invoices|
    ensures forall k :: 0 <= k < |r| ==>
              r[k] == if Matches(id, userId)(invoices[k]) then invoices[k].(status := status, notes := notes)
                      else invoices[k]
  {
    seq(|invoices|, k requires 0 <= k < |invoices| =>
      if Matches(id, userId)(invoices[k]) then invoices[k].(status := status, notes := notes) else invoices[k])
  }

  /** `updateInvoice`: a 404 when no row has both the id and the user; a
      status outside the `CHECK` list fails with a 500. Soft deletion is not
      consulted. */
  function Update(t: Tables, userId: int, id: int, status: Option<string>, notes: Option<string>): (r: Result<Tables, ApiError>)
    ensures r.Err? <==> !AnyMatch(t.invoices, id, userId) || (status.Some? && status.value !in InvoiceStatuses)
    ensures !AnyMatch(t.invoices, id, userId) ==> r == Err(ApiError(404, "Invoice not found"))
    ensures r.Ok? ==> r.value.items == t.items && |r.value.invoices| == |t.invoices|
    ensures r.Ok? ==> forall k :: 0 <= k < |t.invoices| && !Matches(id, userId)(t.invoices[k]) ==>
                        r.value.invoices[k] == t.invoices[k]
    ensures r.Ok? ==> forall k :: 0 <= k < |t.invoices| && Matches(id, userId)(t.invoices[k]) ==>
                        r.value.invoices[k].status == status && r.value.invoices[k].notes == notes
                        && r.value.invoices[k].(status := t.invoices[k].status, notes := t.invoices[k].notes) == t.invoices[k]
  {
    if !AnyMatch(t.invoices, id, userId) then Err(ApiError(404, "Invoice not found"))
    else if status.Some? && status.value !in InvoiceStatuses then Err(ApiError(500, "Failed to update invoice"))
    else Ok(t.(invoices := SetStatusAndNotes(t.invoices, id, userId, status, notes)))
  }

  function NotMatching(id: int, userId: int): InvoiceRow -> bool {
    (row: InvoiceRow) => !Matches(id, userId)(row)
  }

  /** `deleteInvoice`: removes the matching rows outright (no soft deletion),
      or answers 404 when there is none. */
  function Delete(t: Tables, userId: int, id: int): (r: Result<Tables, ApiError>)
    ensures r.Err? <==> !AnyMatch(t.invoices, id, userId)
    ensures r.Err? ==> r.error == ApiError(404, "Invoice not found")
    ensures r.Ok? ==> r.value.items == t.items && |r.value.invoices| <= |t.invoices|
    ensures r.Ok? ==> forall x :: multiset(r.value.invoices)[x]
                                 == if Matches(id, userId)(x) then 0 else multiset(t.invoices)[x]
  {
    if !AnyMatch(t.invoices, id, userId) then Err(ApiError(404, "Invoice not found"))
    else
      var kept := Filter(t.invoices, NotMatching(id, userId));
      forall x ensures multiset(kept)[x] == if Matches(id, userId)(x) then 0 else multiset(t.invoices)[x] {
        FilterCount(t.invoices, NotMatching(id, userId), x);
      }
      Ok(t.(invoices := kept))
  }

  /** The surviving rows keep their order: a row added after the others is
      kept at the end exactly when it does not match. */
  lemma DeleteKeepsOrder(t: Tables, userId: int, id: int, x: InvoiceRow)
    requires AnyMatch(t.invoices, id, userId)
    ensures Delete(t.(invoices := t.invoices + [x]), userId, id).Ok?
    ensures Delete(t.(invoices := t.invoices + [x]), userId, id).value.invoices
            == Delete(t, userId, id).value.invoices + (if Matches(id, userId)(x) then [] else [x])
  {
    var s := t.invoices;
    var k :| 0 <= k < |s| && Matches(id, userId)(s[k]);
    assert (s + [x])[k] == s[k];
    assert AnyMatch(s + [x], id, userId);
    FilterSnoc(s, x, NotMatching(id, userId));
    assert Keep(x, NotMatching(id, userId)) == if Matches(id, userId)(x) then [] else [x];
  }

  /** A successful delete removes at least one row. */
  lemma DeleteRemovesRow(t: Tables, userId: int, id: int)
    requires Delete(t, userId, id).Ok?
    ensures |Delete(t, userId, id).value.invoices| < |t.invoices|
  {
    var k :| 0 <= k < |t.invoices| && Matches(id, userId)(t.invoices[k]);
    FilterDropsOne(t.invoices, NotMatching(id, userId), k);
  }

  /** After a delete nothing matches any more: a second delete, or an update,
      of the same id answers 404. */
  lemma DeleteThenNotFound(t: Tables, userId: int, id: int, status: Option<string>, notes: Option<string>)
    requires Delete(t, userId, id).Ok?
    ensures Delete(Delete(t, userId, id).value, userId, id) == Err(ApiError(404, "Invoice not found"))
    ensures Update(Delete(t, userId, id).value, userId, id, status, notes) == Err(ApiError(404, "Invoice not found"))
  {
    FilterKeepsOnly(t.invoices, NotMatching(id, userId));
  }

  /** Deleting the one row of `id` from `s + [a, b]` leaves `s + [b]`. */
  lemma DeleteMiddleRow(s: seq<InvoiceRow>, a: InvoiceRow, b: InvoiceRow, id: int, userId: int)
    requires forall k :: 0 <= k < |s| ==> !Matches(id, userId)(s[k])
    requires Matches(id, userId)(a) && !Matches(id, userId)(b)
    ensures Filter(s + [a] + [b], NotMatching(id, userId)) == s + [b]
  {
    FilterDropsMiddle(s, a, b, NotMatching(id, userId));
  }

  /** Swapping one row of a series for another leaves the series count alone. */
  lemma SwapKeepsCount(s: seq<InvoiceRow>, a: InvoiceRow, b: InvoiceRow, series: InvoiceRow -> bool)
    requires series(a) && series(b)
    ensures |Filter(s + [a], series)| == |Filter(s + [b], series)|
  {
    FilterAppend(s, [a], series);
    FilterAppend(s, [b], series);
    FilterCons(a, [], series);
    FilterCons(b, [], series);
  }

  /** Two creates from the same body append two rows of one series; only the
      first carries `id1`. */
  lemma CreateTwice(t: Tables, userId: int, body: CreateBody, id1: int, id2: int)
      returns (rowA: InvoiceRow, rowB: InvoiceRow)
    requires Create(t, userId, body, id1).Ok?
    requires id1 != id2
    ensures var a := Create(t, userId, body, id1).value;
            Create(a.tables, userId, body, id2).value.tables.invoices == t.invoices + [rowA] + [rowB]
    ensures Matches(id1, userId)(rowA) && !Matches(id1, userId)(rowB)
    ensures rowA.kind == rowB.kind == body.kind.value && rowA.userId == rowB.userId == userId
    ensures rowA.issueDate == rowB.issueDate == body.issueDate.value
  {
    var a := Create(t, userId, body, id1).value;
    var b := Create(a.tables, userId, body, id2).value;
    rowA := a.tables.invoices[|t.invoices|];
    rowB := b.tables.invoices[|t.invoices| + 1];
    assert a.tables.invoices == t.invoices + [rowA];
    assert b.tables.invoices == a.tables.invoices + [rowB];
  }

  /** The number a create assigns depends on the table only through the
      series count. */
  lemma NumberFollowsCount(t: Tables, u: Tables, userId: int, body: CreateBody, id: int, id': int)
    requires Create(t, userId, body, id).Ok?
    requires SeriesCount(t.invoices, userId, body.kind.value, body.issueDate.value.year)
          == SeriesCount(u.invoices, userId, body.kind.value, body.issueDate.value.year)
    ensures Create(u, userId, body, id').value.number == Create(t, userId, body, id).value.number
  {
  }

  /** Numbers are count-based: create two invoices of one series, delete the
      first, and the next invoice of the series repeats the second's number. */
  lemma DeleteThenCreateRepeatsNumber(t: Tables, userId: int, body: CreateBody, id1: int, id2: int, id3: int)
    requires Create(t, userId, body, id1).Ok?
    requires id1 != id2
    requires forall k :: 0 <= k < |t.invoices| ==> !Matches(id1, userId)(t.invoices[k])
    ensures var a := Create(t, userId, body, id1).value;
            var b := Create(a.tables, userId, body, id2).value;
            var c := Delete(b.tables, userId, id1);
            c.Ok? && Create(c.value, userId, body, id3).value.number == b.number
  {
    var a := Create(t, userId, body, id1).value;
    var b := Create(a.tables, userId, body, id2).value;
    var rowA, rowB := CreateTwice(t, userId, body, id1, id2);
    assert AnyMatch(b.tables.invoices, id1, userId) by {
      assert b.tables.invoices[|t.invoices|] == rowA;
    }
    DeleteMiddleRow(t.invoices, rowA, rowB, id1, userId);
    var c := Delete(b.tables, userId, id1).value;
    assert a.tables.invoices == t.invoices + [rowA];
    SwapKeepsCount(t.invoices, rowA, rowB, SameSeries(userId, rowA.kind, rowA.issueDate.year));
    NumberFollowsCount(a.tables, c, userId, body, id2, id3);
  }
}

=== FILE: express_stats.dfy ===
/** The bucketing logic of the Express `statsController`: the income and
    expense chart of `getStatistics` by month, quarter or year, and the
    twelve-month chart of `getDashboard`. The SQL queries are the inputs: the
    rows of one user, with their soft-deletion flag. */
module ExpressStats {
  import opened Wrappers
  import opened Sums
  import opened Text
  import opened Calendar
  import opened Sorting

  /** The invoice columns the statistics queries read. */
  datatype StatRow = StatRow(kind: string, issueDate: Date, total: real, vatAmount: Option<real>, deleted: bool)

  datatype ChartRow = ChartRow(period: string, income: real, expenses: real, difference: real)

  datatype Period = Month | Quarter | Year

  /** The `period` query parameter; any other value yields an empty chart. */
  function PeriodOf(period: string): (r: Option<Period>)
    ensures r == Some(Month) <==> period == "month"
    ensures r == Some(Quarter) <==> period == "quarter"
    ensures r == Some(Year) <==> period == "year"
  {
    if period == "month" then Some(Month)
    else if period == "quarter" then Some(Quarter)
    else if period == "year" then Some(Year)
    else None
  }

  const CzechMonths: seq<string> := [
    "Leden", "Únor", "Březen", "Duben", "Květen", "Červen",
    "Červenec", "Srpen", "Září", "Říjen", "Listopad", "Prosinec"]

  /** Only the exact text `'true'` turns VAT on. */
  predicate IncludeVat(includeVat: Option<string>) {
    includeVat == Some("true")
  }

  /** The amount an invoice contributes: its total, or its total less its VAT
      (a missing VAT counting as 0). */
  function Amount(row: StatRow, includeVat: bool): (a: real)
    ensures includeVat ==> a == row.total
    ensures !includeVat ==> a + row.vatAmount.GetOr(0.0) == row.total
  {
    if includeVat then row.total else row.total - row.vatAmount.GetOr(0.0)
  }

  /** `Math.ceil(month / 3)`. */
  function QuarterOf(month: int): (q: int)
    ensures 3 * (q - 1) < month <= 3 * q
  {
    if month % 3 == 0 then month / 3 else month / 3 + 1
  }

  /** The key an invoice is bucketed under. */
  function BucketOf(p: Period, row: StatRow): int {
    match p
    case Month => row.issueDate.month
    case Quarter => QuarterOf(row.issueDate.month)
    case Year => row.issueDate.year
  }

  /** The chart's keys, in order: months 1 to 12, quarters 1 to 4, or the five
      years ending at `year`. */
  function Keys(p: Period, year: int): (keys: seq<int>)
    ensures p == Month ==> |keys| == 12 && forall i :: 0 <= i < 12 ==> keys[i] == i + 1
    ensures p == Quarter ==> |keys| == 4 && forall i :: 0 <= i < 4 ==> keys[i] == i + 1
    ensures p == Year ==> |keys| == 5 && forall i :: 0 <= i < 5 ==> keys[i] == year - 4 + i
  {
    match p
    case Month => seq(12, i => i + 1)
    case Quarter => seq(4, i => i + 1)
    case Year => seq(5, i => year - 4 + i)
  }

  function Label(p: Period, key: int): string {
    match p
    case Month => if 1 <= key <= 12 then CzechMonths[key - 1] else ""
    case Quarter => "Q" + IntToString(key)
    case Year => IntToString(key)
  }

  /** The rows the period's query selects: not soft-deleted, and issued in
      `year`, or for the year period in the five years ending at `year`. */
  function Window(p: Period, year: int): StatRow -> bool {
    if p == Year then (row: StatRow) => !row.deleted && year - 4 <= row.issueDate.year <= year
    else (row: StatRow) => !row.deleted && row.issueDate.year == year
  }

  function Selected(p: Period, rows: seq<StatRow>, year: int): seq<StatRow> {
    Filter(rows, Window(p, year))
  }

  /** What an invoice adds to the income of bucket `key`: issued invoices only. */
  function Income(p: Period, key: int, includeVat: bool): StatRow -> real {
    (row: StatRow) => if row.kind == "invoice" && BucketOf(p, row) == key then Amount(row, includeVat) else 0.0
  }

  /** What an invoice adds to the expenses of bucket `key`: received invoices only. */
  function Expense(p: Period, key: int, includeVat: bool): StatRow -> real {
    (row: StatRow) => if row.kind == "received" && BucketOf(p, row) == key then Amount(row, includeVat) else 0.0
  }

  function RowFor(p: Period, selected: seq<StatRow>, key: int, includeVat: bool): ChartRow {
    var income := Sum(selected, Income(p, key, includeVat));
    var expenses := Sum(selected, Expense(p, key, includeVat));
    ChartRow(Label(p, key), income, expenses, income - expenses)
  }

  /** The chart of one period: a row per key, every key present even when no
      invoice falls in it. */
  function Chart(p: Period, rows: seq<StatRow>, year: int, includeVat: bool): (r: seq<ChartRow>)
    ensures |r| == |Keys(p, year)|
    ensures forall i :: 0 <= i < |r| ==> r[i].difference == r[i].income - r[i].expenses
  {
    var keys := Keys(p, year);
    var selected := Selected(p, rows, year);
    seq(|keys|, i requires 0 <= i < |keys| => RowFor(p, selected, keys[i], includeVat))
  }

  /** Twelve rows named by the Czech month names, four named `Q1` to `Q4`, or
      five named by the years, oldest first. */
  lemma ChartPeriods(p: Period, rows: seq<StatRow>, year: int, includeVat: bool)
    ensures var r := Chart(p, rows, year, includeVat);
            && (p == Month ==> |r| == 12 && forall i :: 0 <= i < 12 ==> r[i].period == CzechMonths[i])
            && (p == Quarter ==> |r| == 4 && forall i :: 0 <= i < 4 ==> r[i].period == "Q" + [DigitChar(i + 1)])
            && (p == Year ==> |r| == 5 && forall i :: 0 <= i < 5 ==> r[i].period == IntToString(year - 4 + i))
  {
  }

  /** `getStatistics`' `chartData`. */
  function Statistics(period: string, rows: seq<StatRow>, year: int, includeVat: Option<string>): seq<ChartRow> {
    match PeriodOf(period)
    case None => []
    case Some(p) => Chart(p, rows, year, IncludeVat(includeVat))
  }

  // ------------------------------------------------------------ the accumulation loop

  /** `(totals[key] || 0)`: a key never written reads as 0. */
  function Lookup(totals: map<int, real>, key: int): real {
    if key in totals then totals[key] else 0.0
  }

  /** `totals` holds, per key, the sum of `measure(key)` over `rows`. */
  ghost predicate Holds<T>(totals: map<int, real>, rows: seq<T>, measure: int -> T -> real) {
    forall key :: Lookup(totals, key) == Sum(rows, measure(key))
  }

  function IncomeBy(p: Period, includeVat: bool): int -> StatRow -> real {
    (key: int) => Income(p, key, includeVat)
  }

  function ExpenseBy(p: Period, includeVat: bool): int -> StatRow -> real {
    (key: int) => Expense(p, key, includeVat)
  }

  /** One more row added to the bucket `key` it contributes to. */
  lemma AccumulateStep<T>(totals: map<int, real>, rows: seq<T>, row: T, measure: int -> T -> real, key: int)
    requires Holds(totals, rows, measure)
    requires forall other :: other != key ==> measure(other)(row) == 0.0
    ensures Holds(totals[key := Lookup(totals, key) + measure(key)(row)], rows + [row], measure)
  {
    var more := rows + [row];
    assert more[..|more| - 1] == rows;
  }

  /** One more row that contributes to no bucket. */
  lemma AccumulateSkip<T>(totals: map<int, real>, rows: seq<T>, row: T, measure: int -> T -> real)
    requires Holds(totals, rows, measure)
    requires forall key :: measure(key)(row) == 0.0
    ensures Holds(totals, rows + [row], measure)
  {
    var more := rows + [row];
    assert more[..|more| - 1] == rows;
  }

  /** A row adds to the income of its own bucket only, and to no income at
      all unless it is an issued invoice; likewise for expenses. */
  lemma ContributesToOwnBucket(p: Period, includeVat: bool, row: StatRow)
    ensures forall key :: key != BucketOf(p, row) ==> IncomeBy(p, includeVat)(key)(row) == 0.0
    ensures forall key :: key != BucketOf(p, row) ==> ExpenseBy(p, includeVat)(key)(row) == 0.0
    ensures row.kind != "invoice" ==> forall key :: IncomeBy(p, includeVat)(key)(row) == 0.0
    ensures row.kind != "received" ==> forall key :: ExpenseBy(p, includeVat)(key)(row) == 0.0
    ensures row.kind == "invoice" ==> IncomeBy(p, includeVat)(BucketOf(p, row))(row) == Amount(row, includeVat)
    ensures row.kind == "received" ==> ExpenseBy(p, includeVat)(BucketOf(p, row))(row) == Amount(row, includeVat)
  {
  }

  /** The `forEach` of `getStatistics`: each selected invoice's amount added
      to the income or the expense bucket of its key. */
  method Accumulate(selected: seq<StatRow>, p: Period, includeVat: bool)
      returns (income: map<int, real>, expenses: map<int, real>)
    ensures Holds(income, selected, IncomeBy(p, includeVat))
    ensures Holds(expenses, selected, ExpenseBy(p, includeVat))
  {
    income, expenses := map[], map[];
    var k := 0;
    while k < |selected|
      invariant 0 <= k <= |selected|
      invariant Holds(income, selected[..k], IncomeBy(p, includeVat))
      invariant Holds(expenses, selected[..k], ExpenseBy(p, includeVat))
    {
      var row := selected[k];
      var key := BucketOf(p, row);
      var amount := Amount(row, includeVat);
      ContributesToOwnBucket(p, includeVat, row);
      if row.kind == "invoice" {
        AccumulateStep(income, selected[..k], row, IncomeBy(p, includeVat), key);
        AccumulateSkip(expenses, selected[..k], row, ExpenseBy(p, includeVat));
        income := income[key := Lookup(income, key) + amount];
      } else if row.kind == "received" {
        AccumulateSkip(income, selected[..k], row, IncomeBy(p, includeVat));
        AccumulateStep(expenses, selected[..k], row, ExpenseBy(p, includeVat), key);
        expenses := expenses[key := Lookup(expenses, key) + amount];
      } else {
        AccumulateSkip(income, selected[..k], row, IncomeBy(p, includeVat));
        AccumulateSkip(expenses, selected[..k], row, ExpenseBy(p, includeVat));
      }
      assert selected[..k] + [row] == selected[..k + 1];
      k := k + 1;
    }
    assert selected[..k] == selected;
  }

  lemma ChartAt(p: Period, rows: seq<StatRow>, year: int, includeVat: bool, i: int)
    requires 0 <= i < |Keys(p, year)|
    ensures Chart(p, rows, year, includeVat)[i] == RowFor(p, Selected(p, rows, year), Keys(p, year)[i], includeVat)
  {
  }

  /** `getStatistics` as the controller runs it: select, accumulate into
      objects keyed by bucket, then read every key of the period in order. */
  method GetStatistics(period: string, rows: seq<StatRow>, year: int, includeVat: Option<string>)
      returns (chart: seq<ChartRow>)
    ensures chart == Statistics(period, rows, year, includeVat)
  {
    var p := PeriodOf(period);
    if p.None? {
      return [];
    }
    var incl := IncludeVat(includeVat);
    var selected := Selected(p.value, rows, year);
    var income, expenses := Accumulate(selected, p.value, incl);
    var keys := Keys(p.value, year);
    chart := [];
    var i := 0;
    while i < |keys|
      invariant 0 <= i <= |keys|
      invariant |chart| == i
      invariant forall j :: 0 <= j < i ==> chart[j] == RowFor(p.value, selected, keys[j], incl)
    {
      var inc := Lookup(income, keys[i]);
      var exp := Lookup(expenses, keys[i]);
      assert inc == Sum(selected, IncomeBy(p.value, incl)(keys[i]));
      assert exp == Sum(selected, ExpenseBy(p.value, incl)(keys[i]));
      chart := chart + [ChartRow(Label(p.value, keys[i]), inc, exp, inc - exp)];
      i := i + 1;
    }
    ChartFromRows(p.value, rows, year, incl, chart);
  }

  /** A sequence holding the right row for every key is the chart. */
  lemma ChartFromRows(p: Period, rows: seq<StatRow>, year: int, includeVat: bool, chart: seq<ChartRow>)
    requires |chart| == |Keys(p, year)|
    requires forall j :: 0 <= j < |chart| ==> chart[j] == RowFor(p, Selected(p, rows, year), Keys(p, year)[j], includeVat)
    ensures chart == Chart(p, rows, year, includeVat)
  {
  }

  // ------------------------------------------------------------ properties

  /** The income of one month, defined straight from the rows: issued,
      not deleted, in that year and month. */
  function MonthIncome(year: int, month: int, includeVat: bool): StatRow -> real {
    (row: StatRow) =>
      if !row.deleted && row.kind == "invoice" && row.issueDate.year == year && row.issueDate.month == month
      then Amount(row, includeVat) else 0.0
  }

  /** The month chart's income agrees with the direct definition. */
  lemma MonthChartIsMonthIncome(rows: seq<StatRow>, year: int, includeVat: bool, m: int)
    requires 0 <= m < 12
    ensures Chart(Month, rows, year, includeVat)[m].income == Sum(rows, MonthIncome(year, m + 1, includeVat))
  {
    SumFilter(rows, Window(Month, year), Income(Month, m + 1, includeVat), MonthIncome(year, m + 1, includeVat));
  }

  function TwoMonths(a: int, b: int, includeVat: bool): StatRow -> real {
    (row: StatRow) => Income(Month, a, includeVat)(row) + Income(Month, b, includeVat)(row)
  }

  /** An invoice counts in quarter `q + 1` exactly when it counts in one of
      its three months. */
  lemma QuarterSplits(row: StatRow, includeVat: bool, q: int)
    ensures Income(Quarter, q + 1, includeVat)(row)
         == TwoMonths(3 * q + 1, 3 * q + 2, includeVat)(row) + Income(Month, 3 * q + 3, includeVat)(row)
  {
    var m := row.issueDate.month;
    var a := Amount(row, includeVat);
    var inRange := 3 * q + 1 <= m <= 3 * q + 3;
    assert QuarterOf(m) == q + 1 <==> inRange;
    var isInvoice := row.kind == "invoice";
    assert Income(Quarter, q + 1, includeVat)(row) == if isInvoice && inRange then a else 0.0;
    assert Income(Month, 3 * q + 1, includeVat)(row) == if isInvoice && m == 3 * q + 1 then a else 0.0;
    assert Income(Month, 3 * q + 2, includeVat)(row) == if isInvoice && m == 3 * q + 2 then a else 0.0;
    assert Income(Month, 3 * q + 3, includeVat)(row) == if isInvoice && m == 3 * q + 3 then a else 0.0;
  }

  lemma QuarterSum(selected: seq<StatRow>, includeVat: bool, q: int)
    ensures Sum(selected, Income(Quarter, q + 1, includeVat))
         == Sum(selected, Income(Month, 3 * q + 1, includeVat)) + Sum(selected, Income(Month, 3 * q + 2, includeVat))
            + Sum(selected, Income(Month, 3 * q + 3, includeVat))
  {
    var a, b, c := 3 * q + 1, 3 * q + 2, 3 * q + 3;
    forall i | 0 <= i < |selected|
      ensures Income(Quarter, q + 1, includeVat)(selected[i])
           == TwoMonths(a, b, includeVat)(selected[i]) + Income(Month, c, includeVat)(selected[i])
    {
      QuarterSplits(selected[i], includeVat, q);
    }
    SumPointwise(selected, Income(Month, a, includeVat), Income(Month, b, includeVat), TwoMonths(a, b, includeVat));
    SumPointwise(selected, TwoMonths(a, b, includeVat), Income(Month, c, includeVat), Income(Quarter, q + 1, includeVat));
  }

  /** A quarter's income is the income of its three months. */
  lemma QuarterIsThreeMonths(rows: seq<StatRow>, year: int, includeVat: bool, q: int)
    requires 0 <= q < 4
    ensures var months := Chart(Month, rows, year, includeVat);
            Chart(Quarter, rows, year, includeVat)[q].income
              == months[3 * q].income + months[3 * q + 1].income + months[3 * q + 2].income
  {
    var selected := Selected(Month, rows, year);
    assert Selected(Quarter, rows, year) == selected;
    QuarterSum(selected, includeVat, q);
    MonthlyIncomeAt(rows, year, includeVat, 3 * q);
    MonthlyIncomeAt(rows, year, includeVat, 3 * q + 1);
    MonthlyIncomeAt(rows, year, includeVat, 3 * q + 2);
    ChartAt(Quarter, rows, year, includeVat, q);
    assert Keys(Quarter, year)[q] == q + 1;
  }

  lemma MonthlyIncomeAt(rows: seq<StatRow>, year: int, includeVat: bool, m: int)
    requires 0 <= m < 12
    ensures Chart(Month, rows, year, includeVat)[m].income == Sum(Selected(Month, rows, year), Income(Month, m + 1, includeVat))
  {
    ChartAt(Month, rows, year, includeVat, m);
    assert Keys(Month, year)[m] == m + 1;
  }

  /** A row that is neither issued nor received adds nothing to any sum. */
  lemma OtherKindAddsNothing(p: Period, rows: seq<StatRow>, row: StatRow, year: int, includeVat: bool, key: int)
    requires row.kind != "invoice" && row.kind != "received"
    ensures RowFor(p, Selected(p, rows + [row], year), key, includeVat) == RowFor(p, Selected(p, rows, year), key, includeVat)
  {
    var w := Window(p, year);
    FilterAppend(rows, [row], w);
    FilterCons(row, [], w);
    var before := Selected(p, rows, year);
    var after := Selected(p, rows + [row], year);
    if w(row) {
      assert after == before + [row];
      assert after[..|after| - 1] == before;
    } else {
      assert after == before;
    }
  }

  /** Invoices that are neither issued nor received (proformas, advances,
      quotes) add to neither column. */
  lemma OtherKindsIgnored(p: Period, rows: seq<StatRow>, row: StatRow, year: int, includeVat: bool)
    requires row.kind != "invoice" && row.kind != "received"
    ensures Chart(p, rows + [row], year, includeVat) == Chart(p, rows, year, includeVat)
  {
    var keys := Keys(p, year);
    forall i | 0 <= i < |keys|
      ensures Chart(p, rows + [row], year, includeVat)[i] == Chart(p, rows, year, includeVat)[i]
    {
      ChartAt(p, rows + [row], year, includeVat, i);
      ChartAt(p, rows, year, includeVat, i);
      OtherKindAddsNothing(p, rows, row, year, includeVat, keys[i]);
    }
  }

  // ------------------------------------------------------------ getDashboard's monthlyChart

  /** A row of the monthly `transactions` aggregate: `strftime('%m')` month
      text, the transaction type, and the summed amount. */
  datatype MonthlyDatum = MonthlyDatum(month: string, kind: string, total: real)

  datatype ChartPoint = ChartPoint(month: int, income: real, expenses: real)

  /** `String(n).padStart(2, '0')`. */
  function TwoDigits(n: nat): string {
    PadStart(NatToString(n), 2, '0')
  }

  function IsEntry(month: string, kind: string): MonthlyDatum -> bool {
    (d: MonthlyDatum) => d.month == month && d.kind == kind
  }

  /** `monthlyData.find(...)?.total || 0`. */
  function Found(data: seq<MonthlyDatum>, month: string, kind: string): (total: real)
    ensures (forall k :: 0 <= k < |data| ==> !IsEntry(month, kind)(data[k])) ==> total == 0.0
    ensures forall k ::
              (0 <= k < |data| && IsEntry(month, kind)(data[k]) && forall j :: 0 <= j < k ==> !IsEntry(month, kind)(data[j]))
              ==> total == data[k].total
  {
    match FirstIndex(data, IsEntry(month, kind))
    case None => 0.0
    case Some(k) => data[k].total
  }

  /** The chart of the current year: for each month 1 to 12, the income and the
      expenses are the totals of the first aggregate row of that month and of
      type 'income' or 'expense' respectively, and 0 when there is none. */
  function MonthlyChart(data: seq<MonthlyDatum>): (r: seq<ChartPoint>)
    ensures |r| == 12
    ensures forall i :: 0 <= i < 12 ==> r[i].month == i + 1
    ensures forall i :: 0 <= i < 12 ==> r[i].income == Found(data, TwoDigits(i + 1), "income")
    ensures forall i :: 0 <= i < 12 ==> r[i].expenses == Found(data, TwoDigits(i + 1), "expense")
  {
    seq(12, i requires 0 <= i < 12 =>
      ChartPoint(i + 1, Found(data, TwoDigits(i + 1), "income"), Found(data, TwoDigits(i + 1), "expense")))
  }

  /** Distinct months have distinct two-digit keys, so an aggregate row lands
      in at most one month. */
  lemma TwoDigitsInjective(a: nat, b: nat)
    requires TwoDigits(a) == TwoDigits(b)
    ensures a == b
  {
    PaddedValue(a, 2);
    PaddedValue(b, 2);
  }

  /** With `GROUP BY month, type` there is one row per month and type; the
      chart takes that row's total, and 0 for a month with no row. */
  lemma GroupedIncomeFound(data: seq<MonthlyDatum>, i: int, k: int)
    requires 0 <= i < 12 && 0 <= k < |data|
    requires IsEntry(TwoDigits(i + 1), "income")(data[k])
    requires forall j :: 0 <= j < |data| && j != k ==> !IsEntry(TwoDigits(i + 1), "income")(data[j])
    ensures MonthlyChart(data)[i].income == data[k].total
  {
    assert FirstIndex(data, IsEntry(TwoDigits(i + 1), "income")) == Some(k);
  }

  /** The same for expenses: the chart takes the month's one 'expense' row. */
  lemma GroupedExpenseFound(data: seq<MonthlyDatum>, i: int, k: int)
    requires 0 <= i < 12 && 0 <= k < |data|
    requires IsEntry(TwoDigits(i + 1), "expense")(data[k])
    requires forall j :: 0 <= j < |data| && j != k ==> !IsEntry(TwoDigits(i + 1), "expense")(data[j])
    ensures MonthlyChart(data)[i].expenses == data[k].total
  {
    assert FirstIndex(data, IsEntry(TwoDigits(i + 1), "expense")) == Some(k);
  }

  lemma MonthNotCharted(data: seq<MonthlyDatum>, d: MonthlyDatum, i: int)
    requires 0 <= i < 12
    requires d.kind != "income" && d.kind != "expense"
    ensures MonthlyChart(data + [d])[i] == MonthlyChart(data)[i]
  {
    FirstIndexAppendMiss(data, d, IsEntry(TwoDigits(i + 1), "income"));
    FirstIndexAppendMiss(data, d, IsEntry(TwoDigits(i + 1), "expense"));
  }

  /** Transaction types other than `income` and `expense` never reach the chart. */
  lemma OtherTypesNotCharted(data: seq<MonthlyDatum>, d: MonthlyDatum)
    requires d.kind != "income" && d.kind != "expense"
    ensures MonthlyChart(data + [d]) == MonthlyChart(data)
  {
    forall i | 0 <= i < 12
      ensures MonthlyChart(data + [d])[i] == MonthlyChart(data)[i]
    {
      MonthNotCharted(data, d, i);
    }
  }

  lemma FirstIndexAppendMiss<T>(s: seq<T>, x: T, p: T -> bool)
    requires !p(x)
    ensures FirstIndex(s + [x], p) == FirstIndex(s, p)
  {
    var t := s + [x];
    assert forall k :: 0 <= k < |s| ==> t[k] == s[k];
  }
}

=== FILE: nest_dashboard.dfy ===
/** The post-query logic of the NestJS `DashboardService`: monthly revenue,
    top clients and recent activity. The rows the Prisma queries return are the
    inputs; the queries themselves (user scoping, the year window, `take`) are
    not part of this model. */
module NestDashboard {
  import opened Wrappers
  import opened Sums
  import opened Calendar
  import opened Sorting
  import opened NestDb

  /** Without an explicit limit, top clients and recent activity keep ten rows. */
  const DefaultLimit: int := 10

  function EffectiveLimit(limit: Option<int>): int {
    limit.GetOr(DefaultLimit)
  }

  // ------------------------------------------------------------ monthly revenue

  /** The invoice columns `getMonthlyRevenue` selects. */
  datatype RevenueRow = RevenueRow(issueDate: Date, total: real, status: string)

  datatype MonthRevenue = MonthRevenue(month: int, revenue: real, paid: real, unpaid: real)

  /** An invoice's contribution to the revenue of `month` (1 to 12). */
  function InMonth(month: int): RevenueRow -> real {
    (r: RevenueRow) => if r.issueDate.month == month then r.total else 0.0
  }

  function PaidInMonth(month: int): RevenueRow -> real {
    (r: RevenueRow) => if r.issueDate.month == month && r.status == "paid" then r.total else 0.0
  }

  function UnpaidInMonth(month: int): RevenueRow -> real {
    (r: RevenueRow) => if r.issueDate.month == month && r.status != "paid" then r.total else 0.0
  }

  /** `months` holds, for each month, the totals of `rows` issued in it. */
  predicate Tallied(months: seq<MonthRevenue>, rows: seq<RevenueRow>) {
    && |months| == 12
    && (forall m :: 0 <= m < 12 ==> months[m].month == m + 1)
    && (forall m :: 0 <= m < 12 ==> months[m].revenue == Sum(rows, InMonth(m + 1)))
    && (forall m :: 0 <= m < 12 ==> months[m].paid == Sum(rows, PaidInMonth(m + 1)))
    && (forall m :: 0 <= m < 12 ==> months[m].unpaid == Sum(rows, UnpaidInMonth(m + 1)))
  }

  /** One invoice added to its issue month's row. */
  function AddInvoice(months: seq<MonthRevenue>, invoice: RevenueRow): seq<MonthRevenue>
    requires |months| == 12
  {
    var index := invoice.issueDate.month - 1;
    var row := months[index];
    var updated := if invoice.status == "paid" then row.(revenue := row.revenue + invoice.total, paid := row.paid + invoice.total)
                   else row.(revenue := row.revenue + invoice.total, unpaid := row.unpaid + invoice.total);
    months[index := updated]
  }

  lemma TallyStep(months: seq<MonthRevenue>, rows: seq<RevenueRow>, invoice: RevenueRow)
    requires Tallied(months, rows)
    ensures Tallied(AddInvoice(months, invoice), rows + [invoice])
  {
    var more := rows + [invoice];
    assert more[..|more| - 1] == rows;
  }

  /** `getMonthlyRevenue`: twelve zeroed rows for months 1 to 12, then each
      invoice's total added to its issue month, and to the paid or the unpaid
      column by its status. */
  method MonthlyRevenue(invoices: seq<RevenueRow>) returns (months: seq<MonthRevenue>)
    ensures |months| == 12
    ensures forall m :: 0 <= m < 12 ==> months[m].month == m + 1
    ensures forall m :: 0 <= m < 12 ==> months[m].revenue == Sum(invoices, InMonth(m + 1))
    ensures forall m :: 0 <= m < 12 ==> months[m].paid == Sum(invoices, PaidInMonth(m + 1))
    ensures forall m :: 0 <= m < 12 ==> months[m].unpaid == Sum(invoices, UnpaidInMonth(m + 1))
  {
    months := seq(12, i => MonthRevenue(i + 1, 0.0, 0.0, 0.0));
    var k := 0;
    while k < |invoices|
      invariant 0 <= k <= |invoices|
      invariant Tallied(months, invoices[..k])
    {
      TallyStep(months, invoices[..k], invoices[k]);
      assert invoices[..k] + [invoices[k]] == invoices[..k + 1];
      months := AddInvoice(months, invoices[k]);
      k := k + 1;
    }
    assert invoices[..k] == invoices;
  }

  /** Every month's revenue splits into its paid and unpaid parts. */
  lemma {:induction false} MonthSplits(invoices: seq<RevenueRow>, month: int)
    ensures Sum(invoices, InMonth(month)) == Sum(invoices, PaidInMonth(month)) + Sum(invoices, UnpaidInMonth(month))
  {
    SumPointwise(invoices, PaidInMonth(month), UnpaidInMonth(month), InMonth(month));
  }

  function Total(): RevenueRow -> real {
    (r: RevenueRow) => r.total
  }

  /** The months 1 to 12, in calendar order. */
  const Months: seq<int> := seq(12, i => i + 1)

  function RevenueOf(invoices: seq<RevenueRow>): int -> real {
    (m: int) => Sum(invoices, InMonth(m))
  }

  function LandsIn(invoice: RevenueRow): int -> real {
    (m: int) => InMonth(m)(invoice)
  }

  /** An invoice lands in exactly one month. */
  lemma LandsOnce(invoice: RevenueRow)
    ensures Sum(Months, LandsIn(invoice)) == invoice.total
  {
    var j := invoice.issueDate.month - 1;
    assert |Months| == 12;
    assert forall i :: 0 <= i < 12 ==> Months[i] == i + 1;
    assert forall i :: 0 <= i < |Months| && i != j ==> InMonth(Months[i])(invoice) == 0.0;
    assert forall i :: 0 <= i < |Months| && i != j ==> LandsIn(invoice)(Months[i]) == 0.0;
    assert Months[j] == invoice.issueDate.month;
    assert InMonth(invoice.issueDate.month)(invoice) == invoice.total;
    assert LandsIn(invoice)(Months[j]) == invoice.total;
    SumSingle(Months, LandsIn(invoice), j);
  }

  /** No revenue is lost or counted twice: the twelve months add up to the total
      of all invoices. */
  lemma {:induction false} MonthsAddUpToTotal(invoices: seq<RevenueRow>)
    ensures Sum(Months, RevenueOf(invoices)) == Sum(invoices, Total())
    decreases |invoices|
  {
    if |invoices| == 0 {
      SumZero(Months, RevenueOf(invoices));
    } else {
      var init := invoices[..|invoices| - 1];
      var last := invoices[|invoices| - 1];
      MonthsAddUpToTotal(init);
      LandsOnce(last);
      assert forall i :: 0 <= i < 12 ==>
        RevenueOf(invoices)(Months[i]) == RevenueOf(init)(Months[i]) + LandsIn(last)(Months[i]);
      SumPointwise(Months, RevenueOf(init), LandsIn(last), RevenueOf(invoices));
    }
  }

  // ---------------------------------------------------------------- top clients

  /** The invoice columns `getTopClients` selects for a customer. */
  datatype ClientInvoice = ClientInvoice(total: real, status: string)

  /** A customer with the user's invoices, as the query returns it. */
  datatype CustomerRow = CustomerRow(id: Id, name: string, invoices: seq<ClientInvoice>)

  datatype ClientStats = ClientStats(id: Id, name: string, totalRevenue: real, paidRevenue: real, invoiceCount: int)

  function InvoiceTotal(): ClientInvoice -> real {
    (i: ClientInvoice) => i.total
  }

  function IsPaid(): ClientInvoice -> bool {
    (i: ClientInvoice) => i.status == "paid"
  }

  function PaidTotal(): ClientInvoice -> real {
    (i: ClientInvoice) => if i.status == "paid" then i.total else 0.0
  }

  /** Filtering the paid invoices and then summing is summing the totals masked
      by status. */
  lemma SumOfPaid(s: seq<ClientInvoice>)
    ensures Sum(Filter(s, IsPaid()), InvoiceTotal()) == Sum(s, PaidTotal())
  {
    SumFilter(s, IsPaid(), InvoiceTotal(), PaidTotal());
  }

  /** One customer's figures: the revenue of all its invoices, of the paid ones
      (filtered, then summed) and how many there are. */
  function StatsOf(c: CustomerRow): (r: ClientStats)
    ensures r.id == c.id && r.name == c.name
    ensures r.totalRevenue == Sum(c.invoices, InvoiceTotal())
    ensures r.paidRevenue == Sum(c.invoices, PaidTotal())
    ensures r.invoiceCount == |c.invoices|
  {
    SumOfPaid(c.invoices);
    ClientStats(c.id, c.name, Sum(c.invoices, InvoiceTotal()), Sum(Filter(c.invoices, IsPaid()), InvoiceTotal()),
                |c.invoices|)
  }

  function AllStats(clients: seq<CustomerRow>): (r: seq<ClientStats>)
    ensures |r| == |clients|
    ensures forall i :: 0 <= i < |clients| ==> r[i] == StatsOf(clients[i])
  {
    seq(|clients|, i requires 0 <= i < |clients| => StatsOf(clients[i]))
  }

  function Revenue(): ClientStats -> real {
    (s: ClientStats) => s.totalRevenue
  }

  /** Every customer's figures, by total revenue from the highest; customers
      with equal revenue keep the order the query returned them in. */
  function RankedClients(clients: seq<CustomerRow>): (r: seq<ClientStats>)
    ensures |r| == |clients|
    ensures multiset(r) == multiset(AllStats(clients))
    ensures SortedDesc(r, Revenue())
  {
    SortDesc(AllStats(clients), Revenue())
  }

  /** `getTopClients`: the ranking cut to the limit. */
  function TopClients(clients: seq<CustomerRow>, limit: Option<int>): (r: seq<ClientStats>)
    ensures EffectiveLimit(limit) >= 0 ==> |r| == if EffectiveLimit(limit) < |clients| then EffectiveLimit(limit) else |clients|
    ensures limit.None? ==> |r| <= 10
    ensures |r| <= |clients| && r == RankedClients(clients)[..|r|]
  {
    SliceTo(RankedClients(clients), EffectiveLimit(limit))
  }

  /** The top clients are ranked by total revenue, and each is the figures of
      one of the customers. */
  lemma TopClientsRanked(clients: seq<CustomerRow>, limit: Option<int>)
    ensures SortedDesc(TopClients(clients, limit), Revenue())
    ensures forall i :: 0 <= i < |TopClients(clients, limit)| ==>
              exists c :: 0 <= c < |clients| && TopClients(clients, limit)[i] == StatsOf(clients[c])
  {
    var ranked := RankedClients(clients);
    var top := TopClients(clients, limit);
    assert forall i :: 0 <= i < |top| ==> top[i] == ranked[i];
    assert forall i :: 0 <= i < |top| ==> top[i] in multiset(AllStats(clients));
  }

  /** The customers `getTopClients` leaves out. */
  function DroppedClients(clients: seq<CustomerRow>, limit: Option<int>): seq<ClientStats> {
    RankedClients(clients)[|TopClients(clients, limit)|..]
  }

  /** The kept and the dropped customers together are all customers. */
  lemma TopAndDroppedAreAll(clients: seq<CustomerRow>, limit: Option<int>)
    ensures multiset(TopClients(clients, limit)) + multiset(DroppedClients(clients, limit)) == multiset(AllStats(clients))
  {
    var ranked := RankedClients(clients);
    CutKeepsAll(ranked, |TopClients(clients, limit)|);
  }

  /** No dropped customer earned more than a kept one. */
  lemma TopClientsAreTop(clients: seq<CustomerRow>, limit: Option<int>)
    ensures forall i, j :: 0 <= i < |TopClients(clients, limit)| && 0 <= j < |DroppedClients(clients, limit)| ==>
              TopClients(clients, limit)[i].totalRevenue >= DroppedClients(clients, limit)[j].totalRevenue
  {
    var ranked := RankedClients(clients);
    var n := |TopClients(clients, limit)|;
    SortedCutDominates(ranked, Revenue(), n);
    assert TopClients(clients, limit) == ranked[..n];
    assert DroppedClients(clients, limit) == ranked[n..];
  }

  /** Customers with the same total revenue stay in the order the query returned them. */
  lemma TopClientsKeepTies(clients: seq<CustomerRow>, v: real)
    requires |clients| <= DefaultLimit
    ensures Filter(TopClients(clients, None), KeyEquals(Revenue(), v)) == Filter(AllStats(clients), KeyEquals(Revenue(), v))
  {
    assert TopClients(clients, None) == RankedClients(clients);
    SortKeepsTies(AllStats(clients), Revenue(), v);
  }

  // ------------------------------------------------------------ recent activity

  /** A row as the query returns it, with its creation time (milliseconds) and
      its client's name. */
  datatype Listed<T> = Listed(row: T, clientName: string, createdAt: int)

  datatype Activity = Activity(kind: string, id: Id, number: string, client: string, amount: real, date: int, status: string)

  function InvoiceActivity(l: Listed<Invoice>): Activity {
    Activity("invoice", l.row.id, l.row.invoiceNumber, l.clientName, l.row.total, l.createdAt, l.row.status)
  }

  function OfferActivity(l: Listed<Offer>): Activity {
    Activity("offer", l.row.id, l.row.offerNumber, l.clientName, l.row.total, l.createdAt, l.row.status)
  }

  function OrderActivity(l: Listed<Order>): Activity {
    Activity("order", l.row.id, l.row.orderNumber, l.clientName, l.row.totalAmount, l.createdAt, l.row.status)
  }

  function Activities<T>(rows: seq<T>, f: T -> Activity): (r: seq<Activity>)
    ensures |r| == |rows|
    ensures forall i :: 0 <= i < |rows| ==> r[i] == f(rows[i])
  {
    seq(|rows|, i requires 0 <= i < |rows| => f(rows[i]))
  }

  /** The three lists spread into one: invoices, then offers, then orders. */
  function Merged(invoices: seq<Listed<Invoice>>, offers: seq<Listed<Offer>>, orders: seq<Listed<Order>>): seq<Activity> {
    Activities(invoices, InvoiceActivity) + Activities(offers, OfferActivity) + Activities(orders, OrderActivity)
  }

  function CreatedAt(): Activity -> real {
    (a: Activity) => a.date as real
  }

  /** `getRecentActivity`: the merged activities, newest first, cut to the limit. */
  function RecentActivity(invoices: seq<Listed<Invoice>>, offers: seq<Listed<Offer>>, orders: seq<Listed<Order>>,
                          limit: Option<int>): (r: seq<Activity>)
    ensures var n := |invoices| + |offers| + |orders|;
            EffectiveLimit(limit) >= 0 ==> |r| == if EffectiveLimit(limit) < n then EffectiveLimit(limit) else n
    ensures forall i, j :: 0 <= i < j < |r| ==> r[i].date >= r[j].date
    ensures multiset(r) <= multiset(Merged(invoices, offers, orders))
  {
    var sorted := SortDesc(Merged(invoices, offers, orders), CreatedAt());
    var r := SliceTo(sorted, EffectiveLimit(limit));
    assert sorted == r + sorted[|r|..];
    r
  }

  /** The merged activities `getRecentActivity` cuts off. */
  function DroppedActivity(invoices: seq<Listed<Invoice>>, offers: seq<Listed<Offer>>, orders: seq<Listed<Order>>,
                           limit: Option<int>): seq<Activity>
  {
    SortDesc(Merged(invoices, offers, orders), CreatedAt())[|RecentActivity(invoices, offers, orders, limit)|..]
  }

  /** The kept and the cut-off activities together are all merged activities. */
  lemma RecentAndDroppedAreAll(invoices: seq<Listed<Invoice>>, offers: seq<Listed<Offer>>, orders: seq<Listed<Order>>,
                               limit: Option<int>)
    ensures multiset(RecentActivity(invoices, offers, orders, limit)) + multiset(DroppedActivity(invoices, offers, orders, limit))
            == multiset(Merged(invoices, offers, orders))
  {
    var sorted := SortDesc(Merged(invoices, offers, orders), CreatedAt());
    var n := |RecentActivity(invoices, offers, orders, limit)|;
    CutKeepsAll(sorted, n);
  }

  /** The kept activities are the newest: every merged activity left out
      (counted with multiplicity) is no newer than any activity kept. */
  lemma RecentActivityIsNewest(invoices: seq<Listed<Invoice>>, offers: seq<Listed<Offer>>, orders: seq<Listed<Order>>,
                               limit: Option<int>)
    ensures var r := RecentActivity(invoices, offers, orders, limit);
            var d := DroppedActivity(invoices, offers, orders, limit);
            forall i, j :: 0 <= i < |r| && 0 <= j < |d| ==> r[i].date >= d[j].date
    ensures var r := RecentActivity(invoices, offers, orders, limit);
            var left := multiset(Merged(invoices, offers, orders)) - multiset(r);
            forall a, b :: a in r && b in left ==> a.date >= b.date
  {
    var r := RecentActivity(invoices, offers, orders, limit);
    var sorted := SortDesc(Merged(invoices, offers, orders), CreatedAt());
    assert r == sorted[..|r|];
    SortedCutDominates(sorted, CreatedAt(), |r|);
    SortedCutDominatesRest(sorted, CreatedAt(), |r|);
  }

  /** Activities created at the same instant keep the merge order: invoices,
      then offers, then orders. */
  lemma RecentActivityKeepsTies(invoices: seq<Listed<Invoice>>, offers: seq<Listed<Offer>>, orders: seq<Listed<Order>>,
                                t: int)
    requires |invoices| + |offers| + |orders| <= DefaultLimit
    ensures Filter(RecentActivity(invoices, offers, orders, None), KeyEquals(CreatedAt(), t as real))
            == Filter(Merged(invoices, offers, orders), KeyEquals(CreatedAt(), t as real))
  {
    var merged := Merged(invoices, offers, orders);
    assert RecentActivity(invoices, offers, orders, None) == SortDesc(merged, CreatedAt());
    SortKeepsTies(merged, CreatedAt(), t as real);
  }

  function OfKind(kind: string): Activity -> bool {
    (a: Activity) => a.kind == kind
  }

  /** The merge loses nothing and invents nothing: its invoice activities are
      exactly the listed invoices, in order, and likewise for offers and orders. */
  lemma MergedKeepsEachList(invoices: seq<Listed<Invoice>>, offers: seq<Listed<Offer>>, orders: seq<Listed<Order>>)
    ensures Filter(Merged(invoices, offers, orders), OfKind("invoice")) == Activities(invoices, InvoiceActivity)
    ensures Filter(Merged(invoices, offers, orders), OfKind("offer")) == Activities(offers, OfferActivity)
    ensures Filter(Merged(invoices, offers, orders), OfKind("order")) == Activities(orders, OrderActivity)
  {
    var a := Activities(invoices, InvoiceActivity);
    var b := Activities(offers, OfferActivity);
    var c := Activities(orders, OrderActivity);
    FilterAppend(a + b, c, OfKind("invoice"));
    FilterAppend(a, b, OfKind("invoice"));
    FilterAll(a, OfKind("invoice"));
    FilterNone(b, OfKind("invoice"));
    FilterNone(c, OfKind("invoice"));
    FilterAppend(a + b, c, OfKind("offer"));
    FilterAppend(a, b, OfKind("offer"));
    FilterNone(a, OfKind("offer"));
    FilterAll(b, OfKind("offer"));
    FilterNone(c, OfKind("offer"));
    FilterAppend(a + b, c, OfKind("order"));
    FilterAppend(a, b, OfKind("order"));
    FilterNone(a, OfKind("order"));
    FilterNone(b, OfKind("order"));
    FilterAll(c, OfKind("order"));
  }
}

=== FILE: nest_db.dfy ===
/** The rows the NestJS services read and write, as plain values. The Prisma
    schema is not part of this model: the column defaults the services rely on
    are carried in `SchemaDefaults` rather than invented. Row ids are assigned by
    the database and arrive as parameters. */
module NestDb {
  import opened Wrappers
  import opened Text
  import opened Calendar
  import opened Sorting
  import opened NestPricing

  type Id = string

  datatype Company = Company(
    id: Id,
    userId: Id,
    invoicePrefix: string,
    nextInvoiceNum: int,
    offerPrefix: string,
    nextOfferNum: int,
    defaultDuedays: int)

  datatype Client = Client(id: Id, name: string, clientType: string)

  datatype Invoice = Invoice(
    id: Id,
    userId: Id,
    companyId: Id,
    clientId: Id,
    orderId: Option<Id>,
    invoiceNumber: string,
    invoiceType: string,
    status: string,
    issueDate: Date,
    dueDate: Date,
    taxDate: Date,
    subtotal: real,
    vatAmount: real,
    total: real,
    currency: string,
    notes: Option<string>,
    variableSymbol: string,
    items: seq<PricedItem>)

  datatype Offer = Offer(
    id: Id,
    userId: Id,
    companyId: Id,
    clientId: Id,
    offerNumber: string,
    status: string,
    issueDate: Date,
    validUntil: Date,
    subtotal: real,
    vatAmount: real,
    total: real,
    notes: Option<string>,
    items: seq<PricedItem>)

  /** An order timeline row; the description column is optional. */
  datatype TimelineEvent = TimelineEvent(event: string, description: Option<string>)

  datatype Order = Order(
    id: Id,
    userId: Id,
    clientId: Id,
    offerId: Option<Id>,
    orderNumber: string,
    name: string,
    status: string,
    totalAmount: real,
    paidAmount: real,
    timeline: seq<TimelineEvent>)

  /** Column defaults the database fills in on insert. */
  datatype SchemaDefaults = SchemaDefaults(
    invoiceStatus: string,
    offerStatus: string,
    orderStatus: string,
    orderPaidAmount: real)

  datatype Db = Db(
    companies: seq<Company>,
    clients: seq<Client>,
    invoices: seq<Invoice>,
    offers: seq<Offer>,
    orders: seq<Order>,
    defaults: SchemaDefaults)

  /** `BadRequestException` and `NotFoundException`, with their messages. */
  datatype HttpError = BadRequest(message: string) | NotFound(message: string)

  /** The database after a write, and the row the call returns. */
  datatype Saved<T> = Saved(db: Db, row: T)

  /** The company profile `findUnique({ where: { userId } })` finds. */
  function CompanyIndex(db: Db, userId: Id): (r: Option<nat>)
    ensures r.Some? ==> r.value < |db.companies| && db.companies[r.value].userId == userId
    ensures r.None? <==> forall k :: 0 <= k < |db.companies| ==> db.companies[k].userId != userId
  {
    FirstIndex(db.companies, CompanyOf(userId))
  }

  function CompanyOf(userId: Id): Company -> bool {
    (c: Company) => c.userId == userId
  }

  /** `client.findUnique({ where: { id } })`: note that the client is not scoped to the user. */
  predicate ClientExists(db: Db, clientId: Id) {
    exists k :: 0 <= k < |db.clients| && db.clients[k].id == clientId
  }

  /** JavaScript `value || fallback` for an optional string: absent and empty
      both fall back. */
  function OrElse(value: Option<string>, fallback: string): (r: string)
    ensures value.Some? && value.value != "" ==> r == value.value
    ensures value.None? || value.value == "" ==> r == fallback
  {
    if value.Some? && value.value != "" then value.value else fallback
  }

  /** `${prefix}${String(counter).padStart(6, '0')}`, the numbering of NestJS
      invoices, offers and orders. */
  function DocumentNumber(prefix: string, counter: int): (r: string)
    ensures StartsWith(r, prefix)
    ensures counter >= 0 ==> |r| >= |prefix| + 6
  {
    var r := prefix + PadStart(IntToString(counter), 6, '0');
    assert r[..|prefix|] == prefix;
    r
  }

  /** Non-negative counters render to distinct numbers under the same prefix, and
      the digits after the prefix read back as the counter. */
  lemma DocumentNumberReadsBack(prefix: string, counter: nat)
    ensures var tail := DocumentNumber(prefix, counter)[|prefix|..];
            AllDigits(tail) && DigitsValue(tail) == counter
  {
    var r := DocumentNumber(prefix, counter);
    assert r[|prefix|..] == PadStart(NatToString(counter), 6, '0');
    PaddedValue(counter, 6);
  }

  lemma DocumentNumberInjective(prefix: string, a: nat, b: nat)
    requires DocumentNumber(prefix, a) == DocumentNumber(prefix, b)
    ensures a == b
  {
    DocumentNumberReadsBack(prefix, a);
    DocumentNumberReadsBack(prefix, b);
  }

  /** Consecutive counters give different numbers. */
  lemma ConsecutiveNumbersDiffer(prefix: string, counter: nat)
    ensures DocumentNumber(prefix, counter) != DocumentNumber(prefix, counter + 1)
  {
    if DocumentNumber(prefix, counter) == DocumentNumber(prefix, counter + 1) {
      DocumentNumberInjective(prefix, counter, counter + 1);
    }
  }

  /** When the prefix holds no digit, the digits of a number are exactly the
      padded counter, so the derived variable symbol reads back as the counter. */
  lemma DigitsOfDocumentNumber(prefix: string, counter: nat)
    requires forall k :: 0 <= k < |prefix| ==> !IsDigit(prefix[k])
    ensures DigitsOnly(DocumentNumber(prefix, counter)) == PadStart(NatToString(counter), 6, '0')
    ensures DigitsValue(DigitsOnly(DocumentNumber(prefix, counter))) == counter
  {
    var pad := PadStart(NatToString(counter), 6, '0');
    PaddedValue(counter, 6);
    DigitsOnlyAppend(prefix, pad);
    DigitsOnlyDropsNonDigits(prefix);
    DigitsOnlyKeepsDigits(pad);
    assert "" + pad == pad;
  }
}

=== FILE: nest_invoices.dfy ===
/** `InvoicesService` of the NestJS backend: create, findOne, update and remove,
    as transformers of the database value. */
module NestInvoices {
  import opened Wrappers
  import opened Sums
  import opened Text
  import opened Calendar
  import opened NestPricing
  import opened Sorting
  import opened NestDb

  /** The request body of `create`; dates arrive already parsed. */
  datatype CreateInvoiceDto = CreateInvoiceDto(
    invoiceType: Option<string>,
    clientId: Id,
    orderId: Option<Id>,
    issueDate: Option<Date>,
    dueDate: Option<Date>,
    currency: Option<string>,
    notes: Option<string>,
    variableSymbol: Option<string>,
    items: seq<ItemInput>)

  /** The request body of `update`. `notes` distinguishes an absent field (None)
      from one sent as null (Some(None)). */
  datatype UpdateInvoiceDto = UpdateInvoiceDto(
    status: Option<string>,
    dueDate: Option<Date>,
    notes: Option<Option<string>>,
    items: Option<seq<ItemInput>>)

  function InvoiceOf(userId: Id, id: Id): Invoice -> bool {
    (inv: Invoice) => inv.id == id && inv.userId == userId
  }

  function InvoiceIndex(db: Db, userId: Id, id: Id): (r: Option<nat>)
    ensures r.Some? ==> r.value < |db.invoices| && db.invoices[r.value].id == id && db.invoices[r.value].userId == userId
    ensures r.None? <==> forall k :: 0 <= k < |db.invoices| ==> !(db.invoices[k].id == id && db.invoices[k].userId == userId)
  {
    FirstIndex(db.invoices, InvoiceOf(userId, id))
  }

  /** The row `create` inserts for a company: its next number, the shared line
      pricing, and the date and text defaults. */
  function NewRow(company: Company, userId: Id, dto: CreateInvoiceDto, newId: Id, status: string, now: Date): (inv: Invoice)
    ensures inv.invoiceNumber == DocumentNumber(company.invoicePrefix, company.nextInvoiceNum)
    ensures inv.id == newId && inv.userId == userId && inv.companyId == company.id
    ensures inv.clientId == dto.clientId && inv.orderId == dto.orderId && inv.status == status
    ensures inv.issueDate == dto.issueDate.GetOr(now)
    ensures inv.dueDate == if dto.dueDate.Some? then dto.dueDate.value
                           else AddDays(inv.issueDate, company.defaultDuedays)
    ensures inv.taxDate == inv.issueDate
    ensures inv.invoiceType == OrElse(dto.invoiceType, "standard")
    ensures inv.currency == OrElse(dto.currency, "CZK")
    ensures inv.notes == dto.notes
    ensures inv.variableSymbol == OrElse(dto.variableSymbol, DigitsOnly(inv.invoiceNumber))
    ensures inv.subtotal == Sum(dto.items, LineSubtotal) && inv.vatAmount == Sum(dto.items, LineVat)
    ensures inv.total == inv.subtotal + inv.vatAmount
    ensures inv.items == PriceItems(dto.items).items
  {
    var priced := PriceItems(dto.items);
    var number := DocumentNumber(company.invoicePrefix, company.nextInvoiceNum);
    var issue := dto.issueDate.GetOr(now);
    var due := if dto.dueDate.Some? then dto.dueDate.value else AddDays(issue, company.defaultDuedays);
    Invoice(newId, userId, company.id, dto.clientId, dto.orderId, number,
            OrElse(dto.invoiceType, "standard"), status,
            issue, due, issue, priced.subtotal, priced.vatAmount, priced.total,
            OrElse(dto.currency, "CZK"), dto.notes,
            OrElse(dto.variableSymbol, DigitsOnly(number)), priced.items)
  }

  /** The number `create` would give the user's next invoice, if the user has a
      company profile. */
  function NextInvoiceNumber(db: Db, userId: Id): Option<string> {
    match CompanyIndex(db, userId)
    case Some(c) => Some(DocumentNumber(db.companies[c].invoicePrefix, db.companies[c].nextInvoiceNum))
    case None => None
  }

  /** `create`: fails without a company profile or with an unknown client;
      otherwise inserts `NewRow` and advances the company's counter by one. */
  function Create(db: Db, userId: Id, dto: CreateInvoiceDto, newId: Id, now: Date): (r: Result<Saved<Invoice>, HttpError>)
    ensures r.Err? <==> CompanyIndex(db, userId).None? || !ClientExists(db, dto.clientId)
    ensures CompanyIndex(db, userId).None? ==> r == Err(BadRequest("Company profile must be created first"))
    ensures CompanyIndex(db, userId).Some? && !ClientExists(db, dto.clientId) ==> r == Err(NotFound("Client not found"))
    ensures r.Ok? ==>
              var c := CompanyIndex(db, userId).value;
              var company := db.companies[c];
              && r.value.row == NewRow(company, userId, dto, newId, db.defaults.invoiceStatus, now)
              && r.value.db.invoices == db.invoices + [r.value.row]
              && r.value.db.companies == db.companies[c := company.(nextInvoiceNum := company.nextInvoiceNum + 1)]
              && r.value.db.clients == db.clients && r.value.db.offers == db.offers
              && r.value.db.orders == db.orders && r.value.db.defaults == db.defaults
    ensures r.Ok? ==> CompanyIndex(r.value.db, userId) == CompanyIndex(db, userId)
    ensures r.Ok? ==> NextInvoiceNumber(db, userId) == Some(r.value.row.invoiceNumber)
  {
    if CompanyIndex(db, userId).None? then Err(BadRequest("Company profile must be created first"))
    else if !ClientExists(db, dto.clientId) then Err(NotFound("Client not found"))
    else
      var c := CompanyIndex(db, userId).value;
      var company := db.companies[c];
      var inv := NewRow(company, userId, dto, newId, db.defaults.invoiceStatus, now);
      var next := company.(nextInvoiceNum := company.nextInvoiceNum + 1);
      FirstIndexAfterSet(db.companies, CompanyOf(userId), next);
      Ok(Saved(db.(invoices := db.invoices + [inv], companies := db.companies[c := next]), inv))
  }

  /** `findOne`: an invoice matching both the id and the user, or NotFound. */
  function FindOne(db: Db, userId: Id, id: Id): (r: Result<Invoice, HttpError>)
    ensures r.Ok? ==> r.value in db.invoices && r.value.id == id && r.value.userId == userId
    ensures r.Err? <==> forall k :: 0 <= k < |db.invoices| ==> !(db.invoices[k].id == id && db.invoices[k].userId == userId)
    ensures r.Err? ==> r.error == NotFound("Invoice not found")
  {
    match InvoiceIndex(db, userId, id)
    case Some(i) => Ok(db.invoices[i])
    case None => Err(NotFound("Invoice not found"))
  }

  /** The fields `update` never writes. */
  function Untouched(inv: Invoice): Invoice {
    inv.(status := "", dueDate := MinValue, notes := None, items := [], subtotal := 0.0, vatAmount := 0.0, total := 0.0)
  }

  /** `update` applied to one row: a truthy status and a supplied due date or
      notes overwrite; supplied items replace the lines and the totals. */
  function Patch(inv: Invoice, dto: UpdateInvoiceDto): (r: Invoice)
    ensures Untouched(r) == Untouched(inv)
    ensures r.status == OrElse(dto.status, inv.status)
    ensures r.dueDate == dto.dueDate.GetOr(inv.dueDate)
    ensures r.notes == dto.notes.GetOr(inv.notes)
    ensures dto.items.None? ==> r.items == inv.items && r.subtotal == inv.subtotal
                                && r.vatAmount == inv.vatAmount && r.total == inv.total
    ensures dto.items.Some? ==> r.items == PriceItems(dto.items.value).items
                                && r.subtotal == Sum(dto.items.value, LineSubtotal)
                                && r.vatAmount == Sum(dto.items.value, LineVat)
                                && r.total == r.subtotal + r.vatAmount
  {
    var withStatus := if dto.status.Some? && dto.status.value != "" then inv.(status := dto.status.value) else inv;
    var withDue := if dto.dueDate.Some? then withStatus.(dueDate := dto.dueDate.value) else withStatus;
    var withNotes := if dto.notes.Some? then withDue.(notes := dto.notes.value) else withDue;
    if dto.items.Some? then
      var priced := PriceItems(dto.items.value);
      withNotes.(items := priced.items, subtotal := priced.subtotal, vatAmount := priced.vatAmount, total := priced.total)
    else withNotes
  }

  /** `update`: NotFound unless the invoice belongs to the user; any status
      string is accepted, with no transition check. */
  function Update(db: Db, userId: Id, id: Id, dto: UpdateInvoiceDto): (r: Result<Saved<Invoice>, HttpError>)
    ensures r.Err? <==> FindOne(db, userId, id).Err?
    ensures r.Err? ==> r.error == NotFound("Invoice not found")
    ensures r.Ok? ==>
              var i := InvoiceIndex(db, userId, id).value;
              && r.value.row == Patch(db.invoices[i], dto)
              && r.value.db == db.(invoices := db.invoices[i := r.value.row])
  {
    match InvoiceIndex(db, userId, id)
    case None => Err(NotFound("Invoice not found"))
    case Some(i) =>
      var patched := Patch(db.invoices[i], dto);
      Ok(Saved(db.(invoices := db.invoices[i := patched]), patched))
  }

  /** `remove`: NotFound unless the invoice belongs to the user; otherwise the
      row is deleted and the rest keep their order. */
  function Remove(db: Db, userId: Id, id: Id): (r: Result<Db, HttpError>)
    ensures r.Err? <==> FindOne(db, userId, id).Err?
    ensures r.Err? ==> r.error == NotFound("Invoice not found")
    ensures r.Ok? ==> |r.value.invoices| == |db.invoices| - 1
    ensures r.Ok? ==> multiset(r.value.invoices) + multiset{FindOne(db, userId, id).value} == multiset(db.invoices)
    ensures r.Ok? ==> r.value.(invoices := db.invoices) == db
    ensures r.Ok? ==> var i := InvoiceIndex(db, userId, id).value;
                      r.value.invoices == db.invoices[..i] + db.invoices[i + 1..]
  {
    match InvoiceIndex(db, userId, id)
    case None => Err(NotFound("Invoice not found"))
    case Some(i) =>
      var rest := db.invoices[..i] + db.invoices[i + 1..];
      assert db.invoices == db.invoices[..i] + [db.invoices[i]] + db.invoices[i + 1..];
      Ok(db.(invoices := rest))
  }

  // ---------------------------------------------------------------- properties

  /** An update that supplies nothing changes nothing. */
  lemma EmptyUpdateChangesNothing(db: Db, userId: Id, id: Id)
    requires FindOne(db, userId, id).Ok?
    ensures var r := Update(db, userId, id, UpdateInvoiceDto(None, None, None, None));
            r.Ok? && r.value.db == db && r.value.row == FindOne(db, userId, id).value
  {
    var i := InvoiceIndex(db, userId, id).value;
    var inv := db.invoices[i];
    var p := Patch(inv, UpdateInvoiceDto(None, None, None, None));
    assert Untouched(p) == Untouched(inv);
    assert p == inv;
    assert db.invoices[i := inv] == db.invoices;
  }

  /** After an update, `findOne` returns the updated row. */
  lemma UpdateThenFind(db: Db, userId: Id, id: Id, dto: UpdateInvoiceDto)
    requires Update(db, userId, id, dto).Ok?
    ensures var r := Update(db, userId, id, dto).value;
            FindOne(r.db, userId, id) == Ok(r.row)
  {
    var r := Update(db, userId, id, dto).value;
    assert Untouched(r.row) == Untouched(FindOne(db, userId, id).value);
    assert InvoiceOf(userId, id)(r.row);
    FirstIndexAfterSet(db.invoices, InvoiceOf(userId, id), r.row);
  }

  /** A creation leaves the user's company where it was, with the counter one higher. */
  lemma CreateAdvancesCounter(db: Db, userId: Id, dto: CreateInvoiceDto, newId: Id, now: Date)
    requires Create(db, userId, dto, newId, now).Ok?
    ensures var out := Create(db, userId, dto, newId, now).value;
            var c := CompanyIndex(db, userId).value;
            var company := db.companies[c];
            && CompanyIndex(out.db, userId) == Some(c)
            && out.db.companies[c] == company.(nextInvoiceNum := company.nextInvoiceNum + 1)
  {
    var c := CompanyIndex(db, userId).value;
    var company := db.companies[c];
    var out := Create(db, userId, dto, newId, now).value;
    assert out.db.companies[c] == company.(nextInvoiceNum := company.nextInvoiceNum + 1);
  }

  /** After a creation, the number the next one would take is built from the
      following counter value. */
  lemma CreateMovesNextNumber(db: Db, userId: Id, dto: CreateInvoiceDto, newId: Id, now: Date)
    requires Create(db, userId, dto, newId, now).Ok?
    ensures var company := db.companies[CompanyIndex(db, userId).value];
            NextInvoiceNumber(Create(db, userId, dto, newId, now).value.db, userId)
              == Some(DocumentNumber(company.invoicePrefix, company.nextInvoiceNum + 1))
  {
    CreateAdvancesCounter(db, userId, dto, newId, now);
  }

  /** For a counter that is not negative, the number the next creation would
      take differs from the one just stored. */
  lemma SuccessiveCreatesNumberApart(db: Db, userId: Id, dto: CreateInvoiceDto, newId: Id, now: Date)
    requires Create(db, userId, dto, newId, now).Ok?
    requires db.companies[CompanyIndex(db, userId).value].nextInvoiceNum >= 0
    ensures var out := Create(db, userId, dto, newId, now).value;
            NextInvoiceNumber(out.db, userId) != Some(out.row.invoiceNumber)
  {
    var company := db.companies[CompanyIndex(db, userId).value];
    var out := Create(db, userId, dto, newId, now).value;
    var n: nat := company.nextInvoiceNum;
    assert out.row.invoiceNumber == DocumentNumber(company.invoicePrefix, n);
    CreateMovesNextNumber(db, userId, dto, newId, now);
    assert NextInvoiceNumber(out.db, userId) == Some(DocumentNumber(company.invoicePrefix, n + 1));
    ConsecutiveNumbersDiffer(company.invoicePrefix, n);
  }

  /** With a digit-free prefix and no symbol supplied, the variable symbol
      reads back as the counter the number was made from. */
  lemma DefaultSymbolIsCounter(db: Db, userId: Id, dto: CreateInvoiceDto, newId: Id, now: Date)
    requires Create(db, userId, dto, newId, now).Ok?
    requires dto.variableSymbol.None?
    requires var company := db.companies[CompanyIndex(db, userId).value];
             company.nextInvoiceNum >= 0
             && forall k :: 0 <= k < |company.invoicePrefix| ==> !IsDigit(company.invoicePrefix[k])
    ensures var company := db.companies[CompanyIndex(db, userId).value];
            var vs := Create(db, userId, dto, newId, now).value.row.variableSymbol;
            AllDigits(vs) && DigitsValue(vs) == company.nextInvoiceNum
  {
    var company := db.companies[CompanyIndex(db, userId).value];
    DigitsOfDocumentNumber(company.invoicePrefix, company.nextInvoiceNum);
  }
}

=== FILE: nest_offers.dfy ===
/** `OffersService` of the NestJS backend: create, findOne, update and remove.
    Pricing is the invoices' discounted line pricing; numbering uses the
    company's offer prefix and counter. */
module NestOffers {
  import opened Wrappers
  import opened Sums
  import opened Text
  import opened Calendar
  import opened NestPricing
  import opened Sorting
  import opened NestDb

  datatype CreateOfferDto = CreateOfferDto(
    clientId: Id,
    validUntil: Option<Date>,
    notes: Option<string>,
    items: seq<ItemInput>)

  /** `notes` distinguishes an absent field (None) from one sent as null (Some(None)). */
  datatype UpdateOfferDto = UpdateOfferDto(
    status: Option<string>,
    validUntil: Option<Date>,
    notes: Option<Option<string>>,
    items: Option<seq<ItemInput>>)

  /** Offers stay valid for 30 days unless the request says otherwise. */
  const DefaultValidityDays: int := 30

  function OfferOf(userId: Id, id: Id): Offer -> bool {
    (o: Offer) => o.id == id && o.userId == userId
  }

  function OfferIndex(db: Db, userId: Id, id: Id): (r: Option<nat>)
    ensures r.Some? ==> r.value < |db.offers| && db.offers[r.value].id == id && db.offers[r.value].userId == userId
    ensures r.None? <==> forall k :: 0 <= k < |db.offers| ==> !(db.offers[k].id == id && db.offers[k].userId == userId)
  {
    FirstIndex(db.offers, OfferOf(userId, id))
  }

  /** The row `create` inserts: the company's next offer number, issued now,
      valid for 30 days by default, priced like an invoice. */
  function NewRow(company: Company, userId: Id, dto: CreateOfferDto, newId: Id, status: string, now: Date): (o: Offer)
    ensures o.offerNumber == DocumentNumber(company.offerPrefix, company.nextOfferNum)
    ensures o.id == newId && o.userId == userId && o.companyId == company.id && o.clientId == dto.clientId
    ensures o.status == status && o.issueDate == now
    ensures o.validUntil == if dto.validUntil.Some? then dto.validUntil.value else AddDays(now, DefaultValidityDays)
    ensures o.notes == dto.notes
    ensures o.subtotal == Sum(dto.items, LineSubtotal) && o.vatAmount == Sum(dto.items, LineVat)
    ensures o.total == o.subtotal + o.vatAmount
    ensures o.items == PriceItems(dto.items).items
  {
    var priced := PriceItems(dto.items);
    var valid := if dto.validUntil.Some? then dto.validUntil.value else AddDays(now, DefaultValidityDays);
    Offer(newId, userId, company.id, dto.clientId,
          DocumentNumber(company.offerPrefix, company.nextOfferNum), status, now, valid,
          priced.subtotal, priced.vatAmount, priced.total, dto.notes, priced.items)
  }

  /** The number `create` would give the user's next offer, if the user has a
      company profile. */
  function NextOfferNumber(db: Db, userId: Id): Option<string> {
    match CompanyIndex(db, userId)
    case Some(c) => Some(DocumentNumber(db.companies[c].offerPrefix, db.companies[c].nextOfferNum))
    case None => None
  }

  /** `create`: fails without a company profile or with an unknown client;
      otherwise inserts `NewRow` and advances the company's offer counter by one. */
  function Create(db: Db, userId: Id, dto: CreateOfferDto, newId: Id, now: Date): (r: Result<Saved<Offer>, HttpError>)
    ensures r.Err? <==> CompanyIndex(db, userId).None? || !ClientExists(db, dto.clientId)
    ensures CompanyIndex(db, userId).None? ==> r == Err(BadRequest("Company profile must be created first"))
    ensures CompanyIndex(db, userId).Some? && !ClientExists(db, dto.clientId) ==> r == Err(NotFound("Client not found"))
    ensures r.Ok? ==>
              var c := CompanyIndex(db, userId).value;
              var company := db.companies[c];
              && r.value.row == NewRow(company, userId, dto, newId, db.defaults.offerStatus, now)
              && r.value.db.offers == db.offers + [r.value.row]
              && r.value.db.companies == db.companies[c := company.(nextOfferNum := company.nextOfferNum + 1)]
              && r.value.db.clients == db.clients && r.value.db.invoices == db.invoices
              && r.value.db.orders == db.orders && r.value.db.defaults == db.defaults
    ensures r.Ok? ==> CompanyIndex(r.value.db, userId) == CompanyIndex(db, userId)
    ensures r.Ok? ==> NextOfferNumber(db, userId) == Some(r.value.row.offerNumber)
  {
    if CompanyIndex(db, userId).None? then Err(BadRequest("Company profile must be created first"))
    else if !ClientExists(db, dto.clientId) then Err(NotFound("Client not found"))
    else
      var c := CompanyIndex(db, userId).value;
      var company := db.companies[c];
      var offer := NewRow(company, userId, dto, newId, db.defaults.offerStatus, now);
      var next := company.(nextOfferNum := company.nextOfferNum + 1);
      FirstIndexAfterSet(db.companies, CompanyOf(userId), next);
      Ok(Saved(db.(offers := db.offers + [offer], companies := db.companies[c := next]), offer))
  }

  /** `findOne`: an offer matching both the id and the user, or NotFound. */
  function FindOne(db: Db, userId: Id, id: Id): (r: Result<Offer, HttpError>)
    ensures r.Ok? ==> r.value in db.offers && r.value.id == id && r.value.userId == userId
    ensures r.Err? <==> forall k :: 0 <= k < |db.offers| ==> !(db.offers[k].id == id && db.offers[k].userId == userId)
    ensures r.Err? ==> r.error == NotFound("Offer not found")
  {
    match OfferIndex(db, userId, id)
    case Some(i) => Ok(db.offers[i])
    case None => Err(NotFound("Offer not found"))
  }

  /** The fields `update` never writes. */
  function Untouched(o: Offer): Offer {
    o.(status := "", validUntil := MinValue, notes := None, items := [], subtotal := 0.0, vatAmount := 0.0, total := 0.0)
  }

  /** `update` applied to one row: a truthy status and a supplied validity or
      notes overwrite; supplied items replace the lines and the totals. */
  function Patch(o: Offer, dto: UpdateOfferDto): (r: Offer)
    ensures Untouched(r) == Untouched(o)
    ensures r.status == OrElse(dto.status, o.status)
    ensures r.validUntil == dto.validUntil.GetOr(o.validUntil)
    ensures r.notes == dto.notes.GetOr(o.notes)
    ensures dto.items.None? ==> r.items == o.items && r.subtotal == o.subtotal
                                && r.vatAmount == o.vatAmount && r.total == o.total
    ensures dto.items.Some? ==> r.items == PriceItems(dto.items.value).items
                                && r.subtotal == Sum(dto.items.value, LineSubtotal)
                                && r.vatAmount == Sum(dto.items.value, LineVat)
                                && r.total == r.subtotal + r.vatAmount
  {
    var withStatus := if dto.status.Some? && dto.status.value != "" then o.(status := dto.status.value) else o;
    var withValid := if dto.validUntil.Some? then withStatus.(validUntil := dto.validUntil.value) else withStatus;
    var withNotes := if dto.notes.Some? then withValid.(notes := dto.notes.value) else withValid;
    if dto.items.Some? then
      var priced := PriceItems(dto.items.value);
      withNotes.(items := priced.items, subtotal := priced.subtotal, vatAmount := priced.vatAmount, total := priced.total)
    else withNotes
  }

  /** `update`: NotFound unless the offer belongs to the user. */
  function Update(db: Db, userId: Id, id: Id, dto: UpdateOfferDto): (r: Result<Saved<Offer>, HttpError>)
    ensures r.Err? <==> FindOne(db, userId, id).Err?
    ensures r.Err? ==> r.error == NotFound("Offer not found")
    ensures r.Ok? ==>
              var i := OfferIndex(db, userId, id).value;
              && r.value.row == Patch(db.offers[i], dto)
              && r.value.db == db.(offers := db.offers[i := r.value.row])
  {
    match OfferIndex(db, userId, id)
    case None => Err(NotFound("Offer not found"))
    case Some(i) =>
      var patched := Patch(db.offers[i], dto);
      Ok(Saved(db.(offers := db.offers[i := patched]), patched))
  }

  /** `remove`: NotFound unless the offer belongs to the user; otherwise the row
      is deleted and the rest keep their order. */
  function Remove(db: Db, userId: Id, id: Id): (r: Result<Db, HttpError>)
    ensures r.Err? <==> FindOne(db, userId, id).Err?
    ensures r.Err? ==> r.error == NotFound("Offer not found")
    ensures r.Ok? ==> |r.value.offers| == |db.offers| - 1
    ensures r.Ok? ==> multiset(r.value.offers) + multiset{FindOne(db, userId, id).value} == multiset(db.offers)
    ensures r.Ok? ==> r.value.(offers := db.offers) == db
    ensures r.Ok? ==> var i := OfferIndex(db, userId, id).value;
                      r.value.offers == db.offers[..i] + db.offers[i + 1..]
  {
    match OfferIndex(db, userId, id)
    case None => Err(NotFound("Offer not found"))
    case Some(i) =>
      assert db.offers == db.offers[..i] + [db.offers[i]] + db.offers[i + 1..];
      Ok(db.(offers := db.offers[..i] + db.offers[i + 1..]))
  }

  // ---------------------------------------------------------------- properties

  /** An update that supplies nothing changes nothing. */
  lemma EmptyUpdateChangesNothing(db: Db, userId: Id, id: Id)
    requires FindOne(db, userId, id).Ok?
    ensures var r := Update(db, userId, id, UpdateOfferDto(None, None, None, None));
            r.Ok? && r.value.db == db && r.value.row == FindOne(db, userId, id).value
  {
    var i := OfferIndex(db, userId, id).value;
    var o := db.offers[i];
    var p := Patch(o, UpdateOfferDto(None, None, None, None));
    assert Untouched(p) == Untouched(o);
    assert p == o;
    assert db.offers[i := o] == db.offers;
  }

  /** After an update, `findOne` returns the updated row. */
  lemma UpdateThenFind(db: Db, userId: Id, id: Id, dto: UpdateOfferDto)
    requires Update(db, userId, id, dto).Ok?
    ensures var r := Update(db, userId, id, dto).value;
            FindOne(r.db, userId, id) == Ok(r.row)
  {
    var r := Update(db, userId, id, dto).value;
    assert Untouched(r.row) == Untouched(FindOne(db, userId, id).value);
    assert OfferOf(userId, id)(r.row);
    FirstIndexAfterSet(db.offers, OfferOf(userId, id), r.row);
  }

  /** Without an explicit validity, an offer expires 30 days after it was issued. */
  lemma DefaultValidityIsThirtyDays(db: Db, userId: Id, dto: CreateOfferDto, newId: Id, now: Date)
    requires Create(db, userId, dto, newId, now).Ok? && dto.validUntil.None?
    ensures var o := Create(db, userId, dto, newId, now).value.row;
            o.validUntil == AddDays(o.issueDate, 30) && Before(o.issueDate, o.validUntil)
  {
    AddDaysMoves(now, 30);
  }

  /** A creation advances the offer counter of the user's company by one and
      leaves its invoice counter alone. */
  lemma CreateAdvancesOfferCounter(db: Db, userId: Id, dto: CreateOfferDto, newId: Id, now: Date)
    requires Create(db, userId, dto, newId, now).Ok?
    ensures var after := Create(db, userId, dto, newId, now).value.db;
            var c := CompanyIndex(db, userId).value;
            && after.companies[c].nextOfferNum == db.companies[c].nextOfferNum + 1
            && after.companies[c].nextInvoiceNum == db.companies[c].nextInvoiceNum
  {
    var c := CompanyIndex(db, userId).value;
    var after := Create(db, userId, dto, newId, now).value.db;
    assert after.companies[c] == db.companies[c].(nextOfferNum := db.companies[c].nextOfferNum + 1);
  }

  /** After a creation, the number the next one would take is built from the
      following counter value. */
  lemma CreateMovesNextNumber(db: Db, userId: Id, dto: CreateOfferDto, newId: Id, now: Date)
    requires Create(db, userId, dto, newId, now).Ok?
    ensures var company := db.companies[CompanyIndex(db, userId).value];
            NextOfferNumber(Create(db, userId, dto, newId, now).value.db, userId)
              == Some(DocumentNumber(company.offerPrefix, company.nextOfferNum + 1))
  {
    CreateAdvancesOfferCounter(db, userId, dto, newId, now);
  }

  /** For a counter that is not negative, the number the next creation would
      take differs from the one just stored. */
  lemma SuccessiveCreatesNumberApart(db: Db, userId: Id, dto: CreateOfferDto, newId: Id, now: Date)
    requires Create(db, userId, dto, newId, now).Ok?
    requires db.companies[CompanyIndex(db, userId).value].nextOfferNum >= 0
    ensures var out := Create(db, userId, dto, newId, now).value;
            NextOfferNumber(out.db, userId) != Some(out.row.offerNumber)
  {
    var company := db.companies[CompanyIndex(db, userId).value];
    var out := Create(db, userId, dto, newId, now).value;
    var n: nat := company.nextOfferNum;
    assert out.row.offerNumber == DocumentNumber(company.offerPrefix, n);
    CreateMovesNextNumber(db, userId, dto, newId, now);
    assert NextOfferNumber(out.db, userId) == Some(DocumentNumber(company.offerPrefix, n + 1));
    ConsecutiveNumbersDiffer(company.offerPrefix, n);
  }
}

=== FILE: nest_orders.dfy ===
/** `OrdersService` of the NestJS backend: create, findOne, update, remove,
    addTimelineEvent and the conversion of an offer into an order. Order numbers
    are `ZAK` followed by the count of all orders plus one, padded to six digits. */
module NestOrders {
  import opened Wrappers
  import opened Text
  import opened Sorting
  import opened NestDb
  import NestOffers

  /** `offerId` is optional; the database row stores whatever was sent. */
  datatype CreateOrderDto = CreateOrderDto(clientId: Id, offerId: Option<Id>, name: string, totalAmount: real)

  /** Every field optional: Prisma writes exactly the fields that are present. */
  datatype UpdateOrderDto = UpdateOrderDto(
    name: Option<string>,
    status: Option<string>,
    totalAmount: Option<real>,
    paidAmount: Option<real>)

  datatype TimelineDto = TimelineDto(event: string, description: Option<string>)

  const OrderPrefix: string := "ZAK"

  /** A JavaScript string that is present and not empty, as an `if` sees it. */
  predicate Truthy(s: Option<string>) {
    s.Some? && s.value != ""
  }

  function OrderOf(userId: Id, id: Id): Order -> bool {
    (o: Order) => o.id == id && o.userId == userId
  }

  function OrderIndex(db: Db, userId: Id, id: Id): (r: Option<nat>)
    ensures r.Some? ==> r.value < |db.orders| && db.orders[r.value].id == id && db.orders[r.value].userId == userId
    ensures r.None? <==> forall k :: 0 <= k < |db.orders| ==> !(db.orders[k].id == id && db.orders[k].userId == userId)
  {
    FirstIndex(db.orders, OrderOf(userId, id))
  }

  /** The number the next created or converted order takes: it counts every
      order in the database, whoever owns it. */
  function NextOrderNumber(db: Db): string {
    DocumentNumber(OrderPrefix, |db.orders| + 1)
  }

  /** The next order number is `ZAK` followed by digits that read back as the
      number of orders plus one. */
  lemma NextOrderNumberCounts(db: Db)
    ensures StartsWith(NextOrderNumber(db), OrderPrefix)
    ensures var tail := NextOrderNumber(db)[|OrderPrefix|..];
            AllDigits(tail) && DigitsValue(tail) == |db.orders| + 1
  {
    DocumentNumberReadsBack(OrderPrefix, |db.orders| + 1);
  }

  function CreatedEvent(): TimelineEvent {
    TimelineEvent("created", Some("Order created"))
  }

  /** `create`: the client must exist (any user's), and an offer id, when one is
      sent and not empty, must name one of the user's offers. The order starts
      with the database's default status and paid amount and one timeline event. */
  function Create(db: Db, userId: Id, dto: CreateOrderDto, newId: Id): (r: Result<Saved<Order>, HttpError>)
    ensures r.Err? <==> !ClientExists(db, dto.clientId)
                        || (Truthy(dto.offerId) && NestOffers.OfferIndex(db, userId, dto.offerId.value).None?)
    ensures !ClientExists(db, dto.clientId) ==> r == Err(NotFound("Client not found"))
    ensures ClientExists(db, dto.clientId) && r.Err? ==> r == Err(NotFound("Offer not found"))
    ensures r.Ok? ==> r.value.db == db.(orders := db.orders + [r.value.row])
    ensures r.Ok? ==> r.value.row.orderNumber == NextOrderNumber(db)
    ensures r.Ok? ==> var o := r.value.row;
                      && o.id == newId && o.userId == userId && o.clientId == dto.clientId
                      && o.offerId == dto.offerId && o.name == dto.name && o.totalAmount == dto.totalAmount
                      && o.status == db.defaults.orderStatus && o.paidAmount == db.defaults.orderPaidAmount
    ensures r.Ok? ==> |r.value.row.timeline| == 1 && r.value.row.timeline[0].event == "created"
  {
    if !ClientExists(db, dto.clientId) then Err(NotFound("Client not found"))
    else if Truthy(dto.offerId) && NestOffers.OfferIndex(db, userId, dto.offerId.value).None? then
      Err(NotFound("Offer not found"))
    else
      var order := Order(newId, userId, dto.clientId, dto.offerId, NextOrderNumber(db), dto.name,
                         db.defaults.orderStatus, dto.totalAmount, db.defaults.orderPaidAmount, [CreatedEvent()]);
      Ok(Saved(db.(orders := db.orders + [order]), order))
  }

  /** `findOne`: an order matching both the id and the user, or NotFound. */
  function FindOne(db: Db, userId: Id, id: Id): (r: Result<Order, HttpError>)
    ensures r.Ok? ==> r.value in db.orders && r.value.id == id && r.value.userId == userId
    ensures r.Err? <==> forall k :: 0 <= k < |db.orders| ==> !(db.orders[k].id == id && db.orders[k].userId == userId)
    ensures r.Err? ==> r.error == NotFound("Order not found")
  {
    match OrderIndex(db, userId, id)
    case Some(i) => Ok(db.orders[i])
    case None => Err(NotFound("Order not found"))
  }

  /** The event `update` records: only for a status that is sent, not empty and
      different from the current one. */
  function StatusEvent(current: string, status: Option<string>): (r: seq<TimelineEvent>)
    ensures |r| <= 1
    ensures |r| == 1 <==> Truthy(status) && status.value != current
    ensures |r| == 1 ==> r[0].event == status.value && r[0].event != current
    ensures |r| == 1 ==> r[0].description == Some("Status changed to " + status.value)
  {
    if Truthy(status) && status.value != current then
      [TimelineEvent(status.value, Some("Status changed to " + status.value))]
    else []
  }

  /** The fields `update` never writes. */
  function Untouched(o: Order): Order {
    o.(name := "", status := "", totalAmount := 0.0, paidAmount := 0.0, timeline := [])
  }

  /** `update` applied to one row: every field that is present is written, even
      an empty status, and a status change is logged first. */
  function Patch(o: Order, dto: UpdateOrderDto): (r: Order)
    ensures Untouched(r) == Untouched(o)
    ensures r.name == dto.name.GetOr(o.name) && r.status == dto.status.GetOr(o.status)
    ensures r.totalAmount == dto.totalAmount.GetOr(o.totalAmount)
    ensures r.paidAmount == dto.paidAmount.GetOr(o.paidAmount)
    ensures |r.timeline| == |o.timeline| || |r.timeline| == |o.timeline| + 1
    ensures |r.timeline| == |o.timeline| + 1 <==> Truthy(dto.status) && dto.status.value != o.status
    ensures r.timeline[..|o.timeline|] == o.timeline
    ensures |r.timeline| == |o.timeline| + 1 ==>
              r.timeline[|o.timeline|] == TimelineEvent(dto.status.value, Some("Status changed to " + dto.status.value))
  {
    var logged := o.timeline + StatusEvent(o.status, dto.status);
    assert logged[..|o.timeline|] == o.timeline;
    o.(name := dto.name.GetOr(o.name),
       status := dto.status.GetOr(o.status),
       totalAmount := dto.totalAmount.GetOr(o.totalAmount),
       paidAmount := dto.paidAmount.GetOr(o.paidAmount),
       timeline := logged)
  }

  /** `update`: NotFound unless the order belongs to the user. */
  function Update(db: Db, userId: Id, id: Id, dto: UpdateOrderDto): (r: Result<Saved<Order>, HttpError>)
    ensures r.Err? <==> FindOne(db, userId, id).Err?
    ensures r.Err? ==> r.error == NotFound("Order not found")
    ensures r.Ok? ==>
              var i := OrderIndex(db, userId, id).value;
              && r.value.row == Patch(db.orders[i], dto)
              && r.value.db == db.(orders := db.orders[i := r.value.row])
  {
    match OrderIndex(db, userId, id)
    case None => Err(NotFound("Order not found"))
    case Some(i) =>
      var patched := Patch(db.orders[i], dto);
      Ok(Saved(db.(orders := db.orders[i := patched]), patched))
  }

  /** `remove`: NotFound unless the order belongs to the user; otherwise the row
      is deleted and the rest keep their order. */
  function Remove(db: Db, userId: Id, id: Id): (r: Result<Db, HttpError>)
    ensures r.Err? <==> FindOne(db, userId, id).Err?
    ensures r.Err? ==> r.error == NotFound("Order not found")
    ensures r.Ok? ==> |r.value.orders| == |db.orders| - 1
    ensures r.Ok? ==> multiset(r.value.orders) + multiset{FindOne(db, userId, id).value} == multiset(db.orders)
    ensures r.Ok? ==> r.value.(orders := db.orders) == db
    ensures r.Ok? ==> var i := OrderIndex(db, userId, id).value;
                      r.value.orders == db.orders[..i] + db.orders[i + 1..]
  {
    match OrderIndex(db, userId, id)
    case None => Err(NotFound("Order not found"))
    case Some(i) =>
      assert db.orders == db.orders[..i] + [db.orders[i]] + db.orders[i + 1..];
      Ok(db.(orders := db.orders[..i] + db.orders[i + 1..]))
  }

  /** `addTimelineEvent`: NotFound unless the order belongs to the user;
      otherwise the event is appended to that order's timeline and nothing else
      changes. */
  function AddTimelineEvent(db: Db, userId: Id, orderId: Id, dto: TimelineDto): (r: Result<Db, HttpError>)
    ensures r.Err? <==> FindOne(db, userId, orderId).Err?
    ensures r.Err? ==> r.error == NotFound("Order not found")
    ensures r.Ok? ==>
              var i := OrderIndex(db, userId, orderId).value;
              && |r.value.orders| == |db.orders|
              && r.value.orders[i].timeline == db.orders[i].timeline + [TimelineEvent(dto.event, dto.description)]
              && r.value.orders[i].(timeline := []) == db.orders[i].(timeline := [])
              && (forall k :: 0 <= k < |db.orders| && k != i ==> r.value.orders[k] == db.orders[k])
              && r.value.(orders := db.orders) == db
  {
    match OrderIndex(db, userId, orderId)
    case None => Err(NotFound("Order not found"))
    case Some(i) =>
      var o := db.orders[i];
      Ok(db.(orders := db.orders[i := o.(timeline := o.timeline + [TimelineEvent(dto.event, dto.description)])]))
  }

  /** Offers in these states cannot become orders. */
  predicate Unconvertible(status: string) {
    status == "rejected" || status == "expired"
  }

  /** The order a conversion creates from `offer`. */
  function OrderFromOffer(db: Db, userId: Id, offer: Offer, newId: Id): Order {
    Order(newId, userId, offer.clientId, Some(offer.id), NextOrderNumber(db), "Order from offer " + offer.offerNumber,
          db.defaults.orderStatus, offer.total, db.defaults.orderPaidAmount,
          [TimelineEvent("created", Some("Order created from offer " + offer.offerNumber)),
           TimelineEvent("approved", Some("Offer approved and converted to order"))])
  }

  /** `convertOfferToOrder`: the offer must be the user's and neither rejected
      nor expired; a new order is created from it and the offer is marked
      accepted. */
  function ConvertOfferToOrder(db: Db, userId: Id, offerId: Id, newId: Id): (r: Result<Saved<Order>, HttpError>)
    ensures r.Err? <==> NestOffers.FindOne(db, userId, offerId).Err?
                        || Unconvertible(NestOffers.FindOne(db, userId, offerId).value.status)
    ensures NestOffers.FindOne(db, userId, offerId).Err? ==> r == Err(NotFound("Offer not found"))
    ensures NestOffers.FindOne(db, userId, offerId).Ok? && r.Err? ==>
              r == Err(BadRequest("Cannot convert rejected or expired offer to order"))
    ensures r.Ok? ==>
              var i := NestOffers.OfferIndex(db, userId, offerId).value;
              && r.value.row == OrderFromOffer(db, userId, db.offers[i], newId)
              && r.value.db == db.(orders := db.orders + [r.value.row],
                                   offers := db.offers[i := db.offers[i].(status := "accepted")])
  {
    match NestOffers.OfferIndex(db, userId, offerId)
    case None => Err(NotFound("Offer not found"))
    case Some(i) =>
      var offer := db.offers[i];
      if Unconvertible(offer.status) then Err(BadRequest("Cannot convert rejected or expired offer to order"))
      else
        var order := OrderFromOffer(db, userId, offer, newId);
        Ok(Saved(db.(orders := db.orders + [order], offers := db.offers[i := offer.(status := "accepted")]), order))
  }

  // ---------------------------------------------------------------- properties

  /** Proof helper for the numbering lemmas: a creation adds exactly one order. */
  lemma CreateAddsOneOrder(db: Db, userId: Id, dto: CreateOrderDto, newId: Id)
    requires Create(db, userId, dto, newId).Ok?
    ensures |Create(db, userId, dto, newId).value.db.orders| == |db.orders| + 1
  {
  }

  /** After a creation, the next order number is built from the count plus two,
      so it differs from the number just given out. */
  lemma CreateMovesOrderNumber(db: Db, userId: Id, dto: CreateOrderDto, newId: Id)
    requires Create(db, userId, dto, newId).Ok?
    ensures var out := Create(db, userId, dto, newId).value;
            NextOrderNumber(out.db) != out.row.orderNumber
  {
    var out := Create(db, userId, dto, newId).value;
    CreateAddsOneOrder(db, userId, dto, newId);
    assert NextOrderNumber(out.db) == DocumentNumber(OrderPrefix, |db.orders| + 2);
    ConsecutiveNumbersDiffer(OrderPrefix, |db.orders| + 1);
  }

  /** Numbering counts rows rather than remembering the largest number: once an
      order is removed, the next creation reuses the number the last creation
      gave out. */
  lemma RemoveThenCreateReusesNumber(db: Db, userId: Id, dto: CreateOrderDto, newId: Id, otherId: Id, againId: Id)
    requires Create(db, userId, dto, newId).Ok?
    requires Remove(Create(db, userId, dto, newId).value.db, userId, otherId).Ok?
    requires Create(Remove(Create(db, userId, dto, newId).value.db, userId, otherId).value, userId, dto, againId).Ok?
    ensures var first := Create(db, userId, dto, newId).value;
            var again := Create(Remove(first.db, userId, otherId).value, userId, dto, againId).value;
            again.row.orderNumber == first.row.orderNumber
  {
    var first := Create(db, userId, dto, newId).value;
    var removed := Remove(first.db, userId, otherId).value;
    assert |removed.orders| == |db.orders|;
  }

  /** Re-sending the current status records nothing. */
  lemma SameStatusLogsNothing(db: Db, userId: Id, id: Id, dto: UpdateOrderDto)
    requires FindOne(db, userId, id).Ok?
    requires dto.status == Some(FindOne(db, userId, id).value.status)
    ensures Update(db, userId, id, dto).value.row.timeline == FindOne(db, userId, id).value.timeline
  {
  }

  /** Sending the same status change twice logs it once: the second update finds
      the status already set. */
  lemma RepeatedStatusLogsOnce(db: Db, userId: Id, id: Id, dto: UpdateOrderDto)
    requires Update(db, userId, id, dto).Ok?
    ensures var once := Update(db, userId, id, dto).value;
            var twice := Update(once.db, userId, id, dto);
            twice.Ok? && twice.value.row.timeline == once.row.timeline
  {
    var once := Update(db, userId, id, dto).value;
    assert OrderOf(userId, id)(once.row);
    FirstIndexAfterSet(db.orders, OrderOf(userId, id), once.row);
    if dto.status.Some? {
      SameStatusLogsNothing(once.db, userId, id, dto);
    }
  }

  /** A converted order belongs to the offer's client, is worth the offer's
      total, links back to the offer and starts with 'created' then 'approved'. */
  lemma ConvertedOrderCarriesOffer(db: Db, userId: Id, offerId: Id, newId: Id)
    requires ConvertOfferToOrder(db, userId, offerId, newId).Ok?
    ensures var offer := NestOffers.FindOne(db, userId, offerId).value;
            var o := ConvertOfferToOrder(db, userId, offerId, newId).value.row;
            && o.clientId == offer.clientId && o.totalAmount == offer.total && o.offerId == Some(offerId)
            && |o.timeline| == 2 && o.timeline[0].event == "created" && o.timeline[1].event == "approved"
            && o.orderNumber == NextOrderNumber(db)
  {
  }

  /** After a conversion, `findOne` on the offer sees it accepted, with nothing
      else about it changed. */
  lemma ConvertedOfferIsAccepted(db: Db, userId: Id, offerId: Id, newId: Id)
    requires ConvertOfferToOrder(db, userId, offerId, newId).Ok?
    ensures var before := NestOffers.FindOne(db, userId, offerId).value;
            var after := ConvertOfferToOrder(db, userId, offerId, newId).value.db;
            NestOffers.FindOne(after, userId, offerId) == Ok(before.(status := "accepted"))
  {
    var i := NestOffers.OfferIndex(db, userId, offerId).value;
    var accepted := db.offers[i].(status := "accepted");
    assert NestOffers.OfferOf(userId, offerId)(accepted);
    FirstIndexAfterSet(db.offers, NestOffers.OfferOf(userId, offerId), accepted);
  }

  /** Proof helper for the numbering lemmas: a conversion adds exactly one order. */
  lemma ConvertAddsOneOrder(db: Db, userId: Id, offerId: Id, newId: Id)
    requires ConvertOfferToOrder(db, userId, offerId, newId).Ok?
    ensures |ConvertOfferToOrder(db, userId, offerId, newId).value.db.orders| == |db.orders| + 1
  {
  }

  /** Nothing stops a second conversion of the same offer: an accepted offer is
      convertible again. */
  lemma ConvertTwiceAllowed(db: Db, userId: Id, offerId: Id, newId: Id, againId: Id)
    requires ConvertOfferToOrder(db, userId, offerId, newId).Ok?
    ensures ConvertOfferToOrder(ConvertOfferToOrder(db, userId, offerId, newId).value.db, userId, offerId, againId).Ok?
  {
    ConvertedOfferIsAccepted(db, userId, offerId, newId);
  }

  /** The order of a second conversion gets a different number from the first. */
  lemma ConvertTwiceNumbersApart(db: Db, userId: Id, offerId: Id, newId: Id, againId: Id)
    requires ConvertOfferToOrder(db, userId, offerId, newId).Ok?
    ensures var first := ConvertOfferToOrder(db, userId, offerId, newId).value;
            var second := ConvertOfferToOrder(first.db, userId, offerId, againId);
            second.Ok? && second.value.row.orderNumber != first.row.orderNumber
  {
    var first := ConvertOfferToOrder(db, userId, offerId, newId).value;
    ConvertTwiceAllowed(db, userId, offerId, newId, againId);
    ConvertAddsOneOrder(db, userId, offerId, newId);
    assert NextOrderNumber(first.db) == DocumentNumber(OrderPrefix, |db.orders| + 2);
    ConsecutiveNumbersDiffer(OrderPrefix, |db.orders| + 1);
  }
}

=== FILE: nest_pricing.dfy ===
/** The line pricing the NestJS invoice and offer services share: every line is
    discounted, taxed and totalled with Prisma `Decimal` (exact, modelled as
    `real`), and the document amounts are the unrounded sums. */
module NestPricing {
  import opened Wrappers
  import opened Sums

  /** A line as the client sends it; `discount` is a percentage and may be absent. */
  datatype ItemInput = ItemInput(
    productId: Option<string>,
    description: string,
    quantity: real,
    unit: string,
    unitPrice: real,
    vatRate: real,
    discount: Option<real>)

  /** A line as stored: the inputs, the discount with its default, and the total. */
  datatype PricedItem = PricedItem(
    productId: Option<string>,
    description: string,
    quantity: real,
    unit: string,
    unitPrice: real,
    vatRate: real,
    discount: real,
    total: real)

  /** The amounts of a priced document. */
  datatype Priced = Priced(items: seq<PricedItem>, subtotal: real, vatAmount: real, total: real)

  /** `item.discount || 0`: an absent (or zero) discount counts as 0. */
  function DiscountOf(it: ItemInput): real {
    it.discount.GetOr(0.0)
  }

  /** quantity × unitPrice × (1 − discount/100). */
  function LineSubtotal(it: ItemInput): real {
    it.quantity * it.unitPrice * (1.0 - DiscountOf(it) / 100.0)
  }

  /** subtotal × vatRate/100. */
  function LineVat(it: ItemInput): real {
    LineSubtotal(it) * (it.vatRate / 100.0)
  }

  function LineTotal(it: ItemInput): real {
    LineSubtotal(it) + LineVat(it)
  }

  function StoredTotal(it: PricedItem): real { it.total }

  function PriceItem(it: ItemInput): (r: PricedItem)
    ensures r.total == LineTotal(it)
    ensures r.discount == DiscountOf(it)
    ensures r.quantity == it.quantity && r.unitPrice == it.unitPrice && r.vatRate == it.vatRate
    ensures r.description == it.description && r.unit == it.unit && r.productId == it.productId
  {
    PricedItem(it.productId, it.description, it.quantity, it.unit, it.unitPrice, it.vatRate,
               DiscountOf(it), LineTotal(it))
  }

  /** The item mapping and the two running sums of `create` and `update`. */
  function PriceItems(items: seq<ItemInput>): (r: Priced)
    ensures |r.items| == |items|
    ensures forall k :: 0 <= k < |items| ==> r.items[k] == PriceItem(items[k])
    ensures r.subtotal == Sum(items, LineSubtotal)
    ensures r.vatAmount == Sum(items, LineVat)
    ensures r.total == r.subtotal + r.vatAmount
  {
    var priced := seq(|items|, k requires 0 <= k < |items| => PriceItem(items[k]));
    var subtotal := Sum(items, LineSubtotal);
    var vat := Sum(items, LineVat);
    Priced(priced, subtotal, vat, subtotal + vat)
  }

  /** The document total is also the sum of the stored line totals. */
  lemma DocumentTotalIsSumOfLines(items: seq<ItemInput>)
    ensures PriceItems(items).total == Sum(PriceItems(items).items, StoredTotal)
  {
    var r := PriceItems(items);
    SumPointwise(items, LineSubtotal, LineVat, LineTotal);
    SumTransfer(items, LineTotal, r.items, StoredTotal);
  }

  /** A line's total is its gross amount scaled by the discount and the rate. */
  lemma LineTotalFactors(it: ItemInput)
    ensures LineTotal(it) == it.quantity * it.unitPrice * (1.0 - DiscountOf(it) / 100.0) * (1.0 + it.vatRate / 100.0)
  {
  }

  /** A full discount makes a line free whatever its rate. */
  lemma FullDiscountIsFree(it: ItemInput)
    requires DiscountOf(it) == 100.0
    ensures LineSubtotal(it) == 0.0 && LineVat(it) == 0.0 && LineTotal(it) == 0.0
  {
  }

  /** When every line carries the same rate, the document VAT is that rate
      applied to the document subtotal. */
  lemma {:induction false} UniformRateDocumentVat(items: seq<ItemInput>, rate: real)
    requires forall k :: 0 <= k < |items| ==> items[k].vatRate == rate
    ensures PriceItems(items).vatAmount == (rate / 100.0) * PriceItems(items).subtotal
  {
    SumScale(items, LineSubtotal, LineVat, rate / 100.0);
  }
}

=== FILE: sorting.dfy ===
/** Array helpers shared by the JavaScript models: `filter`, `find`,
    `slice(0, end)`, and `sort` with a comparator `(a, b) => key(b) - key(a)`
    (descending, and stable, as the language has required since ES2019). The
    sort is modelled as insertion from the left; any stable sort of the same
    comparator yields the same sequence. */
module Sorting {
  import opened Wrappers

  predicate SortedDesc<T>(s: seq<T>, key: T -> real) {
    forall i, j :: 0 <= i < j < |s| ==> key(s[i]) >= key(s[j])
  }

  /** Every element's key is at most `k`. */
  predicate AllAtMost<T>(s: seq<T>, key: T -> real, k: real) {
    forall i :: 0 <= i < |s| ==> key(s[i]) <= k
  }

  /** `x` placed after every element whose key is at least its own, so it
      follows the equal keys that were there before it. */
  function Insert<T>(x: T, s: seq<T>, key: T -> real): (r: seq<T>)
    ensures |r| == |s| + 1
  {
    if |s| == 0 then [x]
    else if key(s[0]) >= key(x) then [s[0]] + Insert(x, s[1..], key)
    else [x] + s
  }

  /** Insertion adds `x` and loses nothing. */
  lemma {:induction false} InsertPermutes<T>(x: T, s: seq<T>, key: T -> real)
    ensures multiset(Insert(x, s, key)) == multiset(s) + multiset{x}
    decreases |s|
  {
    if |s| > 0 && key(s[0]) >= key(x) {
      InsertPermutes(x, s[1..], key);
      assert s == [s[0]] + s[1..];
    }
  }

  lemma {:induction false} InsertBounded<T>(x: T, s: seq<T>, key: T -> real, k: real)
    requires AllAtMost(s, key, k) && key(x) <= k
    ensures AllAtMost(Insert(x, s, key), key, k)
    decreases |s|
  {
    if |s| > 0 && key(s[0]) >= key(x) {
      InsertBounded(x, s[1..], key, k);
      var r := Insert(x, s, key);
      assert forall i :: 1 <= i < |r| ==> r[i] == Insert(x, s[1..], key)[i - 1];
    }
  }

  /** Inserting into a sorted sequence keeps it sorted. */
  lemma {:induction false} InsertSorted<T>(x: T, s: seq<T>, key: T -> real)
    requires SortedDesc(s, key)
    ensures SortedDesc(Insert(x, s, key), key)
    decreases |s|
  {
    if |s| > 0 && key(s[0]) >= key(x) {
      var rest := Insert(x, s[1..], key);
      InsertSorted(x, s[1..], key);
      InsertBounded(x, s[1..], key, key(s[0]));
      assert Insert(x, s, key) == [s[0]] + rest;
    }
  }

  /** The descending, stable sort. */
  function SortDesc<T>(s: seq<T>, key: T -> real): (r: seq<T>)
    ensures |r| == |s|
    ensures multiset(r) == multiset(s)
    ensures SortedDesc(r, key)
  {
    if |s| == 0 then []
    else
      var init := s[..|s| - 1];
      var sorted := SortDesc(init, key);
      InsertSorted(s[|s| - 1], sorted, key);
      InsertPermutes(s[|s| - 1], sorted, key);
      assert s == init + [s[|s| - 1]];
      Insert(s[|s| - 1], sorted, key)
  }

  /** The elements `p` keeps, in order. */
  function Filter<T>(s: seq<T>, p: T -> bool): (r: seq<T>)
    ensures |r| <= |s|
  {
    if |s| == 0 then []
    else (if p(s[0]) then [s[0]] else []) + Filter(s[1..], p)
  }

  lemma {:induction false} FilterAppend<T>(a: seq<T>, b: seq<T>, p: T -> bool)
    ensures Filter(a + b, p) == Filter(a, p) + Filter(b, p)
    decreases |a|
  {
    if |a| > 0 {
      assert (a + b)[1..] == a[1..] + b;
      FilterAppend(a[1..], b, p);
    } else {
      assert a + b == b;
    }
  }

  lemma {:induction false} FilterNone<T>(s: seq<T>, p: T -> bool)
    requires forall i :: 0 <= i < |s| ==> !p(s[i])
    ensures Filter(s, p) == []
    decreases |s|
  {
    if |s| > 0 {
      FilterNone(s[1..], p);
    }
  }

  lemma {:induction false} FilterAll<T>(s: seq<T>, p: T -> bool)
    requires forall i :: 0 <= i < |s| ==> p(s[i])
    ensures Filter(s, p) == s
    decreases |s|
  {
    if |s| > 0 {
      FilterAll(s[1..], p);
      assert s == [s[0]] + s[1..];
    }
  }

  /** Filtering out an element that fails the predicate shortens the sequence. */
  lemma {:induction false} FilterDropsOne<T>(s: seq<T>, p: T -> bool, k: nat)
    requires k < |s| && !p(s[k])
    ensures |Filter(s, p)| < |s|
    decreases |s|
  {
    if k > 0 {
      FilterDropsOne(s[1..], p, k - 1);
    }
  }

  lemma {:induction false} FilterKeepsOnly<T>(s: seq<T>, p: T -> bool)
    ensures forall k :: 0 <= k < |Filter(s, p)| ==> p(Filter(s, p)[k])
    decreases |s|
  {
    if |s| > 0 {
      FilterKeepsOnly(s[1..], p);
      FilterCons(s[0], s[1..], p);
      assert s == [s[0]] + s[1..];
    }
  }

  /** An element survives the filter exactly when it was there and `p` holds of it. */
  lemma {:induction false} FilterMembers<T>(s: seq<T>, p: T -> bool, x: T)
    ensures x in Filter(s, p) <==> x in s && p(x)
    decreases |s|
  {
    if |s| > 0 {
      FilterMembers(s[1..], p, x);
      assert s == [s[0]] + s[1..];
    }
  }

  /** With multiplicity: the filter keeps every copy of an element `p` holds
      of, and none of the others. */
  lemma {:induction false} FilterCount<T>(s: seq<T>, p: T -> bool, x: T)
    ensures multiset(Filter(s, p))[x] == if p(x) then multiset(s)[x] else 0
    decreases |s|
  {
    if |s| > 0 {
      FilterCount(s[1..], p, x);
      FilterCons(s[0], s[1..], p);
      assert s == [s[0]] + s[1..];
    }
  }

  /** Filtering out the one failing element of `s + [a] + [b]`. */
  lemma FilterDropsMiddle<T>(s: seq<T>, a: T, b: T, p: T -> bool)
    requires forall k :: 0 <= k < |s| ==> p(s[k])
    requires !p(a) && p(b)
    ensures Filter(s + [a] + [b], p) == s + [b]
  {
    FilterAppend(s + [a], [b], p);
    FilterAppend(s, [a], p);
    FilterAll(s, p);
    FilterCons(a, [], p);
    FilterCons(b, [], p);
    assert Filter([a], p) == [];
    assert Filter([b], p) == [b];
    assert Filter(s + [a], p) == s;
  }

  function KeyEquals<T>(key: T -> real, v: real): T -> bool {
    (y: T) => key(y) == v
  }

  /** What `Filter` keeps of a single element. */
  function Keep<T>(y: T, p: T -> bool): seq<T> {
    if p(y) then [y] else []
  }

  lemma FilterCons<T>(y: T, t: seq<T>, p: T -> bool)
    ensures Filter([y] + t, p) == Keep(y, p) + Filter(t, p)
  {
    assert ([y] + t)[1..] == t;
  }

  /** Filtering a sequence with one more element at the end. */
  lemma FilterSnoc<T>(s: seq<T>, x: T, p: T -> bool)
    ensures Filter(s + [x], p) == Filter(s, p) + Keep(x, p)
  {
    FilterAppend(s, [x], p);
    FilterCons(x, [], p);
  }

  /** Sortedness as "each element bounds everything from it onwards", unfolded
      one position at a time. */
  predicate HeadsDominate<T>(s: seq<T>, key: T -> real)
    decreases |s|
  {
    |s| == 0 || (AllAtMost(s, key, key(s[0])) && HeadsDominate(s[1..], key))
  }

  lemma {:induction false} SortedHeadsDominate<T>(s: seq<T>, key: T -> real)
    requires SortedDesc(s, key)
    ensures HeadsDominate(s, key)
    decreases |s|
  {
    if |s| > 0 {
      assert forall i, j :: 0 <= i < j < |s[1..]| ==> s[1..][i] == s[i + 1] && s[1..][j] == s[j + 1];
      SortedHeadsDominate(s[1..], key);
    }
  }

  /** An element that outranks everything goes to the front, and no element
      behind it shares its key. */
  lemma InsertFrontKeepsTies<T>(x: T, s: seq<T>, key: T -> real, v: real)
    requires |s| > 0 && key(s[0]) < key(x)
    requires forall i :: 0 <= i < |s| ==> key(s[i]) < key(x)
    ensures Filter(Insert(x, s, key), KeyEquals(key, v)) == Filter(s, KeyEquals(key, v)) + Keep(x, KeyEquals(key, v))
  {
    var p := KeyEquals(key, v);
    assert Insert(x, s, key) == [x] + s;
    FilterCons(x, s, p);
    if key(x) == v {
      FilterNone(s, p);
    } else {
      assert Keep(x, p) == [];
    }
  }

  /** Inserting `x` adds it after the elements of equal key already present. */
  lemma {:induction false} InsertTiesDominated<T>(x: T, s: seq<T>, key: T -> real, v: real)
    requires HeadsDominate(s, key)
    ensures Filter(Insert(x, s, key), KeyEquals(key, v)) == Filter(s, KeyEquals(key, v)) + Keep(x, KeyEquals(key, v))
    decreases |s|
  {
    var p := KeyEquals(key, v);
    if |s| == 0 {
      FilterCons(x, [], p);
      assert Keep(x, p) + [] == Keep(x, p);
    } else if key(s[0]) >= key(x) {
      var rest := Insert(x, s[1..], key);
      assert Insert(x, s, key) == [s[0]] + rest;
      InsertTiesDominated(x, s[1..], key, v);
      FilterCons(s[0], rest, p);
      FilterCons(s[0], s[1..], p);
      assert [s[0]] + s[1..] == s;
      calc {
        Filter(Insert(x, s, key), p);
        Keep(s[0], p) + Filter(rest, p);
        Keep(s[0], p) + (Filter(s[1..], p) + Keep(x, p));
        (Keep(s[0], p) + Filter(s[1..], p)) + Keep(x, p);
        Filter(s, p) + Keep(x, p);
      }
    } else {
      InsertFrontKeepsTies(x, s, key, v);
    }
  }

  /** Inserting `x` into a sorted sequence adds it after the elements of equal
      key already present. */
  lemma InsertKeepsTies<T>(x: T, s: seq<T>, key: T -> real, v: real)
    requires SortedDesc(s, key)
    ensures Filter(Insert(x, s, key), KeyEquals(key, v)) == Filter(s, KeyEquals(key, v)) + Keep(x, KeyEquals(key, v))
  {
    SortedHeadsDominate(s, key);
    InsertTiesDominated(x, s, key, v);
  }

  /** Stability: among elements of equal key, the sort keeps their order. */
  lemma {:induction false} SortKeepsTies<T>(s: seq<T>, key: T -> real, v: real)
    ensures Filter(SortDesc(s, key), KeyEquals(key, v)) == Filter(s, KeyEquals(key, v))
    decreases |s|
  {
    if |s| > 0 {
      var p := KeyEquals(key, v);
      var init := s[..|s| - 1];
      var last := s[|s| - 1];
      var sorted := SortDesc(init, key);
      assert SortDesc(s, key) == Insert(last, sorted, key);
      SortKeepsTies(init, key, v);
      InsertKeepsTies(last, sorted, key, v);
      assert s == init + [last];
      FilterAppend(init, [last], p);
      FilterCons(last, [], p);
      assert [last] + [] == [last];
      assert Filter([last], p) == Keep(last, p) + [];
    }
  }

  /** JavaScript `s.slice(0, end)`: a negative end counts from the back. */
  function SliceTo<T>(s: seq<T>, end: int): (r: seq<T>)
    ensures end >= 0 ==> |r| == if end < |s| then end else |s|
    ensures end < 0 ==> |r| == if |s| + end > 0 then |s| + end else 0
    ensures r == s[..|r|]
  {
    var n := if end >= 0 then (if end < |s| then end else |s|)
             else (if |s| + end > 0 then |s| + end else 0);
    s[..n]
  }

  /** Cutting a sequence in two loses nothing. */
  lemma CutKeepsAll<T>(s: seq<T>, n: nat)
    requires n <= |s|
    ensures multiset(s[..n]) + multiset(s[n..]) == multiset(s)
  {
    assert s == s[..n] + s[n..];
  }

  /** Of a sorted sequence cut after `n` elements, everything kept ranks at
      least as high as everything dropped. */
  lemma SortedCutDominates<T>(s: seq<T>, key: T -> real, n: nat)
    requires SortedDesc(s, key) && n <= |s|
    ensures forall i, j :: 0 <= i < n && 0 <= j < |s| - n ==> key(s[..n][i]) >= key(s[n..][j])
  {
    assert forall i :: 0 <= i < n ==> s[..n][i] == s[i];
    assert forall j :: 0 <= j < |s| - n ==> s[n..][j] == s[n + j];
  }

  /** The same cut stated without positions: every element left out, counted
      with multiplicity, ranks no higher than any element kept. */
  lemma SortedCutDominatesRest<T>(s: seq<T>, key: T -> real, n: nat)
    requires SortedDesc(s, key) && n <= |s|
    ensures forall a, b :: a in s[..n] && b in multiset(s) - multiset(s[..n]) ==> key(a) >= key(b)
  {
    CutKeepsAll(s, n);
    forall a, b | a in s[..n] && b in multiset(s) - multiset(s[..n])
      ensures key(a) >= key(b)
    {
      assert b in multiset(s[n..]);
      var i :| 0 <= i < n && s[..n][i] == a;
      var j :| 0 <= j < |s| - n && s[n..][j] == b;
      assert s[..n][i] == s[i] && s[n..][j] == s[n + j];
    }
  }

  /** The position of the first element satisfying `p`: what JavaScript
      `find`, and Prisma `findFirst` and `findUnique` for unique keys, return. */
  function FirstIndex<T>(s: seq<T>, p: T -> bool): (r: Option<nat>)
    ensures r.Some? ==> r.value < |s| && p(s[r.value])
    ensures r.Some? ==> forall k :: 0 <= k < r.value ==> !p(s[k])
    ensures r.None? <==> forall k :: 0 <= k < |s| ==> !p(s[k])
  {
    if |s| == 0 then None
    else if p(s[0]) then Some(0)
    else
      match FirstIndex(s[1..], p)
      case Some(k) => Some(k + 1)
      case None => None
  }

  /** Overwriting the found element with one that still satisfies `p` keeps it
      the first match. */
  lemma FirstIndexAfterSet<T>(s: seq<T>, p: T -> bool, v: T)
    requires FirstIndex(s, p).Some? && p(v)
    ensures FirstIndex(s[FirstIndex(s, p).value := v], p) == FirstIndex(s, p)
  {
    var i := FirstIndex(s, p).value;
    var t := s[i := v];
    var r := FirstIndex(t, p);
    assert t[i] == v && p(t[i]);
    assert r.Some? && r.value <= i;
    assert forall k :: 0 <= k < i ==> t[k] == s[k];
  }

}

=== FILE: sums.dfy ===
/** Summation of a real-valued measure over a sequence, folded from the left
    exactly as `forEach` / `reduce` / LINQ `Sum` accumulate, and the largest
    value over the selected elements (LINQ `DefaultIfEmpty(0).Max()`). */
module Sums {
  import opened Sorting

  /** The largest `value` among the elements `member` selects, or 0 when that is
      larger or nothing is selected. */
  function MaxOver<T>(s: seq<T>, member: T -> bool, value: T -> int): (r: int)
    ensures r >= 0
    ensures forall i :: 0 <= i < |s| && member(s[i]) ==> value(s[i]) <= r
    ensures r == 0 || exists i :: 0 <= i < |s| && member(s[i]) && value(s[i]) == r
  {
    if |s| == 0 then 0
    else
      var init := s[..|s| - 1];
      var m := MaxOver(init, member, value);
      assert forall i :: 0 <= i < |init| ==> s[i] == init[i];
      var last := s[|s| - 1];
      if member(last) && value(last) > m then value(last) else m
  }

  function Sum<T>(s: seq<T>, f: T -> real): real
  {
    if |s| == 0 then 0.0 else Sum(s[..|s| - 1], f) + f(s[|s| - 1])
  }

  /** Summing a concatenation is summing the parts. */
  lemma {:induction false} SumAppend<T>(a: seq<T>, b: seq<T>, f: T -> real)
    ensures Sum(a + b, f) == Sum(a, f) + Sum(b, f)
    decreases |b|
  {
    if |b| == 0 {
      assert a + b == a;
    } else {
      assert (a + b)[..|a + b| - 1] == a + b[..|b| - 1];
      SumAppend(a, b[..|b| - 1], f);
    }
  }

  /** Summing a sequence that starts with `x`. */
  lemma SumCons<T>(x: T, s: seq<T>, f: T -> real)
    ensures Sum([x] + s, f) == f(x) + Sum(s, f)
  {
    SumAppend([x], s, f);
    assert [x][..0] == [];
  }

  /** Two measures that agree on every element have the same sum. */
  lemma {:induction false} SumCongruent<T>(s: seq<T>, f: T -> real, g: T -> real)
    requires forall i :: 0 <= i < |s| ==> f(s[i]) == g(s[i])
    ensures Sum(s, f) == Sum(s, g)
    decreases |s|
  {
    if |s| > 0 {
      SumCongruent(s[..|s| - 1], f, g);
    }
  }

  /** The sum of a pointwise sum of measures is the sum of the separate sums. */
  lemma {:induction false} SumPointwise<T>(s: seq<T>, f: T -> real, g: T -> real, h: T -> real)
    requires forall i :: 0 <= i < |s| ==> h(s[i]) == f(s[i]) + g(s[i])
    ensures Sum(s, h) == Sum(s, f) + Sum(s, g)
    decreases |s|
  {
    if |s| > 0 {
      SumPointwise(s[..|s| - 1], f, g, h);
    }
  }

  /** Scaling every element scales the sum. */
  lemma {:induction false} SumScale<T>(s: seq<T>, f: T -> real, g: T -> real, c: real)
    requires forall i :: 0 <= i < |s| ==> g(s[i]) == c * f(s[i])
    ensures Sum(s, g) == c * Sum(s, f)
    decreases |s|
  {
    if |s| > 0 {
      SumScale(s[..|s| - 1], f, g, c);
    }
  }

  /** Sums are taken over elements only: two sequences related elementwise by
      `f(a[i]) == g(b[i])` have equal sums. */
  lemma {:induction false} SumTransfer<T, U>(a: seq<T>, f: T -> real, b: seq<U>, g: U -> real)
    requires |a| == |b|
    requires forall i :: 0 <= i < |a| ==> f(a[i]) == g(b[i])
    ensures Sum(a, f) == Sum(b, g)
    decreases |a|
  {
    if |a| > 0 {
      SumTransfer(a[..|a| - 1], f, b[..|b| - 1], g);
    }
  }

  /** A measure that vanishes everywhere but at position `j` sums to its value there. */
  lemma {:induction false} SumSingle<T>(s: seq<T>, f: T -> real, j: nat)
    requires j < |s|
    requires forall i :: 0 <= i < |s| && i != j ==> f(s[i]) == 0.0
    ensures Sum(s, f) == f(s[j])
    decreases |s|
  {
    var init := s[..|s| - 1];
    if j < |s| - 1 {
      SumSingle(init, f, j);
    } else {
      SumZero(init, f);
    }
  }

  /** A measure that vanishes everywhere sums to zero. */
  lemma {:induction false} SumZero<T>(s: seq<T>, f: T -> real)
    requires forall i :: 0 <= i < |s| ==> f(s[i]) == 0.0
    ensures Sum(s, f) == 0.0
    decreases |s|
  {
    if |s| > 0 {
      SumZero(s[..|s| - 1], f);
    }
  }

  /** A non-empty sum of terms each at least `c >= 0` is at least `c`. */
  lemma {:induction false} SumAtLeast<T>(s: seq<T>, f: T -> real, c: real)
    requires c >= 0.0
    requires forall i :: 0 <= i < |s| ==> f(s[i]) >= c
    ensures Sum(s, f) >= 0.0
    ensures |s| > 0 ==> Sum(s, f) >= c
    decreases |s|
  {
    if |s| > 0 {
      SumAtLeast(s[..|s| - 1], f, c);
    }
  }

  /** Filtering then summing is summing a measure that is zero off the filter. */
  lemma {:induction false} SumFilter<T>(s: seq<T>, p: T -> bool, f: T -> real, g: T -> real)
    requires forall i :: 0 <= i < |s| ==> g(s[i]) == if p(s[i]) then f(s[i]) else 0.0
    ensures Sum(Filter(s, p), f) == Sum(s, g)
    decreases |s|
  {
    if |s| > 0 {
      var rest := s[1..];
      assert s == [s[0]] + rest;
      FilterCons(s[0], rest, p);
      SumAppend(Keep(s[0], p), Filter(rest, p), f);
      assert Sum(Keep(s[0], p), f) == g(s[0]) by {
        if p(s[0]) {
          assert [s[0]][..0] == [];
        }
      }
      SumFilter(rest, p, f, g);
      SumCons(s[0], rest, g);
    }
  }
}

=== FILE: text.dfy ===
/** Character-string helpers shared by every implementation: decimal rendering,
    zero padding, digit filtering, splitting, substring search and case folding. */
module Text {

  predicate IsDigit(c: char) {
    '0' <= c <= '9'
  }

  predicate AllDigits(s: string) {
    forall i :: 0 <= i < |s| ==> IsDigit(s[i])
  }

  function DigitChar(d: nat): (c: char)
    requires d < 10
    ensures IsDigit(c)
  {
    (('0' as int) + d) as char
  }

  function DigitValue(c: char): (d: nat)
    requires IsDigit(c)
    ensures d < 10
  {
    (c as int) - ('0' as int)
  }

  /** The value of a string of decimal digits (the empty string is 0). */
  function DigitsValue(s: string): nat
    requires AllDigits(s)
  {
    if |s| == 0 then 0 else DigitsValue(s[..|s| - 1]) * 10 + DigitValue(s[|s| - 1])
  }

  /** A canonical decimal numeral: digits only, no leading zero unless it is "0". */
  predicate Canonical(s: string) {
    |s| >= 1 && AllDigits(s) && (s[0] == '0' ==> |s| == 1)
  }

  /** Decimal rendering of a natural number, as `String(n)` or `n.ToString()` give it. */
  function NatToString(n: nat): (r: string)
    ensures Canonical(r)
    decreases n
  {
    if n < 10 then [DigitChar(n)] else NatToString(n / 10) + [DigitChar(n % 10)]
  }

  /** Decimal rendering of an integer, with a leading '-' for negative values. */
  function IntToString(n: int): (r: string)
    ensures |r| >= 1
    ensures n >= 0 <==> r[0] != '-'
  {
    if n < 0 then "-" + NatToString(-n) else NatToString(n)
  }

  /** Rendering then reading a natural number gives it back. */
  lemma {:induction false} NatToStringValue(n: nat)
    ensures DigitsValue(NatToString(n)) == n
    decreases n
  {
    if n >= 10 {
      var s := NatToString(n);
      assert s[..|s| - 1] == NatToString(n / 10);
      NatToStringValue(n / 10);
    }
  }

  lemma {:induction false} DigitsValueAtLeastFirst(s: string)
    requires |s| >= 1 && AllDigits(s)
    ensures DigitsValue(s) >= DigitValue(s[0])
    decreases |s|
  {
    if |s| > 1 {
      DigitsValueAtLeastFirst(s[..|s| - 1]);
    }
  }

  /** Reading then rendering a canonical numeral gives it back, so NatToString is
      a bijection between naturals and canonical numerals. */
  lemma {:induction false} CanonicalRoundTrip(s: string)
    requires Canonical(s)
    ensures NatToString(DigitsValue(s)) == s
    decreases |s|
  {
    if |s| > 1 {
      var p := s[..|s| - 1];
      assert Canonical(p);
      DigitsValueAtLeastFirst(p);
      CanonicalRoundTrip(p);
      var v := DigitsValue(s);
      assert v / 10 == DigitsValue(p) && v % 10 == DigitValue(s[|s| - 1]);
      assert s == p + [s[|s| - 1]];
    }
  }

  function Repeat(c: char, n: nat): (r: string)
    ensures |r| == n
    ensures forall i :: 0 <= i < n ==> r[i] == c
  {
    if n == 0 then "" else Repeat(c, n - 1) + [c]
  }

  /** JavaScript `s.padStart(width, c)` and the zero padding of .NET's `D` format:
      the result has length max(width, |s|), ends with `s`, and is filled with `c`.
      Padding never truncates. */
  function PadStart(s: string, width: int, c: char): (r: string)
    ensures |r| == if width > |s| then width else |s|
    ensures r[|r| - |s|..] == s
    ensures forall i :: 0 <= i < |r| - |s| ==> r[i] == c
  {
    if width <= |s| then s else Repeat(c, width - |s|) + s
  }

  lemma {:induction false} ZerosValue(z: string)
    requires forall i :: 0 <= i < |z| ==> z[i] == '0'
    ensures AllDigits(z) && DigitsValue(z) == 0
    decreases |z|
  {
    if |z| > 0 {
      ZerosValue(z[..|z| - 1]);
    }
  }

  /** Leading zeros do not change the value of a numeral. */
  lemma {:induction false} LeadingZerosValue(z: string, s: string)
    requires forall i :: 0 <= i < |z| ==> z[i] == '0'
    requires AllDigits(s)
    ensures AllDigits(z + s) && DigitsValue(z + s) == DigitsValue(s)
    decreases |s|
  {
    if |s| == 0 {
      assert z + s == z;
      ZerosValue(z);
    } else {
      assert (z + s)[..|z + s| - 1] == z + s[..|s| - 1];
      LeadingZerosValue(z, s[..|s| - 1]);
    }
  }

  /** A zero-padded rendering of `n` still reads back as `n`. */
  lemma PaddedValue(n: nat, width: int)
    ensures AllDigits(PadStart(NatToString(n), width, '0'))
    ensures DigitsValue(PadStart(NatToString(n), width, '0')) == n
  {
    var s := NatToString(n);
    var r := PadStart(s, width, '0');
    var z := r[..|r| - |s|];
    assert forall i :: 0 <= i < |z| ==> z[i] == '0';
    assert r == z + s;
    NatToStringValue(n);
    LeadingZerosValue(z, s);
  }

  /** JavaScript `s.replace(/\D/g, '')`: the digits of `s`, in order. */
  function DigitsOnly(s: string): (r: string)
    ensures AllDigits(r)
    ensures |r| <= |s|
  {
    if |s| == 0 then ""
    else if IsDigit(s[|s| - 1]) then DigitsOnly(s[..|s| - 1]) + [s[|s| - 1]]
    else DigitsOnly(s[..|s| - 1])
  }

  /** Filtering distributes over concatenation. */
  lemma {:induction false} DigitsOnlyAppend(a: string, b: string)
    ensures DigitsOnly(a + b) == DigitsOnly(a) + DigitsOnly(b)
    decreases |b|
  {
    if |b| == 0 {
      assert a + b == a;
    } else {
      assert (a + b)[..|a + b| - 1] == a + b[..|b| - 1];
      DigitsOnlyAppend(a, b[..|b| - 1]);
    }
  }

  /** A string of digits passes through unchanged; in particular the filter is idempotent. */
  lemma {:induction false} DigitsOnlyKeepsDigits(s: string)
    requires AllDigits(s)
    ensures DigitsOnly(s) == s
    decreases |s|
  {
    if |s| > 0 {
      DigitsOnlyKeepsDigits(s[..|s| - 1]);
    }
  }

  /** A string without digits is removed entirely. */
  lemma {:induction false} DigitsOnlyDropsNonDigits(s: string)
    requires forall i :: 0 <= i < |s| ==> !IsDigit(s[i])
    ensures DigitsOnly(s) == ""
    decreases |s|
  {
    if |s| > 0 {
      DigitsOnlyDropsNonDigits(s[..|s| - 1]);
    }
  }

  /** Ordinal `StartsWith`. */
  predicate StartsWith(s: string, prefix: string) {
    |prefix| <= |s| && s[..|prefix|] == prefix
  }

  /** C# `s.Split(sep)`: the pieces between separators, empty pieces included. */
  function Split(s: string, sep: char): (parts: seq<string>)
    ensures |parts| >= 1
    decreases |s|
  {
    if |s| == 0 then [""]
    else
      var rest := Split(s[1..], sep);
      if s[0] == sep then [""] + rest else [[s[0]] + rest[0]] + rest[1..]
  }

  function Join(parts: seq<string>, sep: char): string
    requires |parts| >= 1
    decreases |parts|
  {
    if |parts| == 1 then parts[0] else parts[0] + [sep] + Join(parts[1..], sep)
  }

  /** Splitting then joining with the same separator restores the string. */
  lemma {:induction false} JoinSplit(s: string, sep: char)
    ensures Join(Split(s, sep), sep) == s
    decreases |s|
  {
    if |s| > 0 {
      var rest := Split(s[1..], sep);
      JoinSplit(s[1..], sep);
      if s[0] == sep {
        assert ([""] + rest)[1..] == rest;
      } else {
        var parts := [[s[0]] + rest[0]] + rest[1..];
        if |rest| > 1 {
          assert parts[1..] == rest[1..];
          assert Join(rest, sep) == rest[0] + [sep] + Join(rest[1..], sep);
        }
        assert s == [s[0]] + s[1..];
      }
    }
  }

  /** No piece of a split contains the separator. */
  lemma {:induction false} SplitPiecesLackSeparator(s: string, sep: char)
    ensures forall k :: 0 <= k < |Split(s, sep)| ==> sep !in Split(s, sep)[k]
    decreases |s|
  {
    if |s| > 0 {
      SplitPiecesLackSeparator(s[1..], sep);
    }
  }

  /** A string without the separator is a single piece. */
  lemma {:induction false} SplitNoSeparator(s: string, sep: char)
    requires sep !in s
    ensures Split(s, sep) == [s]
    decreases |s|
  {
    if |s| > 0 {
      assert sep !in s[1..];
      SplitNoSeparator(s[1..], sep);
      assert s == [s[0]] + s[1..];
    }
  }

  /** A separator-free head glues onto the first piece of the tail. */
  lemma {:induction false} SplitGlue(a: string, b: string, sep: char)
    requires sep !in a
    ensures Split(a + b, sep) == [a + Split(b, sep)[0]] + Split(b, sep)[1..]
    decreases |a|
  {
    var pb := Split(b, sep);
    if |a| > 0 {
      assert (a + b)[1..] == a[1..] + b;
      assert sep !in a[1..];
      SplitGlue(a[1..], b, sep);
      var rest := Split(a[1..] + b, sep);
      assert rest == [a[1..] + pb[0]] + pb[1..];
      assert (a + b)[0] == a[0] != sep;
      assert Split(a + b, sep) == [[a[0]] + rest[0]] + rest[1..];
      assert rest[1..] == pb[1..];
      assert [a[0]] + (a[1..] + pb[0]) == a + pb[0];
    } else {
      assert a + b == b;
      assert a + pb[0] == pb[0];
      assert pb == [pb[0]] + pb[1..];
    }
  }

  /** Splitting `a + sep + b` with separator-free pieces gives exactly [a, b]. */
  lemma SplitTwo(a: string, b: string, sep: char)
    requires sep !in a && sep !in b
    ensures Split(a + [sep] + b, sep) == [a, b]
  {
    SplitNoSeparator(b, sep);
    var t := [sep] + b;
    assert t[1..] == b;
    assert Split(t, sep) == [""] + [b];
    assert a + [sep] + b == a + t;
    SplitGlue(a, t, sep);
    assert a + "" == a;
  }

  /** JavaScript `s.includes(t)`: `t` occurs in `s` as a contiguous substring. */
  predicate Includes(s: string, t: string)
    decreases |s|
  {
    |t| <= |s| && (s[..|t|] == t || (|s| > 0 && Includes(s[1..], t)))
  }

  /** `t` occurs in `s` starting at position `i`. */
  predicate OccursAt(s: string, t: string, i: int) {
    0 <= i <= |s| - |t| && s[i..i + |t|] == t
  }

  /** `Includes` is exactly "occurs at some position". */
  lemma {:induction false} IncludesMeansOccurs(s: string, t: string)
    ensures Includes(s, t) <==> exists i :: OccursAt(s, t, i)
    decreases |s|
  {
    if |t| <= |s| && |s| > 0 {
      IncludesMeansOccurs(s[1..], t);
      if exists i :: OccursAt(s, t, i) {
        var i :| OccursAt(s, t, i);
        if i > 0 {
          assert s[1..][i - 1..i - 1 + |t|] == t;
          assert OccursAt(s[1..], t, i - 1);
        }
      }
      if Includes(s[1..], t) && s[..|t|] != t {
        var k :| OccursAt(s[1..], t, k);
        assert s[k + 1..k + 1 + |t|] == t;
        assert OccursAt(s, t, k + 1);
      }
      if s[..|t|] == t {
        assert OccursAt(s, t, 0);
      }
    } else if |t| <= |s| {
      assert OccursAt(s, t, 0);
    }
  }

  /** A string includes each of its suffixes. */
  lemma IncludesSuffix(p: string, t: string)
    ensures Includes(p + t, t)
  {
    assert OccursAt(p + t, t, |p|);
    IncludesMeansOccurs(p + t, t);
  }

  /** JavaScript `toLowerCase` on Basic Latin, Latin-1 and Latin Extended-A
      (which covers the Czech alphabet). */
  function LowerChar(c: char): char {
    if 'A' <= c <= 'Z' then ((c as int) + 32) as char
    else if '\U{C0}' <= c <= '\U{DE}' && c != '\U{D7}' then ((c as int) + 32) as char
    else if '\U{100}' <= c <= '\U{137}' && (c as int) % 2 == 0 && c != '\U{130}' then ((c as int) + 1) as char
    else if '\U{139}' <= c <= '\U{148}' && (c as int) % 2 == 1 then ((c as int) + 1) as char
    else if '\U{14A}' <= c <= '\U{177}' && (c as int) % 2 == 0 then ((c as int) + 1) as char
    else if c == '\U{178}' then '\U{FF}'
    else if '\U{179}' <= c <= '\U{17E}' && (c as int) % 2 == 1 then ((c as int) + 1) as char
    else c
  }

  function ToLower(s: string): (r: string)
    ensures |r| == |s|
    ensures forall i :: 0 <= i < |s| ==> r[i] == LowerChar(s[i])
  {
    seq(|s|, i requires 0 <= i < |s| => LowerChar(s[i]))
  }

  /** Lower-casing is idempotent. */
  lemma ToLowerIdempotent(s: string)
    ensures ToLower(ToLower(s)) == ToLower(s)
  {
    forall i | 0 <= i < |s|
      ensures LowerChar(LowerChar(s[i])) == LowerChar(s[i])
    {
      LowerCharIdempotent(s[i]);
    }
  }

  lemma LowerCharIdempotent(c: char)
    ensures LowerChar(LowerChar(c)) == LowerChar(c)
  {
  }

  /** ECMAScript WhiteSpace and LineTerminator code points, which `trim` removes. */
  predicate IsJsSpace(c: char) {
    c == '\t' || c == '\n' || c == '\U{B}' || c == '\U{C}' || c == '\r' || c == ' '
    || c == '\U{A0}' || c == '\U{1680}' || ('\U{2000}' <= c <= '\U{200A}')
    || c == '\U{2028}' || c == '\U{2029}' || c == '\U{202F}' || c == '\U{205F}'
    || c == '\U{3000}' || c == '\U{FEFF}'
  }

  /** JavaScript `s.trim()`. */
  function JsTrim(s: string): (r: string)
    decreases |s|
  {
    if |s| > 0 && IsJsSpace(s[0]) then JsTrim(s[1..])
    else if |s| > 0 && IsJsSpace(s[|s| - 1]) then JsTrim(s[..|s| - 1])
    else s
  }

  /** The trimmed string is empty exactly when every character is white space. */
  lemma {:induction false} JsTrimEmpty(s: string)
    ensures JsTrim(s) == "" <==> forall i :: 0 <= i < |s| ==> IsJsSpace(s[i])
    decreases |s|
  {
    if |s| > 0 && IsJsSpace(s[0]) {
      JsTrimEmpty(s[1..]);
      assert forall i :: 1 <= i < |s| ==> s[i] == s[1..][i - 1];
    } else if |s| > 0 && IsJsSpace(s[|s| - 1]) {
      JsTrimEmpty(s[..|s| - 1]);
    }
  }

  /** Lower-casing never creates or removes white space. */
  lemma LowerCharSpace(c: char)
    ensures IsJsSpace(LowerChar(c)) <==> IsJsSpace(c)
  {
  }
}

=== FILE: wrappers.dfy ===
/** Failure-compatible Option and Result types shared by every service model. */
module Wrappers {

  datatype Option<+T> = None | Some(value: T) {

    /** The value, or `default` when absent. */
    function GetOr(default: T): T {
      match this
      case Some(v) => v
      case None => default
    }
  }

  /** The outcome of an operation that may throw or answer with an error status. */
  datatype Result<+T, +E> = Ok(value: T) | Err(error: E) {

    predicate IsFailure() {
      Err?
    }

    function PropagateFailure<U>(): Result<U, E>
      requires Err?
    {
      Err(error)
    }

    function Extract(): T
      requires Ok?
    {
      value
    }
  }
}
